=== FILE: README.md ===
# Platform settings hook — a Dafny model

This project models the override engine of a Cordova `after_prepare` hook,
`src/updatePlatformConfig.js`. The hook reads `preference` and `config-file`
declarations from `config.xml` and turns them into an ordered list of override
records for each target file. It then applies each list either to the
Android manifest tree (`AndroidManifest.xml`) or to the iOS `*-Info.plist`
dictionary.

The model is functional. XML nodes are immutable values
(`Xml.Element(tag, attrs, text, children)`), and a node inside a tree is named
by its position: the child indices that lead to it. JavaScript objects whose
key order matters are ordered association lists (`OrderedMap`): a write to an
existing key replaces the value in place, and a new key goes at the end. (A
JavaScript object differs for integer-like keys and `__proto__`; see "Left
out".)

Modules:

- `Wrappers`: `Option` and `Result`.
- `JsText`: the JavaScript string operations the hook relies on: `trim` with
  the ECMAScript white-space set, `indexOf(...) > -1`, `split` on one
  separator, and the `String(x)` of an attribute that may be `undefined`.
- `Xml`: element trees, positions and replacement at a position.
- `OrderedMap`: insertion-ordered maps and building one from a list of
  assignments where the last assignment wins.
- `ElementPath`: the part of the element-tree `find` that the hook uses:
  - `.`, `..`, `*` and tag steps, and `[@attr='v']` predicates;
  - a path string parser;
  - first match in document order;
  - the main-activity query.
- `ConfigXml`:
  - the preference mapping table;
  - `getPreferences`, `parsePreferences`;
  - `getConfigFilesByTargetAndParent`, `parseConfigFiles`;
  - `parseConfigXml`.
- `Manifest`: `updateAndroidManifest`:
  - parent resolution;
  - preference records, which write one attribute;
  - fragment records, which find or create a child and overwrite it.
- `Plist`:
  - `eltreeToXmlString`;
  - the top-level key replacement of `updateIosPlist`;
  - the blank-`<string>` rewrite.
- `Platform`: the target dispatch of `updatePlatformConfig` and the effect of
  one platform run on the project's manifest and plist.

How the main activity is kept: in the source it is an object reference looked
up once, before any record is applied. The model keeps its position instead.
A fragment record can overwrite the child list of one of the activity's
ancestors. The JavaScript object is then no longer part of the tree, and later
writes to it never reach the output, so the model drops the position (`None`).
From then on, records aimed at the main activity change nothing
(`Manifest.DetachedMainIgnored`).

The plist library (`plist.parse`, `plist.build`) and the element-tree parser
and writer are foreign code. `Plist.PlistCodec` passes the plist library in as
three functions:

- `parseFile`: parse the plist file;
- `decode`: parse the wrapper document and look up the key;
- `build`: serialise the dictionary.

Where the code and its design notes disagree, the model follows the code:

- Two `config-file` blocks with the same `target|parent` key: only the last one
  produces records (`ConfigXml.EarlierBlockIgnored`). Its entry keeps the
  position where the key first appeared (`OrderedMap.FromPairsKeys`, used by
  `ConfigXml.RecordOrder`).
- An empty `parent=""` also normalises to `./`, because the code tests
  `!parent`.
- The preference table is a plain object, so a lookup also finds the members
  every object inherits (`constructor`, `toString`, `__proto__` and the
  rest). A preference with such a name yields a record whose target, parent
  and destination are all `undefined`; no file is named `undefined`, so the
  record is never applied. A platform with such a name, or a `config-file`
  block with such a target and at least one child, makes the parse throw
  (`ConfigXml.ParseThrows`), and nothing is written for that platform.
- Each target file is written as soon as its records are applied. A failure
  at a later target keeps the earlier writes
  (`Platform.FailureKeepsEarlierWrites`).

## Model

| member | source | states |
|---|---|---|
| ConfigXml.GetPreferences | src/updatePlatformConfig.js:153-172 | The common preferences come first. Without a platform they are the whole list. With a platform they are followed by that platform's own `preference` children, except that the platform `common` gets the common list a second time, because of the cache. |
| ConfigXml.PreferenceTargets | src/updatePlatformConfig.js:98-110 | Preferences only ever address the Android manifest. A mapping the lookup finds targets `AndroidManifest.xml`, unless it is the empty mapping of a name inherited from `Object.prototype`, which is filed under `undefined`. Off `android` only that empty mapping is found. |
| ConfigXml.PreferencePair | src/updatePlatformConfig.js:212-234 | A preference yields at most one record. It yields one iff the lookup finds a mapping, and then the record carries the mapping's target, parent and destination and the preference node as data. |
| ConfigXml.PreferencePairsMapped | src/updatePlatformConfig.js:208-236 | Every preference record comes from one of the given preferences. Its target, parent and destination are those of the mapping found for that preference's name. |
| ConfigXml.PreferencePairsAppend | src/updatePlatformConfig.js:212 | The preference pass over two lists joined is the pass over the first list followed by the pass over the second. |
| ConfigXml.PreferencePairsComplete | src/updatePlatformConfig.js:212-234 | There is one record per preference that has a mapping, in the order of the preferences. The record of the `i`th preference sits right after those of the mapped preferences before it. |
| ConfigXml.PreferenceRecordsOffAndroid | src/updatePlatformConfig.js:98-110 | Off `android`, the only preference records are those of inherited names, filed under `undefined`. A platform without a table (neither `android` nor `ios`) yields none. Preferences without inherited names yield none either. |
| ConfigXml.UnmappedPreferenceDropped | src/updatePlatformConfig.js:214-221 | A preference for which the lookup finds no mapping can be deleted from the input without changing the records. |
| ConfigXml.NormaliseParent | src/updatePlatformConfig.js:185-189 | An absent, empty, `/*` or `*/` parent becomes `./`. Every other value is kept unchanged. |
| ConfigXml.IndexBlocksLast | src/updatePlatformConfig.js:178-196 | Looking up a `target`/`parent` key in the block index gives the last block with that key, and nothing when no block has it. |
| ConfigXml.EarlierBlockIgnored | src/updatePlatformConfig.js:190-192 | Replacing a block that a later block with the same key shadows, by any block with that key, leaves the index unchanged. |
| ConfigXml.ChildRecords | src/updatePlatformConfig.js:252-259 | A block yields one record per direct child, in order. Each record has the block's parent, the config-file kind, the child's tag as destination, and the child itself as data. |
| ConfigXml.RecordOrder | src/updatePlatformConfig.js:199-205 | On the pair-keyed index: a target's list is its preference records in order, then the records of the indexed blocks naming that target. The targets are exactly those named by some record, and no target appears twice. The index lists each key once, where it first appeared. The targets are listed in the order a preference or an index entry first named them. |
| ConfigXml.TargetOrder | src/updatePlatformConfig.js:229-260 | Grouping the records lists each target once, in the order a preference record or an index entry first named it. |
| ConfigXml.RecordOrderAsWritten | src/updatePlatformConfig.js:178-260 | The same facts for the source's string-keyed index, where the target is the text of the key before its first bar. |
| OrderedMap.FromPairsKeys | src/updatePlatformConfig.js:192 | An object built by assignments has the assigned keys, each once, in the order of their first assignment. |
| ConfigXml.BarInTargetMisfiled | src/updatePlatformConfig.js:190 | As written: a block whose target is `a`, a vertical bar, then `b`, with parent `c`, files its child under target `a` with parent `b`. |
| ConfigXml.BarInTargetKept | src/updatePlatformConfig.js:190 | Corrected: the same block files its child under its own target, `a`, the bar, then `b`, with parent `c`. |
| ConfigXml.ParseAsWrittenAgrees | src/updatePlatformConfig.js:190-192 | When no block's target or normalised parent holds a vertical bar, the string-keyed index gives the same records as the pair-keyed one. |
| ConfigXml.ThrowsAgree | src/updatePlatformConfig.js:199-260 | When no block's target or normalised parent holds a bar, the source's index and the pair-keyed one throw on the same documents. |
| ElementPath.RootPath | src/updatePlatformConfig.js:187-188 | `./` parses to the self step and finds the node itself. |
| ElementPath.FindSelector | src/updatePlatformConfig.js:323-327 | `find` with a child selector (a tag, optionally with an `android:name` predicate) returns the first child in document order that has the tag and, when one is given, the name. It returns nothing when no child matches. |
| ElementPath.PredicateParsed | src/updatePlatformConfig.js:290 | `[@name='value']` followed by any text parses to the predicate that the attribute `name` equals `value`, and leaves exactly that text, provided the name is a name token without `=` and the value holds no `'`. |
| ElementPath.QueryParsed | src/updatePlatformConfig.js:290 | A query shaped like the hook's, with three tags, a tag carrying one attribute predicate, then `..` twice, parses to those steps in order, for any tags, attribute name and value that hold no `/` or other operator character. |
| ElementPath.SplitJoinPath | src/updatePlatformConfig.js:290 | Splitting at `/` recovers the segments of a path joined with `/` when no segment holds a `/`. |
| ElementPath.MainActivityPathParsed | src/updatePlatformConfig.js:290 | The query text, `application/activity/intent-filter/action[@android:name='android.intent.action.MAIN']/../..`, parses to four child steps, the `android:name` predicate and two parent steps. |
| ElementPath.MainActivityFound | src/updatePlatformConfig.js:289-293 | The main-activity query, evaluated from its text, finds something iff some top-level `application` has an `activity` with an `intent-filter` holding an `action` named `android.intent.action.MAIN`. What it finds is such an activity, and no other such activity comes before it in document order. |
| ElementPath.MainActivityOrdered | src/updatePlatformConfig.js:290-291 | The nodes the query selects are in document order: tag steps and the attribute predicate keep their lists strictly ordered, and `..` keeps them ordered up to repetitions. |
| Manifest.SelectorFor | src/updatePlatformConfig.js:312-325 | The selector's tag is the destination. It refines by `android:name` iff the destination is `uses-permission`, and the name it refines by is the fragment's. |
| Manifest.Upsert | src/updatePlatformConfig.js:327-343 | The first matching child is replaced by the fragment. With no match, the fragment is appended. No other child changes. |
| Manifest.UpsertKeepsOther | src/updatePlatformConfig.js:323-332 | An upsert never moves or changes the first match of a different, compatible selector. |
| Manifest.PermissionsCoexist | src/updatePlatformConfig.js:323-325 | Two `uses-permission` fragments with different `android:name` values both end up among the children. |
| Manifest.PermissionNotDuplicated | src/updatePlatformConfig.js:323-332 | A `uses-permission` fragment whose name is already present overwrites a child with that name instead of adding one. The child count is unchanged. |
| Manifest.LastFragmentWins | src/updatePlatformConfig.js:327-343 | Two fragments for the same selector give the same children as the second alone. |
| Manifest.Settles | src/updatePlatformConfig.js:301-346 | After a sequence of well-keyed upserts, the first child matching a selector is the last fragment given for that selector. |
| Manifest.UpsertAllIdempotent | src/updatePlatformConfig.js:301-346 | Applying a well-keyed sequence of upserts twice gives the same children as applying it once. |
| Manifest.Resolve | src/updatePlatformConfig.js:303-309 | The `__cordovaMainActivity__` parent resolves to the main activity found before any record ran, or to nothing once that node has left the tree. Any other parent resolves to its first match as a path from the root when it has one, and otherwise to the first match of `*/` followed by the parent. A result is always a valid node of the current tree. |
| Manifest.ApplyRecord | src/updatePlatformConfig.js:301-346 | A record whose parent does not resolve leaves the state unchanged. No record changes the root tag, removes a top-level child or re-targets the main activity. |
| Manifest.PreferenceSetsOneAttribute | src/updatePlatformConfig.js:319-320 | A preference record sets the attribute named by its destination on the parent to the preference's `value`. Every other attribute, tag and text in the tree is as before. |
| Manifest.FragmentRewritesChildren | src/updatePlatformConfig.js:327-343 | A fragment record replaces the parent's child list by the upserted one. Nodes that are not at or below the parent keep their tag, attributes, text and child count. Nodes beside the path are untouched. |
| Manifest.DetachedMainIgnored | src/updatePlatformConfig.js:299-317 | Once the main activity is detached, records aimed at it can be removed without changing the result. |
| Manifest.NoMainActivityIgnored | src/updatePlatformConfig.js:299-317 | On a manifest without a main activity, records aimed at it can be removed without changing the output. |
| Manifest.RootFragments | src/updatePlatformConfig.js:301-346 | Fragment records aimed at `./` act on the root's children exactly as the sequence of their upserts does. |
| Manifest.RootFragmentsIdempotent | src/updatePlatformConfig.js:296-350 | Running the hook twice with the same keyed fragments under `./` gives the same manifest as running it once. |
| Manifest.MainFragments | src/updatePlatformConfig.js:299-346 | Fragment records aimed at an attached main activity act on its children exactly as the sequence of their upserts does. The main activity stays where it is. |
| Manifest.UpdateAndroidManifest | src/updatePlatformConfig.js:296-350 | The root keeps its tag, and no top-level child is removed. |
| Manifest.WriteAndroidManifest | src/updatePlatformConfig.js:296-350 | The update fails iff some record's parent is an absolute path, which the library's `find` at line 308 refuses. It fails with the library's message, whichever record carries that parent, because the throw leaves the loop before the write. Otherwise the result is the merged manifest. |
| Manifest.AbsoluteParentSkipped | src/updatePlatformConfig.js:303-317 | An absolute parent resolves to nothing in the model's path language, so the merge alone would skip the record. That is why the failure is stated separately. |
| ElementPath.AbsolutePathUnfound | src/updatePlatformConfig.js:308 | A path with a leading `/` finds nothing, from the root or one level down (`*/` followed by it). |
| Plist.Render | src/updatePlatformConfig.js:125-139 | The output starts with `<tag>` and ends with `</tag>`. |
| Plist.RenderIgnoresAttributes | src/updatePlatformConfig.js:124-139 | Two trees that differ only in attributes serialise identically. |
| Plist.TextHidesChildren | src/updatePlatformConfig.js:129-135 | A node whose text is not blank serialises as if it had no children. |
| Plist.ApplyPlistRecords | src/updatePlatformConfig.js:359-366 | Replacing the top-level entries fails iff some record's wrapper document fails to decode. |
| Plist.PlistLastRecordWins | src/updatePlatformConfig.js:359-366 | After the replacements, a key holds the decoded value of the last record for it. A key that no record names keeps its old value. |
| Plist.PlistKeysDistinct | src/updatePlatformConfig.js:365 | Replacing entries never duplicates a key. |
| Plist.CollapseClean | src/updatePlatformConfig.js:369 | After the rewrite, no `<string>` element holds only white space. |
| Plist.CleanUnchanged | src/updatePlatformConfig.js:369 | The rewrite leaves text that is already clean unchanged. |
| Plist.CollapseIdempotent | src/updatePlatformConfig.js:369 | Rewriting twice is the same as rewriting once. |
| Plist.UpdatedDict | src/updatePlatformConfig.js:356-366 | A file that does not parse is an error. Otherwise the update fails iff some record does not decode. On success, a key some record names holds the decoded value of its last record, and every other key holds what the file had. |
| Plist.UpdateIosPlist | src/updatePlatformConfig.js:355-372 | The update succeeds iff the dictionary update does. Its output is the library's serialisation of that updated dictionary with blank strings emptied, and it is clean. |
| Platform.DispatchFor | src/updatePlatformConfig.js:277-283 | A target goes to the plist update iff the platform is `ios` and its name contains `Info.plist`. It goes to the manifest update iff the platform is `android` and its name is exactly `AndroidManifest.xml`. |
| Platform.UpdateTarget | src/updatePlatformConfig.js:271-286 | An ignored target changes nothing. A plist target never touches the manifest, and a manifest target never touches the plist. A manifest target fails iff the project has no manifest or some record's parent is an absolute path. |
| Platform.UndefinedTargetIgnored | src/updatePlatformConfig.js:277-283 | The records filed under `undefined` reach no file on any platform. |
| Platform.RunsAgree | src/updatePlatformConfig.js:190-192 | When no block's target or normalised parent holds a bar, the run as written and the run with pair keys give the same result. |
| Platform.UpdateTargetsAppend | src/updatePlatformConfig.js:271-286 | Running two target lists in turn is running their concatenation. The second list starts from the files the first one left, and does not run if the first one failed. |
| Platform.FailureKeepsEarlierWrites | src/updatePlatformConfig.js:271-286 | A target that fails ends the run with its error and with the files as the targets before it left them. |
| Platform.NothingDispatched | src/updatePlatformConfig.js:271-286 | Targets that dispatch nowhere leave the project unchanged and do not fail. |
| Platform.OtherPlatformsUntouched | src/updatePlatformConfig.js:267-287 | On any platform other than `ios` and `android` the project is unchanged, and the run fails iff parsing throws. |
| Platform.AndroidTargets | src/updatePlatformConfig.js:271-286 | With distinct targets, the Android run is the manifest update with the `AndroidManifest.xml` list. It fails with nothing written when the manifest is missing, or when a record's parent is an absolute path. It changes nothing when there is no such list. |
| Platform.AndroidUpdate | src/updatePlatformConfig.js:267-287 | On `android`, with the source's own parse: a throwing parse fails and writes nothing. Otherwise the project changes only through the `AndroidManifest.xml` list. Without that list nothing changes. With it, a missing manifest is the path error, an absolute parent on any record is the library's error with nothing written, and otherwise the manifest is the updated one. |
| Platform.IosKeepsManifest | src/updatePlatformConfig.js:277-280 | On `ios` the manifest is never changed, whether the run fails or not. |
| Platform.IosPlistClean | src/updatePlatformConfig.js:277-280 | On `ios`, once some target names `Info.plist`, a run that does not fail leaves a plist with no blank `<string>` element. |
| Platform.IosUpdate | src/updatePlatformConfig.js:267-287 | The whole iOS run, with the source's own parse, keeps the manifest, and a successful run that reached an `Info.plist` target leaves a clean plist. |

## Left out

- File reading and writing, the BOM skip in `parseElementtreeSync`, console
  output, directory enumeration and the per-platform `try`/`catch` loop. These
  are host plumbing. A thrown error ends the platform run and is kept in its
  `failure` field, with the files as they were left.
- ConfigXml.ParseThrows: the message of the error is not modelled; the
  failure carries the fixed text `TypeError`.
- `getAndroidManifestFilePath`: the two `existsSync` probes are reduced to
  "the project has a manifest or not". The path choice between the two Cordova
  layouts is not modelled.
- `isCordova` from `cordova-lib`: the project root is implicit.
- The element-tree parser and writer (`et.XML`, `ElementTree.write`). Parsing
  `config.xml` and the manifest is assumed to succeed: the model receives both
  as trees, so a file that `et.XML` rejects, which makes the source throw and
  end the platform run, cannot occur. The manifest is kept as a tree between
  targets, so writing it and parsing it again is taken to give the same tree.
- The plist library (`plist.parse`, `plist.build`) is foreign code and is a
  parameter of the model (`Plist.PlistCodec`). The key written into the plist
  wrapper document is not escaped, and how the decoder treats such a key is
  left to the decoder.
- Plist.ApplyPlistRecords: the dictionary is a JavaScript object, which lists
  integer-like keys (such as a `parent="2"`) first, in numeric order, and
  treats the key `__proto__` as the object's prototype rather than an entry.
  The model appends every new key at the end and stores `__proto__` as an
  ordinary entry, so for such keys the order `plist.build` sees, and the
  `__proto__` entry claimed by `Plist.PlistLastRecordWins` and
  `Plist.UpdatedDict`, differ from the source.
- The iOS file name, built from `findtext('name')`: every `Info.plist` target
  writes the one plist of the project.
- The caching of the parsed `config.xml` and of the preference lists is
  modelled as pure functions of the document. The cache quirk that gives the
  platform `common` its list twice is kept.
- Manifest.ApplyPreference: a preference without a `value` attribute leaves
  the tree unchanged. The source stores `undefined`, which the writer then
  drops or prints.
- Plist.Render: its contract states only the enclosing tags. The content
  between them is the definition itself. What the content leaves out is stated
  by `Plist.RenderIgnoresAttributes` and `Plist.TextHidesChildren`.
- Manifest.UpdateAndroidManifest: its own contract states only what the whole
  run preserves. The effect of each record is stated by `Manifest.ApplyRecord`,
  `Manifest.PreferenceSetsOneAttribute` and `Manifest.FragmentRewritesChildren`,
  and the effect of record sequences by `Manifest.RootFragments` and
  `Manifest.MainFragments`.
- Manifest.Resolve: the model's path language has `.`, `..`, `*`, tags and
  `[@name='value']`. A path that leaves this language finds nothing in the
  model. In the source, `//` (any descendant) and the predicates `[tag]` and
  `[n]` select nodes, and a malformed predicate makes the library throw. Such
  parents are not modelled. The exception is a parent written as an absolute
  path (a leading `/`): the library throws on it, and that failure is modelled
  by `Manifest.WriteAndroidManifest`.
- Manifest.SelectorFor: the `uses-permission` selector is matched on the tag
  and the `android:name` value directly. The source pastes the name into a path
  string, so a name holding `'`, `]` or `/` gives a path the library reads
  differently. Such names are not modelled.
- JavaScript `for ... in` lists integer-like keys first and walks prototype
  keys. The model keeps plain insertion order. Integer-like targets name no
  file that is updated, so the order of the writes is the same.
- ConfigXml.AddBlocks: a block with no children whose target is an inherited
  name stores the inherited value itself in the source (and nothing at all
  for `__proto__`). The model stores an empty list. Neither is ever applied.
- The `tail` text of elements: it only affects formatting.
- Manifest.RootFragmentsIdempotent: idempotence is proved for fragments aimed
  at the root, and, at the level of one child list, for any well-keyed
  sequence. It is not claimed for a whole document. A path with `..`, or a
  fragment that detaches the main activity, can resolve to a different node on
  the second run.

## Findings

| source | as written | input that shows it | evidently intended | confidence | as-written member | corrected member |
|---|---|---|---|---|---|---|
| src/updatePlatformConfig.js:190-249 | Blocks are keyed by target, a vertical bar, then parent, and the key is later split at every bar. | A `config-file` whose target is `a`, a bar, `b`, and whose parent is `c`. Its child is filed under target `a` with parent `b`. | The block's own target (`a`, bar, `b`) and parent `c`. | not executed | ConfigXml.BarInTargetMisfiled | ConfigXml.BarInTargetKept |

`Platform.UpdatePlatformConfig` runs the code as written, over the string-keyed
index. `Platform.UpdatePlatformConfigCorrected` runs the same update over the
pair-keyed index, and `Platform.RunsAgree` shows that the two differ only when
a target or parent holds a bar.

=== FILE: config_xml.dfy ===
/** Reading `config.xml` and indexing its overrides: the preferences of a platform, looked up
    in the fixed preference table, and the `config-file` blocks of the platform, keyed by
    target file and parent locator. The result lists, per target file, the override records
    in the order the merge applies them. */
module ConfigXml {
  import opened Wrappers
  import opened JsText
  import opened Xml
  import opened OrderedMap

  datatype Kind = PreferenceKind | ConfigFileKind

  /** One override: where it applies (`parent`), what it writes (`destination`: an attribute
      name for a preference, a child tag for a config-file element) and the `config.xml`
      element it comes from (`data`). */
  datatype Record = Record(parent: string, kind: Kind, destination: string, data: Element)

  /** Where a known preference goes: target file, parent locator, attribute. */
  datatype Mapping = Mapping(target: string, parent: string, destination: string)

  /** Records grouped by target file name, in the order target names first appeared. */
  type ConfigData = seq<(string, seq<Record>)>

  const ManifestTarget := "AndroidManifest.xml"
  const MainActivityParent := "__cordovaMainActivity__"
  const RootParent := "./"

  /** The preference tables: Android's, an empty one for iOS, and none for other platforms. */
  function MappingTable(platform: string): Option<map<string, Mapping>> {
    if platform == "android" then Some(AndroidTable)
    else if platform == "ios" then Some(map[])
    else None
  }

  /** Android preferences write attributes of the manifest root, of `application` or of the
      main activity. */
  const AndroidTable: map<string, Mapping> := map[
    "android-manifest-hardwareAccelerated" := Mapping(ManifestTarget, RootParent, "android:hardwareAccelerated"),
    "android-installLocation" := Mapping(ManifestTarget, RootParent, "android:installLocation"),
    "android-activity-hardwareAccelerated" := Mapping(ManifestTarget, "application", "android:hardwareAccelerated"),
    "android-configChanges" := Mapping(ManifestTarget, MainActivityParent, "android:configChanges"),
    "android-launchMode" := Mapping(ManifestTarget, MainActivityParent, "android:launchMode"),
    "android-theme" := Mapping(ManifestTarget, MainActivityParent, "android:theme"),
    "android-windowSoftInputMode" := Mapping(ManifestTarget, MainActivityParent, "android:windowSoftInputMode"),
    "android-applicationName" := Mapping(ManifestTarget, "application", "android:name")
  ]

  // ---------------------------------------------------------------------------------------
  // Reading config.xml

  /** The `platform` children of the document whose `name` attribute is `platform`. */
  function PlatformSections(cs: seq<Element>, platform: string): (r: seq<Element>)
    ensures forall s | s in r :: s in cs && s.tag == "platform" && GetAttr(s, "name") == Some(platform)
  {
    if |cs| == 0 then []
    else
      var here := if cs[0].tag == "platform" && GetAttr(cs[0], "name") == Some(platform) then [cs[0]] else [];
      here + PlatformSections(cs[1..], platform)
  }

  /** The children with a given tag of each section, section after section. */
  function SectionChildren(sections: seq<Element>, tag: string): (r: seq<Element>)
    ensures forall c | c in r :: c.tag == tag
  {
    if |sections| == 0 then []
    else ChildrenTagged(sections[0].children, tag) + SectionChildren(sections[1..], tag)
  }

  /** `findall("platform[@name='<platform>']/<tag>")` on the document root. */
  function PlatformChildren(doc: Element, platform: string, tag: string): (r: seq<Element>)
    ensures forall c | c in r :: c.tag == tag
  {
    SectionChildren(PlatformSections(doc.children, platform), tag)
  }

  function CommonPreferences(doc: Element): (r: seq<Element>)
    ensures forall c | c in r :: c.tag == "preference" && c in doc.children
  {
    ChildrenTagged(doc.children, "preference")
  }

  /** The preferences that apply to a platform: the top-level ones, then those inside the
      platform's sections. An empty platform name selects the top-level ones only. The
      per-platform lists are cached in the same object as the top-level list, under the key
      `common`, so a platform named `common` gets the top-level list twice. */
  function GetPreferences(doc: Element, platform: string): (r: seq<Element>)
    ensures forall c | c in r :: c.tag == "preference"
    ensures CommonPreferences(doc) <= r
    ensures platform == "" ==> r == CommonPreferences(doc)
    ensures platform == "common" ==> r[|CommonPreferences(doc)|..] == CommonPreferences(doc)
    ensures platform !in {"", "common"} ==> r[|CommonPreferences(doc)|..] == PlatformChildren(doc, platform, "preference")
  {
    var common := CommonPreferences(doc);
    if platform == "" then common
    else if platform == "common" then common + common
    else common + PlatformChildren(doc, platform, "preference")
  }

  /** The platform's `config-file` elements, in document order. */
  function ConfigFileBlocks(doc: Element, platform: string): (r: seq<Element>)
    ensures forall c | c in r :: c.tag == "config-file"
  {
    PlatformChildren(doc, platform, "config-file")
  }

  // ---------------------------------------------------------------------------------------
  // Preferences

  /** The names every JavaScript object answers to, inherited from `Object.prototype`. A
      lookup of one in a table that lacks it finds a function (or, for `__proto__`, the
      prototype itself): a value that counts as present but has no fields. */
  const InheritedNames: set<string> := {
    "constructor", "__proto__", "__defineGetter__", "__defineSetter__", "__lookupGetter__",
    "__lookupSetter__", "hasOwnProperty", "isPrototypeOf", "propertyIsEnumerable", "toString",
    "toLocaleString", "valueOf"}

  /** What an inherited entry yields: every field reads as `undefined`. */
  const InheritedMapping := Mapping(Undefined, Undefined, Undefined)

  /** `preferenceMappingData[platform][name]` on a platform with a table: the table's own
      entry, or the empty mapping of an inherited name. */
  function MappingFor(platform: string, name: string): Option<Mapping> {
    match MappingTable(platform)
    case None => None
    case Some(table) =>
      if name in table then Some(table[name])
      else if name in InheritedNames then Some(InheritedMapping)
      else None
  }

  /** Preferences only ever address the Android manifest: a mapping the lookup finds targets
      `AndroidManifest.xml`, or is the empty mapping of an inherited name, filed under
      `undefined`; off Android only the empty one is found. */
  lemma PreferenceTargets(platform: string, name: string)
    ensures MappingFor(platform, name).Some? ==>
      MappingFor(platform, name).value.target == ManifestTarget || MappingFor(platform, name).value.target == Undefined
    ensures MappingFor(platform, name).Some? && name !in InheritedNames ==>
      MappingFor(platform, name).value.target == ManifestTarget
    ensures MappingFor(platform, name).Some? && platform != "android" ==>
      MappingFor(platform, name).value == InheritedMapping
  {
  }

  /** The record a mapping makes of a preference, with its target file. */
  function MappedRecord(m: Mapping, p: Element): (string, Record) {
    (m.target, Record(m.parent, PreferenceKind, m.destination, p))
  }

  /** The record a preference yields, with its target file: the one its mapping makes, and
      none when its name has no mapping. */
  function PreferencePair(p: Element, platform: string): (r: seq<(string, Record)>)
    ensures |r| <= 1
    ensures |r| == 1 <==> MappingFor(platform, JsString(p.attrs, "name")).Some?
    ensures |r| == 1 ==> r[0] == MappedRecord(MappingFor(platform, JsString(p.attrs, "name")).value, p)
  {
    match MappingFor(platform, JsString(p.attrs, "name"))
    case None => []
    case Some(m) => [MappedRecord(m, p)]
  }

  function PreferencePairs(prefs: seq<Element>, platform: string): (r: seq<(string, Record)>)
    ensures |r| <= |prefs|
  {
    if |prefs| == 0 then [] else PreferencePair(prefs[0], platform) + PreferencePairs(prefs[1..], platform)
  }

  /** Every record the preference pass emits is a preference record whose target, parent and
      attribute are the mapping of the preference it carries. */
  lemma {:induction false} PreferencePairsMapped(prefs: seq<Element>, platform: string)
    ensures forall pr | pr in PreferencePairs(prefs, platform) ::
      && pr.1.kind == PreferenceKind && pr.1.data in prefs
      && MappingFor(platform, JsString(pr.1.data.attrs, "name")).Some?
      && pr == MappedRecord(MappingFor(platform, JsString(pr.1.data.attrs, "name")).value, pr.1.data)
  {
    if |prefs| > 0 {
      PreferencePairsMapped(prefs[1..], platform);
    }
  }

  /** The preference pass over two lists is the pass over each, one after the other. */
  lemma {:induction false} PreferencePairsAppend(a: seq<Element>, b: seq<Element>, platform: string)
    ensures PreferencePairs(a + b, platform) == PreferencePairs(a, platform) + PreferencePairs(b, platform)
  {
    if |a| > 0 {
      var h := PreferencePair(a[0], platform);
      var x, y := PreferencePairs(a[1..], platform), PreferencePairs(b, platform);
      assert (a + b)[0] == a[0] && (a + b)[1..] == a[1..] + b;
      PreferencePairsAppend(a[1..], b, platform);
      assert PreferencePairs(a + b, platform) == h + (x + y);
      assert h + (x + y) == (h + x) + y;
    } else {
      assert a + b == b;
    }
  }

  /** How many of the preferences have a mapping. */
  function MappedCount(prefs: seq<Element>, platform: string): nat {
    if |prefs| == 0 then 0
    else (if MappingFor(platform, JsString(prefs[0].attrs, "name")).Some? then 1 else 0) + MappedCount(prefs[1..], platform)
  }

  lemma {:induction false} MappedCountLength(prefs: seq<Element>, platform: string)
    ensures |PreferencePairs(prefs, platform)| == MappedCount(prefs, platform)
  {
    if |prefs| > 0 {
      MappedCountLength(prefs[1..], platform);
    }
  }

  /** Every preference with a mapping yields its record, in the order of the preferences:
      one record per mapped preference, and the record of the `i`th preference comes right
      after those of the mapped preferences before it. */
  lemma PreferencePairsComplete(prefs: seq<Element>, platform: string, i: nat)
    requires i < |prefs| && MappingFor(platform, JsString(prefs[i].attrs, "name")).Some?
    ensures |PreferencePairs(prefs, platform)| == MappedCount(prefs, platform)
    ensures MappedCount(prefs[..i], platform) < |PreferencePairs(prefs, platform)|
    ensures PreferencePairs(prefs, platform)[MappedCount(prefs[..i], platform)]
      == MappedRecord(MappingFor(platform, JsString(prefs[i].attrs, "name")).value, prefs[i])
  {
    MappedCountLength(prefs, platform);
    MappedCountLength(prefs[..i], platform);
    assert prefs == prefs[..i] + ([prefs[i]] + prefs[i + 1..]);
    PreferencePairsAppend(prefs[..i], [prefs[i]] + prefs[i + 1..], platform);
    PreferencePairsAppend([prefs[i]], prefs[i + 1..], platform);
    assert [prefs[i]][1..] == [];
    assert PreferencePairs([prefs[i]], platform) == PreferencePair(prefs[i], platform) + [];
  }

  /** Off Android, the only records are those of preferences named after an inherited
      property, filed under `undefined`; a platform without a table, or preferences without
      such names, yield none. */
  lemma {:induction false} PreferenceRecordsOffAndroid(prefs: seq<Element>, platform: string)
    requires platform != "android"
    ensures forall pr | pr in PreferencePairs(prefs, platform) ::
      pr.0 == Undefined && JsString(pr.1.data.attrs, "name") in InheritedNames
    ensures MappingTable(platform).None? ==> PreferencePairs(prefs, platform) == []
    ensures (forall p | p in prefs :: JsString(p.attrs, "name") !in InheritedNames) ==> PreferencePairs(prefs, platform) == []
  {
    if |prefs| > 0 {
      assert forall p | p in prefs[1..] :: p in prefs;
      PreferenceRecordsOffAndroid(prefs[1..], platform);
    }
  }

  /** A preference whose name has no mapping contributes nothing: the records are those
      of the other preferences, in the same order. */
  lemma {:induction false} UnmappedPreferenceDropped(prefs: seq<Element>, i: nat, platform: string)
    requires i < |prefs|
    requires MappingFor(platform, JsString(prefs[i].attrs, "name")).None?
    ensures PreferencePairs(prefs, platform) == PreferencePairs(prefs[..i] + prefs[i + 1..], platform)
  {
    if i == 0 {
      assert prefs[..0] + prefs[1..] == prefs[1..];
    } else {
      UnmappedPreferenceDropped(prefs[1..], i - 1, platform);
      assert (prefs[..i] + prefs[i + 1..])[1..] == prefs[1..][..i - 1] + prefs[1..][i..];
      assert (prefs[..i] + prefs[i + 1..])[0] == prefs[0];
    }
  }

  // ---------------------------------------------------------------------------------------
  // Config-file blocks

  /** The parent locator of a block: absent, empty, `/*` and `*/` all name the document root. */
  function NormaliseParent(parent: Option<string>): (r: string)
    ensures parent.None? || parent.value in {"", "/*", "*/"} ==> r == RootParent
    ensures parent.Some? && parent.value !in {"", "/*", "*/"} ==> r == parent.value
  {
    match parent
    case None => RootParent
    case Some(p) => if p == "" || p == "/*" || p == "*/" then RootParent else p
  }

  /** The (target file, normalised parent) pair that identifies a block. */
  function BlockKey(b: Element): (string, string) {
    (JsString(b.attrs, "target"), NormaliseParent(GetAttr(b, "parent")))
  }

  /** The last block carrying a given key. */
  function LastWithKey(bs: seq<Element>, k: (string, string)): (r: Option<Element>)
    ensures r.Some? ==> r.value in bs && BlockKey(r.value) == k
    ensures r.None? <==> forall b | b in bs :: BlockKey(b) != k
  {
    if |bs| == 0 then None
    else if BlockKey(bs[|bs| - 1]) == k then Some(bs[|bs| - 1])
    else
      var r := LastWithKey(bs[..|bs| - 1], k);
      assert forall b | b in bs :: b in bs[..|bs| - 1] || b == bs[|bs| - 1];
      r
  }

  /** Each block with its key, in document order. */
  function KeyedBlocks(bs: seq<Element>): (r: seq<((string, string), Element)>)
    ensures |r| == |bs|
    ensures forall i :: 0 <= i < |bs| ==> r[i] == (BlockKey(bs[i]), bs[i])
  {
    seq(|bs|, i requires 0 <= i < |bs| => (BlockKey(bs[i]), bs[i]))
  }

  /** The blocks indexed by key (`result[key] = item` for each block in turn). */
  function IndexBlocks(bs: seq<Element>): seq<((string, string), Element)> {
    FromPairs(KeyedBlocks(bs))
  }

  lemma {:induction false} LastValueKeyed(bs: seq<Element>, k: (string, string))
    ensures LastValue(KeyedBlocks(bs), k) == LastWithKey(bs, k)
  {
    if |bs| > 0 {
      assert KeyedBlocks(bs)[..|bs| - 1] == KeyedBlocks(bs[..|bs| - 1]);
      LastValueKeyed(bs[..|bs| - 1], k);
    }
  }

  /** The index holds, for each key, the last block carrying it, and no entry for a key no
      block carries. */
  lemma IndexBlocksLast(bs: seq<Element>, k: (string, string))
    ensures Get(IndexBlocks(bs), k) == LastWithKey(bs, k)
  {
    FromPairsLast(KeyedBlocks(bs), k);
    LastValueKeyed(bs, k);
  }

  /** Replacing a block by another with the same key, when a later block has that key too,
      changes nothing: an earlier block with a repeated key contributes nothing. */
  lemma EarlierBlockIgnored(bs: seq<Element>, i: nat, j: nat, c: Element)
    requires i < j < |bs| && BlockKey(bs[j]) == BlockKey(bs[i]) && BlockKey(c) == BlockKey(bs[i])
    ensures IndexBlocks(bs[i := c]) == IndexBlocks(bs)
  {
    var kbs := KeyedBlocks(bs);
    assert KeyedBlocks(bs[i := c]) == kbs[i := (kbs[i].0, c)];
    OverwrittenIgnored(kbs, i, j, c);
  }

  /** The records of a block: one per direct child, with the block's parent and the child's tag. */
  function ChildRecords(parent: string, block: Element): (r: seq<Record>)
    ensures |r| == |block.children|
    ensures forall i :: 0 <= i < |r| ==>
      r[i] == Record(parent, ConfigFileKind, block.children[i].tag, block.children[i])
  {
    seq(|block.children|, i requires 0 <= i < |block.children| =>
      Record(parent, ConfigFileKind, block.children[i].tag, block.children[i]))
  }

  // ---------------------------------------------------------------------------------------
  // Grouping by target file

  /** `items = configData[t] || []; items.push(...); configData[t] = items`. */
  function Append(cd: ConfigData, t: string, extra: seq<Record>): ConfigData {
    Put(cd, t, Get(cd, t).GetOr([]) + extra)
  }

  lemma AppendSpec(cd: ConfigData, t0: string, extra: seq<Record>, t: string)
    ensures Get(Append(cd, t0, extra), t).GetOr([]) == Get(cd, t).GetOr([]) + (if t0 == t then extra else [])
    ensures t in Keys(Append(cd, t0, extra)) <==> t in Keys(cd) || t == t0
    ensures Distinct(Keys(cd)) ==> Distinct(Keys(Append(cd, t0, extra)))
  {
    if Distinct(Keys(cd)) { PutDistinct(cd, t0, Get(cd, t0).GetOr([]) + extra); }
    if t0 != t {
      assert Get(cd, t).GetOr([]) + [] == Get(cd, t).GetOr([]);
    }
  }

  /** Append each preference record to its target's list. */
  function AddPairs(cd: ConfigData, pairs: seq<(string, Record)>): ConfigData
    decreases |pairs|
  {
    if |pairs| == 0 then cd else AddPairs(Append(cd, pairs[0].0, [pairs[0].1]), pairs[1..])
  }

  /** Append the records of each indexed block to its target's list; a block without
      children still creates its target's (empty) list. */
  function AddBlocks(cd: ConfigData, entries: seq<((string, string), Element)>): ConfigData
    decreases |entries|
  {
    if |entries| == 0 then cd
    else AddBlocks(Append(cd, entries[0].0.0, ChildRecords(entries[0].0.1, entries[0].1)), entries[1..])
  }

  /** The preference records of a platform, each with its target file. */
  function ConfigPairs(doc: Element, platform: string): seq<(string, Record)> {
    PreferencePairs(GetPreferences(doc, platform), platform)
  }

  /** The indexed config-file blocks of a platform. */
  function ConfigEntries(doc: Element, platform: string): seq<((string, string), Element)> {
    IndexBlocks(ConfigFileBlocks(doc, platform))
  }

  /** `parseConfigXml`: the preference records, then the config-file records. */
  function ParseConfigXml(doc: Element, platform: string): ConfigData {
    AddBlocks(AddPairs([], ConfigPairs(doc, platform)), ConfigEntries(doc, platform))
  }

  // Reference definitions of what a target's list holds.

  function PairsFor(pairs: seq<(string, Record)>, t: string): seq<Record> {
    if |pairs| == 0 then []
    else (if pairs[0].0 == t then [pairs[0].1] else []) + PairsFor(pairs[1..], t)
  }


  function EntriesFor(entries: seq<((string, string), Element)>, t: string): seq<Record> {
    if |entries| == 0 then []
    else
      (if entries[0].0.0 == t then ChildRecords(entries[0].0.1, entries[0].1) else [])
      + EntriesFor(entries[1..], t)
  }

  /** The target files the indexed blocks name, in index order. */
  function EntryTargets(entries: seq<((string, string), Element)>): (r: seq<string>)
    ensures |r| == |entries|
    ensures forall i :: 0 <= i < |r| ==> r[i] == entries[i].0.0
  {
    if |entries| == 0 then [] else [entries[0].0.0] + EntryTargets(entries[1..])
  }

  lemma Assoc<T>(a: seq<T>, b: seq<T>, c: seq<T>)
    ensures a + b + c == a + (b + c)
  {
  }

  lemma {:induction false} AddPairsSpec(cd: ConfigData, pairs: seq<(string, Record)>, t: string)
    ensures Get(AddPairs(cd, pairs), t).GetOr([]) == Get(cd, t).GetOr([]) + PairsFor(pairs, t)
    ensures t in Keys(AddPairs(cd, pairs)) <==> t in Keys(cd) || t in Keys(pairs)
    ensures Distinct(Keys(cd)) ==> Distinct(Keys(AddPairs(cd, pairs)))
    decreases |pairs|
  {
    if |pairs| == 0 {
      assert Get(cd, t).GetOr([]) + PairsFor(pairs, t) == Get(cd, t).GetOr([]);
    } else {
      var t0 := pairs[0].0;
      var cd' := Append(cd, t0, [pairs[0].1]);
      AppendSpec(cd, t0, [pairs[0].1], t);
      AddPairsSpec(cd', pairs[1..], t);
      Assoc(Get(cd, t).GetOr([]), if t0 == t then [pairs[0].1] else [], PairsFor(pairs[1..], t));
      assert Keys(pairs) == [t0] + Keys(pairs[1..]);
    }
  }

  lemma {:induction false} AddBlocksSpec(cd: ConfigData, entries: seq<((string, string), Element)>, t: string)
    ensures Get(AddBlocks(cd, entries), t).GetOr([]) == Get(cd, t).GetOr([]) + EntriesFor(entries, t)
    ensures t in Keys(AddBlocks(cd, entries)) <==> t in Keys(cd) || t in EntryTargets(entries)
    ensures Distinct(Keys(cd)) ==> Distinct(Keys(AddBlocks(cd, entries)))
    decreases |entries|
  {
    if |entries| == 0 {
      assert Get(cd, t).GetOr([]) + EntriesFor(entries, t) == Get(cd, t).GetOr([]);
    } else {
      var t0 := entries[0].0.0;
      var recs := ChildRecords(entries[0].0.1, entries[0].1);
      var cd' := Append(cd, t0, recs);
      AppendSpec(cd, t0, recs, t);
      AddBlocksSpec(cd', entries[1..], t);
      Assoc(Get(cd, t).GetOr([]), if t0 == t then recs else [], EntriesFor(entries[1..], t));
      assert EntryTargets(entries) == [t0] + EntryTargets(entries[1..]);
    }
  }

  /** The list for a target file holds its preference records, in the order of the
      preferences, then the records of its config-file blocks: block by block in the order
      their keys first appeared, each block's children in document order. A target has a
      list exactly when a preference maps to it or a block names it, and no target is listed
      twice. */
  lemma RecordOrder(doc: Element, platform: string, t: string)
    ensures Get(ParseConfigXml(doc, platform), t).GetOr([])
      == PairsFor(ConfigPairs(doc, platform), t) + EntriesFor(ConfigEntries(doc, platform), t)
    ensures t in Keys(ParseConfigXml(doc, platform))
      <==> t in Keys(ConfigPairs(doc, platform)) || t in EntryTargets(ConfigEntries(doc, platform))
    ensures Distinct(Keys(ParseConfigXml(doc, platform)))
    ensures Keys(ConfigEntries(doc, platform)) == FirstOccurrences(Keys(KeyedBlocks(ConfigFileBlocks(doc, platform))))
    ensures Keys(ParseConfigXml(doc, platform))
      == FirstOccurrences(Keys(ConfigPairs(doc, platform)) + EntryTargets(ConfigEntries(doc, platform)))
  {
    var prefs := ConfigPairs(doc, platform);
    var entries := ConfigEntries(doc, platform);
    var cd0: ConfigData := [];
    var cd1 := AddPairs(cd0, prefs);
    AddPairsSpec(cd0, prefs, t);
    AddBlocksSpec(cd1, entries, t);
    FromPairsKeys(KeyedBlocks(ConfigFileBlocks(doc, platform)));
    TargetOrder(prefs, entries);
    var a, b := PairsFor(prefs, t), EntriesFor(entries, t);
    assert Get(cd0, t).GetOr([]) == [] && Keys(cd0) == [];
    assert Get(cd1, t).GetOr([]) == a by {
      assert Get(cd1, t).GetOr([]) == [] + a;
    }
  }

  /** The targets of the grouped records, each once, in the order a preference or a block
      first named them. */
  lemma TargetOrder(pairs: seq<(string, Record)>, entries: seq<((string, string), Element)>)
    ensures Keys(AddBlocks(AddPairs([], pairs), entries)) == FirstOccurrences(Keys(pairs) + EntryTargets(entries))
  {
    var ks: seq<string> := [];
    AddPairsKeys([], pairs, ks);
    assert ks + Keys(pairs) == Keys(pairs);
    AddBlocksKeys(AddPairs([], pairs), entries, Keys(pairs));
  }

  lemma AppendKeys(cd: ConfigData, t: string, extra: seq<Record>, ks: seq<string>)
    requires Keys(cd) == FirstOccurrences(ks)
    ensures Keys(Append(cd, t, extra)) == FirstOccurrences(ks + [t])
  {
    FirstOccurrencesSnoc(ks, t);
  }

  lemma {:induction false} AddPairsKeys(cd: ConfigData, pairs: seq<(string, Record)>, ks: seq<string>)
    requires Keys(cd) == FirstOccurrences(ks)
    ensures Keys(AddPairs(cd, pairs)) == FirstOccurrences(ks + Keys(pairs))
    decreases |pairs|
  {
    if |pairs| == 0 {
      assert ks + Keys(pairs) == ks;
    } else {
      var t0 := pairs[0].0;
      AppendKeys(cd, t0, [pairs[0].1], ks);
      AddPairsKeys(Append(cd, t0, [pairs[0].1]), pairs[1..], ks + [t0]);
      assert Keys(pairs) == [t0] + Keys(pairs[1..]);
      Assoc(ks, [t0], Keys(pairs[1..]));
    }
  }

  lemma {:induction false} AddBlocksKeys(cd: ConfigData, entries: seq<((string, string), Element)>, ks: seq<string>)
    requires Keys(cd) == FirstOccurrences(ks)
    ensures Keys(AddBlocks(cd, entries)) == FirstOccurrences(ks + EntryTargets(entries))
    decreases |entries|
  {
    if |entries| == 0 {
      assert ks + EntryTargets(entries) == ks;
    } else {
      var t0 := entries[0].0.0;
      var recs := ChildRecords(entries[0].0.1, entries[0].1);
      AppendKeys(cd, t0, recs, ks);
      AddBlocksKeys(Append(cd, t0, recs), entries[1..], ks + [t0]);
      assert EntryTargets(entries) == [t0] + EntryTargets(entries[1..]);
      Assoc(ks, [t0], EntryTargets(entries[1..]));
    }
  }

  // ---------------------------------------------------------------------------------------
  // The block index as written: string keys `target|parent`, split again on `|`

  function JoinKey(k: (string, string)): string {
    k.0 + "|" + k.1
  }

  /** `key.split('|')`: the text before the first bar, and the text between the first and
      the second bar. */
  function SplitKey(key: string): (string, string) {
    (Before(key, '|'), Before(After(key, '|'), '|'))
  }

  predicate NoBar(k: (string, string)) {
    '|' !in k.0 && '|' !in k.1
  }

  /** Splitting a joined key gives back the pair exactly when neither half holds a bar. */
  lemma SplitJoin(k: (string, string))
    requires NoBar(k)
    ensures SplitKey(JoinKey(k)) == k
  {
    var key := JoinKey(k);
    assert key == k.0 + ("|" + k.1);
    assert key == k.0 + ['|'] + k.1;
    BeforeFirst(k.0, '|', k.1);
    assert key[|k.0| + 1..] == k.1;
    assert After(key, '|') == k.1;
    BeforeWhole(k.1, '|');
  }

  /** The source's index: the same assignments, on the joined string keys. */
  function IndexBlocksAsWritten(bs: seq<Element>): seq<(string, Element)> {
    FromPairs(JoinKeys(KeyedBlocks(bs)))
  }

  function AddBlocksAsWritten(cd: ConfigData, entries: seq<(string, Element)>): ConfigData
    decreases |entries|
  {
    if |entries| == 0 then cd
    else
      var k := SplitKey(entries[0].0);
      AddBlocksAsWritten(Append(cd, k.0, ChildRecords(k.1, entries[0].1)), entries[1..])
  }

  /** `parseConfigXml` with the string-keyed block index of the source. */
  function ParseConfigXmlAsWritten(doc: Element, platform: string): ConfigData {
    AddBlocksAsWritten(AddPairs([], ConfigPairs(doc, platform)), IndexBlocksAsWritten(ConfigFileBlocks(doc, platform)))
  }

  function JoinKeys(m: seq<((string, string), Element)>): (r: seq<(string, Element)>)
    ensures |r| == |m|
    ensures forall i :: 0 <= i < |m| ==> r[i] == (JoinKey(m[i].0), m[i].1)
  {
    if |m| == 0 then [] else [(JoinKey(m[0].0), m[0].1)] + JoinKeys(m[1..])
  }

  /** Joining keeps bar-free keys apart. */
  lemma JoinInjective(a: (string, string), b: (string, string))
    requires NoBar(a) && NoBar(b) && a != b
    ensures JoinKey(a) != JoinKey(b)
  {
    SplitJoin(a);
    SplitJoin(b);
  }

  lemma {:induction false} PutJoin(m: seq<((string, string), Element)>, k: (string, string), v: Element)
    requires NoBar(k) && forall k' | k' in Keys(m) :: NoBar(k')
    ensures JoinKeys(Put(m, k, v)) == Put(JoinKeys(m), JoinKey(k), v)
  {
    if |m| > 0 {
      if m[0].0 == k {
        assert Put(m, k, v) == [(k, v)] + m[1..];
        assert JoinKeys(Put(m, k, v)) == [(JoinKey(k), v)] + JoinKeys(m[1..]);
      } else {
        assert Keys(m)[0] == m[0].0;
        JoinInjective(m[0].0, k);
        assert Keys(m[1..]) == Keys(m)[1..];
        PutJoin(m[1..], k, v);
        assert Put(m, k, v) == [m[0]] + Put(m[1..], k, v);
        assert JoinKeys(m)[1..] == JoinKeys(m[1..]);
        assert JoinKeys(Put(m, k, v)) == [(JoinKey(m[0].0), m[0].1)] + JoinKeys(Put(m[1..], k, v));
      }
    }
  }

  lemma {:induction false} FromPairsJoin(kvs: seq<((string, string), Element)>)
    requires forall p | p in kvs :: NoBar(p.0)
    ensures FromPairs(JoinKeys(kvs)) == JoinKeys(FromPairs(kvs))
  {
    if |kvs| > 0 {
      var n := |kvs|;
      var front := kvs[..n - 1];
      assert JoinKeys(kvs)[..n - 1] == JoinKeys(front);
      assert forall p | p in front :: p in kvs;
      FromPairsJoin(front);
      forall k' | k' in Keys(FromPairs(front)) ensures NoBar(k') {
        FromPairsLast(front, k');
      }
      PutJoin(FromPairs(front), kvs[n - 1].0, kvs[n - 1].1);
    }
  }

  /** With bar-free keys, the string-keyed index is the pair-keyed index with its keys joined. */
  lemma IndexAsWrittenAgrees(bs: seq<Element>)
    requires forall b | b in bs :: NoBar(BlockKey(b))
    ensures IndexBlocksAsWritten(bs) == JoinKeys(IndexBlocks(bs))
  {
    var kbs := KeyedBlocks(bs);
    forall p | p in kbs ensures NoBar(p.0) {
      var i :| 0 <= i < |kbs| && kbs[i] == p;
      assert bs[i] in bs;
    }
    FromPairsJoin(kbs);
  }

  lemma {:induction false} AddBlocksAsWrittenAgrees(cd: ConfigData, entries: seq<((string, string), Element)>)
    requires forall k | k in Keys(entries) :: NoBar(k)
    ensures AddBlocksAsWritten(cd, JoinKeys(entries)) == AddBlocks(cd, entries)
    decreases |entries|
  {
    if |entries| > 0 {
      assert Keys(entries)[0] == entries[0].0;
      SplitJoin(entries[0].0);
      assert JoinKeys(entries)[1..] == JoinKeys(entries[1..]);
      assert Keys(entries[1..]) == Keys(entries)[1..];
      var k := entries[0].0;
      AddBlocksAsWrittenAgrees(Append(cd, k.0, ChildRecords(k.1, entries[0].1)), entries[1..]);
    }
  }

  /** When no block's target or parent holds a bar, the source's string keys give the same
      records as the pair keys. */
  lemma ParseAsWrittenAgrees(doc: Element, platform: string)
    requires forall b | b in ConfigFileBlocks(doc, platform) :: NoBar(BlockKey(b))
    ensures ParseConfigXmlAsWritten(doc, platform) == ParseConfigXml(doc, platform)
  {
    var bs := ConfigFileBlocks(doc, platform);
    IndexAsWrittenAgrees(bs);
    forall k' | k' in Keys(IndexBlocks(bs)) ensures NoBar(k') {
      IndexBlocksLast(bs, k');
    }
    AddBlocksAsWrittenAgrees(AddPairs([], ConfigPairs(doc, platform)), IndexBlocks(bs));
  }

  // The string-keyed grouping, described like the pair-keyed one

  /** The target files of the string-keyed index: the text of each key before its first bar. */
  function AsWrittenTargets(entries: seq<(string, Element)>): (r: seq<string>)
    ensures |r| == |entries|
    ensures forall i :: 0 <= i < |r| ==> r[i] == SplitKey(entries[i].0).0
  {
    if |entries| == 0 then [] else [SplitKey(entries[0].0).0] + AsWrittenTargets(entries[1..])
  }

  function EntriesForAsWritten(entries: seq<(string, Element)>, t: string): seq<Record> {
    if |entries| == 0 then []
    else
      var k := SplitKey(entries[0].0);
      (if k.0 == t then ChildRecords(k.1, entries[0].1) else []) + EntriesForAsWritten(entries[1..], t)
  }

  lemma {:induction false} AddBlocksAsWrittenSpec(cd: ConfigData, entries: seq<(string, Element)>, t: string)
    ensures Get(AddBlocksAsWritten(cd, entries), t).GetOr([]) == Get(cd, t).GetOr([]) + EntriesForAsWritten(entries, t)
    ensures t in Keys(AddBlocksAsWritten(cd, entries)) <==> t in Keys(cd) || t in AsWrittenTargets(entries)
    ensures Distinct(Keys(cd)) ==> Distinct(Keys(AddBlocksAsWritten(cd, entries)))
    decreases |entries|
  {
    if |entries| == 0 {
      assert Get(cd, t).GetOr([]) + EntriesForAsWritten(entries, t) == Get(cd, t).GetOr([]);
    } else {
      var k := SplitKey(entries[0].0);
      var recs := ChildRecords(k.1, entries[0].1);
      var cd' := Append(cd, k.0, recs);
      AppendSpec(cd, k.0, recs, t);
      AddBlocksAsWrittenSpec(cd', entries[1..], t);
      Assoc(Get(cd, t).GetOr([]), if k.0 == t then recs else [], EntriesForAsWritten(entries[1..], t));
      assert AsWrittenTargets(entries) == [k.0] + AsWrittenTargets(entries[1..]);
    }
  }

  lemma {:induction false} AddBlocksAsWrittenKeys(cd: ConfigData, entries: seq<(string, Element)>, ks: seq<string>)
    requires Keys(cd) == FirstOccurrences(ks)
    ensures Keys(AddBlocksAsWritten(cd, entries)) == FirstOccurrences(ks + AsWrittenTargets(entries))
    decreases |entries|
  {
    if |entries| == 0 {
      assert ks + AsWrittenTargets(entries) == ks;
    } else {
      var k := SplitKey(entries[0].0);
      var recs := ChildRecords(k.1, entries[0].1);
      AppendKeys(cd, k.0, recs, ks);
      AddBlocksAsWrittenKeys(Append(cd, k.0, recs), entries[1..], ks + [k.0]);
      assert AsWrittenTargets(entries) == [k.0] + AsWrittenTargets(entries[1..]);
      Assoc(ks, [k.0], AsWrittenTargets(entries[1..]));
    }
  }

  /** On the source's string keys: a target's list holds its preference records, then the
      records of the blocks filed under it, in index order; the index lists each joined key
      once, where it first appeared; and the targets are listed once each, in the order a
      preference or an index entry first named them. */
  lemma RecordOrderAsWritten(doc: Element, platform: string, t: string)
    ensures var entries := IndexBlocksAsWritten(ConfigFileBlocks(doc, platform));
      Get(ParseConfigXmlAsWritten(doc, platform), t).GetOr([])
        == PairsFor(ConfigPairs(doc, platform), t) + EntriesForAsWritten(entries, t)
    ensures t in Keys(ParseConfigXmlAsWritten(doc, platform)) <==>
      t in Keys(ConfigPairs(doc, platform)) || t in AsWrittenTargets(IndexBlocksAsWritten(ConfigFileBlocks(doc, platform)))
    ensures Distinct(Keys(ParseConfigXmlAsWritten(doc, platform)))
    ensures Keys(IndexBlocksAsWritten(ConfigFileBlocks(doc, platform)))
      == FirstOccurrences(Keys(JoinKeys(KeyedBlocks(ConfigFileBlocks(doc, platform)))))
    ensures Keys(ParseConfigXmlAsWritten(doc, platform)) == FirstOccurrences(
      Keys(ConfigPairs(doc, platform)) + AsWrittenTargets(IndexBlocksAsWritten(ConfigFileBlocks(doc, platform))))
  {
    var prefs := ConfigPairs(doc, platform);
    var entries := IndexBlocksAsWritten(ConfigFileBlocks(doc, platform));
    var cd0: ConfigData := [];
    var cd1 := AddPairs(cd0, prefs);
    AddPairsSpec(cd0, prefs, t);
    AddBlocksAsWrittenSpec(cd1, entries, t);
    FromPairsKeys(JoinKeys(KeyedBlocks(ConfigFileBlocks(doc, platform))));
    var ks: seq<string> := [];
    AddPairsKeys(cd0, prefs, ks);
    assert ks + Keys(prefs) == Keys(prefs);
    AddBlocksAsWrittenKeys(cd1, entries, Keys(prefs));
    assert Get(cd0, t).GetOr([]) == [] && Keys(cd0) == [];
    assert Get(cd1, t).GetOr([]) == PairsFor(prefs, t) by {
      assert Get(cd1, t).GetOr([]) == [] + PairsFor(prefs, t);
    }
  }

  // ---------------------------------------------------------------------------------------
  // Where parsing throws

  /** The error `parseConfigXml` ends with; its message is not modelled. */
  const ParseFailure := "TypeError"

  /** `configData[target] || []` finds the inherited member itself when the target is named
      like a member of `Object.prototype`; that value has no `push`, so adding the first child
      record of such a block throws. */
  predicate FillsInherited(target: string, block: Element) {
    target in InheritedNames && |block.children| > 0
  }

  /** `parseConfigXml` throws when the platform is named like an inherited member (the
      preference cache lookup finds that member, the preference list gains it as its last
      element, and reading its `attrib.name` fails), or when an entry of the string-keyed
      index fills an inherited target. */
  predicate ParseThrows(doc: Element, platform: string) {
    || platform in InheritedNames
    || exists e | e in IndexBlocksAsWritten(ConfigFileBlocks(doc, platform)) :: FillsInherited(SplitKey(e.0).0, e.1)
  }

  /** The same failure on the pair-keyed index. */
  predicate ParseThrowsCorrected(doc: Element, platform: string) {
    || platform in InheritedNames
    || exists e | e in ConfigEntries(doc, platform) :: FillsInherited(e.0.0, e.1)
  }

  /** With bar-free keys both indexes throw on the same documents. */
  lemma ThrowsAgree(doc: Element, platform: string)
    requires forall b | b in ConfigFileBlocks(doc, platform) :: NoBar(BlockKey(b))
    ensures ParseThrows(doc, platform) <==> ParseThrowsCorrected(doc, platform)
  {
    SplitEntries(ConfigFileBlocks(doc, platform));
    FillsAgree(IndexBlocks(ConfigFileBlocks(doc, platform)), IndexBlocksAsWritten(ConfigFileBlocks(doc, platform)));
  }

  lemma FillsAgree(m: seq<((string, string), Element)>, w: seq<(string, Element)>)
    requires |w| == |m| && forall i :: 0 <= i < |m| ==> SplitKey(w[i].0) == m[i].0 && w[i].1 == m[i].1
    ensures (exists e | e in w :: FillsInherited(SplitKey(e.0).0, e.1)) <==> (exists e | e in m :: FillsInherited(e.0.0, e.1))
  {
    if exists e | e in w :: FillsInherited(SplitKey(e.0).0, e.1) {
      var e :| e in w && FillsInherited(SplitKey(e.0).0, e.1);
      var i :| 0 <= i < |w| && w[i] == e;
      assert m[i] in m;
    }
    if exists e | e in m :: FillsInherited(e.0.0, e.1) {
      var e :| e in m && FillsInherited(e.0.0, e.1);
      var i :| 0 <= i < |m| && m[i] == e;
      assert w[i] in w;
    }
  }

  /** With bar-free keys, splitting each string key of the index gives back the pair key. */
  lemma SplitEntries(bs: seq<Element>)
    requires forall b | b in bs :: NoBar(BlockKey(b))
    ensures var m, w := IndexBlocks(bs), IndexBlocksAsWritten(bs);
      |w| == |m| && forall i :: 0 <= i < |m| ==> SplitKey(w[i].0) == m[i].0 && w[i].1 == m[i].1
  {
    var m := IndexBlocks(bs);
    IndexAsWrittenAgrees(bs);
    forall i | 0 <= i < |m| ensures SplitKey(JoinKey(m[i].0)) == m[i].0 {
      IndexBlocksLast(bs, m[i].0);
      assert Keys(m)[i] == m[i].0;
      SplitJoin(m[i].0);
    }
  }

  lemma OneChildRecords(parent: string, block: Element)
    requires |block.children| == 1
    ensures ChildRecords(parent, block) == [Record(parent, ConfigFileKind, block.children[0].tag, block.children[0])]
  {
  }

  const BarChild := Element("x", map[], "", [])
  const BarBlock := Element("config-file", map["target" := "a|b", "parent" := "c"], "", [BarChild])
  const BarDoc := Element("widget", map[], "", [Element("platform", map["name" := "ios"], "", [BarBlock])])

  lemma BarDocBlocks()
    ensures ConfigFileBlocks(BarDoc, "ios") == [BarBlock]
    ensures BlockKey(BarBlock) == ("a|b", "c")
  {
    var section := BarDoc.children[0];
    assert GetAttr(section, "name") == Some("ios");
    assert PlatformSections(BarDoc.children, "ios") == [section] + PlatformSections([], "ios");
    assert ChildrenTagged(section.children, "config-file") == [BarBlock] + ChildrenTagged([], "config-file");
    assert SectionChildren([section], "config-file") == [BarBlock] + SectionChildren([], "config-file");
  }

  lemma NoneTagged(cs: seq<Element>, tag: string)
    requires forall c | c in cs :: c.tag != tag
    ensures ChildrenTagged(cs, tag) == []
  {
  }

  lemma BarDocNoPairs()
    ensures ConfigPairs(BarDoc, "ios") == []
  {
    var section := BarDoc.children[0];
    NoneTagged(BarDoc.children, "preference");
    NoneTagged(section.children, "preference");
    var inner := ChildrenTagged(section.children, "preference");
    assert GetAttr(section, "name") == Some("ios");
    assert PlatformSections(BarDoc.children, "ios") == [section] + PlatformSections([], "ios");
    assert SectionChildren([section], "preference") == inner + SectionChildren([], "preference");
    assert GetPreferences(BarDoc, "ios") == [];
  }

  lemma BarDocIndexed()
    ensures IndexBlocks(ConfigFileBlocks(BarDoc, "ios")) == [(("a|b", "c"), BarBlock)]
    ensures IndexBlocksAsWritten(ConfigFileBlocks(BarDoc, "ios")) == [("a|b|c", BarBlock)]
  {
    BarDocBlocks();
    assert KeyedBlocks([BarBlock]) == [(("a|b", "c"), BarBlock)];
    assert JoinKey(("a|b", "c")) == "a|b|c";
    assert JoinKeys([(("a|b", "c"), BarBlock)]) == [("a|b|c", BarBlock)];
    FromPairsSingle(("a|b", "c"), BarBlock);
    FromPairsSingle("a|b|c", BarBlock);
  }

  lemma AddOneBlock(entry: ((string, string), Element))
    ensures AddBlocks([], [entry]) == [(entry.0.0, ChildRecords(entry.0.1, entry.1))]
  {
    var cd: ConfigData := [];
    assert [entry][1..] == [];
    assert [] + ChildRecords(entry.0.1, entry.1) == ChildRecords(entry.0.1, entry.1);
  }

  lemma AddOneBlockAsWritten(entry: (string, Element))
    ensures AddBlocksAsWritten([], [entry]) == [(SplitKey(entry.0).0, ChildRecords(SplitKey(entry.0).1, entry.1))]
  {
    var cd: ConfigData := [];
    assert [entry][1..] == [];
    assert [] + ChildRecords(SplitKey(entry.0).1, entry.1) == ChildRecords(SplitKey(entry.0).1, entry.1);
  }

  lemma SplitBarKey()
    ensures SplitKey("a|b|c") == ("a", "b")
  {
    assert "a|b|c" == "a" + ['|'] + "b|c";
    BeforeFirst("a", '|', "b|c");
    assert "a|b|c"[2..] == "b|c";
    assert "b|c" == "b" + ['|'] + "c";
    BeforeFirst("b", '|', "c");
  }

  lemma BarDocParsed()
    ensures ParseConfigXmlAsWritten(BarDoc, "ios") == AddBlocksAsWritten([], [("a|b|c", BarBlock)])
    ensures ParseConfigXml(BarDoc, "ios") == AddBlocks([], [(("a|b", "c"), BarBlock)])
  {
    BarDocNoPairs();
    BarDocIndexed();
    var cd: ConfigData := [];
    assert AddPairs(cd, []) == cd;
  }

  /** A block whose target holds a bar is filed by the source under the text before the bar,
      with the rest of the target as its parent: the block `target="a|b" parent="c"` with one
      child yields, on the source's keys, a record for file `a` under parent `b`. */
  lemma BarInTargetMisfiled()
    ensures ParseConfigXmlAsWritten(BarDoc, "ios") == [("a", [Record("b", ConfigFileKind, "x", BarChild)])]
  {
    BarDocParsed();
    SplitBarKey();
    AddOneBlockAsWritten(("a|b|c", BarBlock));
    OneChildRecords("b", BarBlock);
  }

  /** With pair keys the same block yields a record for file `a|b` under parent `c`. */
  lemma BarInTargetKept()
    ensures ParseConfigXml(BarDoc, "ios") == [("a|b", [Record("c", ConfigFileKind, "x", BarChild)])]
  {
    BarDocParsed();
    AddOneBlock((("a|b", "c"), BarBlock));
    OneChildRecords("c", BarBlock);
  }
}

=== FILE: element_path.dfy ===
/** The part of the XML library's path language (`Element.find`) that the hook uses:
    `.` (the node itself), `..` (its parent), `*` (any child), a tag (the children with that tag)
    and `[@name='value']` (keep the nodes whose attribute has that value), steps separated by `/`.
    `find` evaluates the steps left to right over a list of nodes, starting from the node it is
    called on, and returns the first node of the final list. */
module ElementPath {
  import opened Wrappers
  import opened JsText
  import opened Xml

  datatype Step = Self | Parent | AnyChild | Child(tag: string) | AttrEquals(name: string, value: string)

  type Path = seq<Step>

  // ---------------------------------------------------------------------------------------
  // Evaluation

  predicate AllValid(t: Element, ps: seq<Pos>) {
    forall p | p in ps :: ValidPos(t, p)
  }

  /** Positions of the children of the node at `p`, from index `i` on, whose tag is `tag`
      (any tag when `tag` is `None`), in document order. */
  function ChildrenFrom(t: Element, p: Pos, i: nat, tag: Option<string>): (r: seq<Pos>)
    requires ValidPos(t, p) && i <= |At(t, p).children|
    ensures AllValid(t, r)
    decreases |At(t, p).children| - i
  {
    if i == |At(t, p).children| then []
    else
      ChildPos(t, p, i);
      var here := if tag.None? || At(t, p).children[i].tag == tag.value then [p + [i]] else [];
      here + ChildrenFrom(t, p, i + 1, tag)
  }

  /** The nodes one step selects from one context node. */
  function SelectOne(t: Element, step: Step, p: Pos): (r: seq<Pos>)
    requires ValidPos(t, p)
    ensures AllValid(t, r)
  {
    match step
    case Self => [p]
    case Parent =>
      if |p| == 0 then []
      else
        PrefixPos(t, p, p[..|p| - 1]);
        [p[..|p| - 1]]
    case AnyChild => ChildrenFrom(t, p, 0, None)
    case Child(tag) => ChildrenFrom(t, p, 0, Some(tag))
    case AttrEquals(a, v) => if GetAttr(At(t, p), a) == Some(v) then [p] else []
  }

  /** The nodes one step selects from a list of context nodes, context by context. */
  function Select(t: Element, step: Step, ps: seq<Pos>): (r: seq<Pos>)
    requires AllValid(t, ps)
    ensures AllValid(t, r)
  {
    if |ps| == 0 then [] else SelectOne(t, step, ps[0]) + Select(t, step, ps[1..])
  }

  function Eval(t: Element, path: Path, ps: seq<Pos>): (r: seq<Pos>)
    requires AllValid(t, ps)
    ensures AllValid(t, r)
    decreases |path|
  {
    if |path| == 0 then ps else Eval(t, path[1..], Select(t, path[0], ps))
  }

  /** `t.find(path)`: the first node the path selects, as a position relative to `t`. */
  function Find(t: Element, path: Path): (r: Option<Pos>)
    ensures r.Some? ==> ValidPos(t, r.value)
  {
    var rs := Eval(t, path, [[]]);
    if |rs| == 0 then None else Some(rs[0])
  }

  // ---------------------------------------------------------------------------------------
  // Membership in a step's selection

  lemma SelectAppend(t: Element, step: Step, a: seq<Pos>, b: seq<Pos>)
    requires AllValid(t, a) && AllValid(t, b)
    ensures Select(t, step, a + b) == Select(t, step, a) + Select(t, step, b)
  {
    if |a| > 0 {
      assert (a + b)[1..] == a[1..] + b;
      SelectAppend(t, step, a[1..], b);
    } else {
      assert a + b == b;
    }
  }

  lemma {:induction false} SelectMember(t: Element, step: Step, ps: seq<Pos>, q: Pos)
    requires AllValid(t, ps)
    ensures q in Select(t, step, ps) <==> exists p :: p in ps && q in SelectOne(t, step, p)
  {
    if |ps| > 0 {
      SelectMember(t, step, ps[1..], q);
      assert forall p :: p in ps <==> p == ps[0] || p in ps[1..];
    }
  }

  lemma {:induction false} ChildrenFromMember(t: Element, p: Pos, i: nat, tag: Option<string>, q: Pos)
    requires ValidPos(t, p) && i <= |At(t, p).children|
    ensures q in ChildrenFrom(t, p, i, tag) <==>
      && |q| == |p| + 1 && q[..|p|] == p && i <= q[|p|] < |At(t, p).children|
      && (tag.Some? ==> At(t, p).children[q[|p|]].tag == tag.value)
    decreases |At(t, p).children| - i
  {
    if i < |At(t, p).children| {
      ChildrenFromMember(t, p, i + 1, tag, q);
      if q == p + [i] {
        assert q[..|p|] == p;
      }
      if |q| == |p| + 1 && q[..|p|] == p && q[|p|] == i {
        assert q == p + [i];
      }
    }
  }

  /** A tag step selects exactly the children, carrying that tag, of the context nodes. */
  lemma {:induction false} ChildMember(t: Element, tag: string, ps: seq<Pos>, q: Pos)
    requires AllValid(t, ps)
    ensures q in Select(t, Child(tag), ps) <==>
      |q| > 0 && q[..|q| - 1] in ps && ValidPos(t, q) && At(t, q).tag == tag
  {
    SelectMember(t, Child(tag), ps, q);
    if q in Select(t, Child(tag), ps) {
      var p :| p in ps && q in SelectOne(t, Child(tag), p);
      ChildOfContext(t, tag, p, q);
    }
    if |q| > 0 && q[..|q| - 1] in ps && ValidPos(t, q) && At(t, q).tag == tag {
      ChildOfContext(t, tag, q[..|q| - 1], q);
    }
  }

  lemma {:induction false} ChildOfContext(t: Element, tag: string, p: Pos, q: Pos)
    requires ValidPos(t, p)
    ensures q in SelectOne(t, Child(tag), p) <==>
      |q| > 0 && q[..|q| - 1] == p && ValidPos(t, q) && At(t, q).tag == tag
  {
    ChildrenFromMember(t, p, 0, Some(tag), q);
    if |q| == |p| + 1 && q[..|p|] == p {
      var i := q[|p|];
      assert q == p + [i];
      AtAppend(t, p, [i]);
    }
  }

  /** An attribute predicate keeps exactly the context nodes whose attribute has the value. */
  lemma {:induction false} AttrMember(t: Element, a: string, v: string, ps: seq<Pos>, q: Pos)
    requires AllValid(t, ps)
    ensures q in Select(t, AttrEquals(a, v), ps) <==> q in ps && GetAttr(At(t, q), a) == Some(v)
  {
    SelectMember(t, AttrEquals(a, v), ps, q);
  }

  /** `..` selects exactly the parents of the context nodes; the context root has none. */
  lemma {:induction false} ParentMember(t: Element, ps: seq<Pos>, q: Pos)
    requires AllValid(t, ps)
    ensures q in Select(t, Parent, ps) <==> exists x :: x in ps && |x| > 0 && x[..|x| - 1] == q
  {
    SelectMember(t, Parent, ps, q);
  }

  // ---------------------------------------------------------------------------------------
  // Parsing path strings

  /** A character that may continue a name token of the path language. */
  predicate IsNameChar(c: char) {
    c != '/' && c != '[' && c != ']' && c != '(' && c != ')' && c != '@' && c != '=' && !IsJsSpace(c)
  }

  predicate NameChars(h: string) {
    |h| == 0 || (IsNameChar(h[0]) && NameChars(h[1..]))
  }

  /** A name token of the path language: it cannot start with an operator character or a
      quote, and it cannot contain `/`, brackets, parentheses, `@`, `=` or white space. */
  predicate IsName(h: string) {
    && |h| > 0
    && h[0] != '.' && h[0] != '*' && h[0] != ':' && h[0] != '\'' && h[0] != '"'
    && NameChars(h)
  }

  /** `s.split(sep)`. */
  function Split(s: string, sep: char): (r: seq<string>)
    ensures |r| >= 1
    decreases |s|
  {
    var b := Before(s, sep);
    if |b| == |s| then [s] else [b] + Split(s[|b| + 1..], sep)
  }

  lemma SplitCons(a: string, sep: char, b: string)
    requires sep !in a
    ensures Split(a + [sep] + b, sep) == [a] + Split(b, sep)
  {
    BeforeFirst(a, sep, b);
    assert (a + [sep] + b)[|a| + 1..] == b;
  }

  lemma SplitWhole(a: string, sep: char)
    requires sep !in a
    ensures Split(a, sep) == [a]
  {
    BeforeWhole(a, sep);
  }

  /** The segments joined by `/`. */
  function JoinPath(segs: seq<string>): string
    requires |segs| > 0
  {
    if |segs| == 1 then segs[0] else segs[0] + "/" + JoinPath(segs[1..])
  }

  /** Splitting at `/` undoes joining segments that hold no `/`. */
  lemma {:induction false} SplitJoinPath(segs: seq<string>)
    requires |segs| > 0 && forall s | s in segs :: '/' !in s
    ensures Split(JoinPath(segs), '/') == segs
  {
    if |segs| == 1 {
      SplitWhole(segs[0], '/');
    } else {
      assert segs[0] in segs;
      assert forall s | s in segs[1..] :: s in segs;
      SplitJoinPath(segs[1..]);
      SplitCons(segs[0], '/', JoinPath(segs[1..]));
      assert segs == [segs[0]] + segs[1..];
    }
  }

  /** One leading `[@name='value']` or `[@name="value"]` predicate: its step and the text
      after it. */
  function ParsePredicate(s: string): (r: Option<(Step, string)>)
    ensures r.Some? ==> |r.value.1| < |s|
  {
    if |s| < 2 || s[..2] != "[@" then None
    else
      var body := s[2..];
      var name := Before(body, '=');
      if |name| == |body| || !IsName(name) then None
      else
        var quoted := body[|name| + 1..];
        if |quoted| == 0 || (quoted[0] != '\'' && quoted[0] != '"') then None
        else
          var inner := quoted[1..];
          var value := Before(inner, quoted[0]);
          if |value| == |inner| then None
          else
            var after := inner[|value| + 1..];
            if |after| == 0 || after[0] != ']' then None
            else Some((AttrEquals(name, value), after[1..]))
  }

  /** The text of the predicate `[@name='value']`. */
  function PredicateText(name: string, value: string): string {
    "[@" + name + "='" + value + "']"
  }

  /** A run of predicates. */
  function ParsePredicates(s: string): Option<Path>
    decreases |s|
  {
    if |s| == 0 then Some([])
    else
      match ParsePredicate(s)
      case None => None
      case Some((step, rest)) =>
        match ParsePredicates(rest)
        case None => None
        case Some(steps) => Some([step] + steps)
  }

  function ParseHead(head: string): Option<Step> {
    if head == "." then Some(Self)
    else if head == ".." then Some(Parent)
    else if head == "*" then Some(AnyChild)
    else if IsName(head) then Some(Child(head))
    else None
  }

  /** One `/`-separated segment: `.`, `..`, `*` or a tag, then its predicates. */
  function ParseSegment(seg: string): Option<Path> {
    var head := Before(seg, '[');
    var first := ParseHead(head);
    var preds := ParsePredicates(seg[|head|..]);
    if first.Some? && preds.Some? then Some([first.value] + preds.value) else None
  }

  /** A segment without predicates is its head step alone. */
  lemma PlainSegment(seg: string)
    requires '[' !in seg
    ensures ParseSegment(seg) == if ParseHead(seg).Some? then Some([ParseHead(seg).value]) else None
  {
    BeforeWhole(seg, '[');
    assert seg[|seg|..] == [];
    assert ParsePredicates(seg[|Before(seg, '[')|..]) == Some([]);
    if ParseHead(seg).Some? {
      assert [ParseHead(seg).value] + [] == [ParseHead(seg).value];
    }
  }

  function ParseSegments(segs: seq<string>): Option<Path> {
    if |segs| == 0 then Some([])
    else
      match (ParseSegment(segs[0]), ParseSegments(segs[1..]))
      case (Some(a), Some(b)) => Some(a + b)
      case _ => None
  }

  /** The steps a path string denotes, or `None` for a string outside the modelled language
      (an absolute path, `//`, positional predicates, functions, ...). A single trailing `/`
      is allowed and adds no step. */
  function ParsePath(s: string): Option<Path> {
    var segs := Split(s, '/');
    var steps := if |segs| > 1 && segs[|segs| - 1] == "" then segs[..|segs| - 1] else segs;
    ParseSegments(steps)
  }

  /** `./` is the node itself. */
  lemma RootPath(t: Element)
    ensures ParsePath("./") == Some([Self])
    ensures FindText(t, "./") == Some([])
  {
    SplitCons(".", '/', "");
    SplitWhole("", '/');
    assert Split("./", '/') == [".", ""];
    PlainSegment(".");
    assert ParseSegments(["."]) == Some([Self]);
    assert ["." , ""][..1] == ["."];
    assert Eval(t, [Self], [[]]) == Eval(t, [], Select(t, Self, [[]]));
  }

  /** `t.find(s)` for a path given as text. */
  function FindText(t: Element, s: string): (r: Option<Pos>)
    ensures r.Some? ==> ValidPos(t, r.value)
  {
    match ParsePath(s)
    case None => None
    case Some(path) => Find(t, path)
  }

  /** A path with an empty segment, as `//` or a leading `/` give, is outside the modelled
      language. */
  lemma {:induction false} EmptySegmentUnparsed(segs: seq<string>, i: nat)
    requires i < |segs| && segs[i] == ""
    ensures ParseSegments(segs) == None
    decreases i
  {
    if i == 0 {
      assert Before("", '[') == "";
      assert ParseSegment("") == None;
    } else {
      assert segs[1..][i - 1] == "";
      EmptySegmentUnparsed(segs[1..], i - 1);
    }
  }

  /** A path whose split has an empty segment before the last one parses to nothing. */
  lemma InnerEmptyUnparsed(s: string, i: nat)
    requires i + 1 < |Split(s, '/')| && Split(s, '/')[i] == ""
    ensures ParsePath(s) == None
  {
    var segs := Split(s, '/');
    EmptySegmentUnparsed(segs, i);
    assert segs[..|segs| - 1][i] == "";
    EmptySegmentUnparsed(segs[..|segs| - 1], i);
  }

  /** An absolute path finds nothing in the model, from the root or one level down. */
  lemma AbsolutePathUnfound(t: Element, s: string)
    requires |s| > 0 && s[0] == '/'
    ensures FindText(t, s) == None
    ensures FindText(t, "*/" + s) == None
  {
    assert s == [] + ['/'] + s[1..];
    SplitCons("", '/', s[1..]);
    InnerEmptyUnparsed(s, 0);
    assert "*/" + s == "*" + ['/'] + s;
    SplitCons("*", '/', s);
    InnerEmptyUnparsed("*/" + s, 1);
  }


  // ---------------------------------------------------------------------------------------
  // Child selectors: `tag` or `tag[@android:name='v']`

  const AndroidName := "android:name"

  datatype Selector = Selector(tag: string, name: Option<string>)

  predicate Matches(c: Element, s: Selector) {
    c.tag == s.tag && (s.name.Some? ==> GetAttr(c, AndroidName) == s.name)
  }

  function SelectorPath(s: Selector): Path {
    [Child(s.tag)] + (if s.name.Some? then [AttrEquals(AndroidName, s.name.value)] else [])
  }

  /** The first child from index `i` on that the selector matches. */
  function FirstMatchFrom(cs: seq<Element>, s: Selector, i: nat): (r: Option<nat>)
    requires i <= |cs|
    ensures r.Some? ==> i <= r.value < |cs| && Matches(cs[r.value], s)
    ensures r.Some? ==> forall j :: i <= j < r.value ==> !Matches(cs[j], s)
    ensures r.None? ==> forall j :: i <= j < |cs| ==> !Matches(cs[j], s)
    decreases |cs| - i
  {
    if i == |cs| then None
    else if Matches(cs[i], s) then Some(i)
    else FirstMatchFrom(cs, s, i + 1)
  }

  function FirstMatch(cs: seq<Element>, s: Selector): (r: Option<nat>)
    ensures r.Some? ==> r.value < |cs| && Matches(cs[r.value], s)
    ensures r.Some? ==> forall j :: 0 <= j < r.value ==> !Matches(cs[j], s)
    ensures r.None? ==> forall j :: 0 <= j < |cs| ==> !Matches(cs[j], s)
  {
    FirstMatchFrom(cs, s, 0)
  }

  /** Evaluating a selector's path with `find` on a node gives its first matching child. */
  lemma FindSelector(n: Element, s: Selector)
    ensures Find(n, SelectorPath(s)) == (match FirstMatch(n.children, s) case None => None case Some(i) => Some([i]))
  {
    var kids := ChildrenFrom(n, [], 0, Some(s.tag));
    assert Select(n, Child(s.tag), [[]]) == kids + [];
    if s.name.Some? {
      var sel := Select(n, AttrEquals(AndroidName, s.name.value), kids);
      var path := SelectorPath(s);
      assert path[0] == Child(s.tag);
      assert path[1..] == [AttrEquals(AndroidName, s.name.value)];
      assert Select(n, path[0], [[]]) == kids;
      assert Eval(n, path, [[]]) == Eval(n, path[1..], kids);
      assert Eval(n, path[1..], kids) == Eval(n, [], sel);
      FilteredChildren(n, s, 0);
    } else {
      assert Eval(n, SelectorPath(s), [[]]) == kids;
      FilteredChildren(n, s, 0);
    }
  }

  /** The positions a selector's path keeps among the children from index `i` on: empty
      exactly when no child matches, and led by the first match otherwise. */
  function SelectorHits(n: Element, s: Selector, i: nat): seq<Pos>
    requires i <= |n.children|
  {
    var kids := ChildrenFrom(n, [], i, Some(s.tag));
    if s.name.Some? then Select(n, AttrEquals(AndroidName, s.name.value), kids) else kids
  }

  lemma {:induction false} FilteredChildren(n: Element, s: Selector, i: nat)
    requires i <= |n.children|
    ensures var hits := SelectorHits(n, s, i);
      match FirstMatchFrom(n.children, s, i)
      case None => |hits| == 0
      case Some(k) => |hits| > 0 && hits[0] == [k]
    decreases |n.children| - i
  {
    if i < |n.children| {
      FilteredChildren(n, s, i + 1);
      ChildPos(n, [], i);
      assert [] + [i] == [i];
      var here := if n.children[i].tag == s.tag then [[i]] else [];
      var kids := ChildrenFrom(n, [], i, Some(s.tag));
      assert kids == here + ChildrenFrom(n, [], i + 1, Some(s.tag));
      if s.name.Some? {
        SelectAppend(n, AttrEquals(AndroidName, s.name.value), here, ChildrenFrom(n, [], i + 1, Some(s.tag)));
        if n.children[i].tag == s.tag {
          assert Select(n, AttrEquals(AndroidName, s.name.value), here)
            == SelectOne(n, AttrEquals(AndroidName, s.name.value), [i]) + [];
        }
      }
    }
  }

  // ---------------------------------------------------------------------------------------
  // The main activity

  const MainAction := "android.intent.action.MAIN"

  /** The query the hook uses to find the launcher activity, the grandparent of the first
      `application/activity/intent-filter/action` whose `android:name` is the MAIN action:
      `application/activity/intent-filter/action[@android:name='android.intent.action.MAIN']/../..`,
      written as its segments joined by `/`. */
  const MainActivityPathText := JoinPath(["application", "activity", "intent-filter",
    "action" + PredicateText(AndroidName, MainAction), "..", ".."])

  /** The steps the query denotes (`MainActivityPathParsed`). */
  const MainActivityPath: Path := [
    Child("application"), Child("activity"), Child("intent-filter"), Child("action"),
    AttrEquals(AndroidName, MainAction), Parent, Parent]

  /** A string all of whose characters may continue a name consists of name characters. */
  lemma {:induction false} NameCharsAll(h: string)
    requires forall i | 0 <= i < |h| :: IsNameChar(h[i])
    ensures NameChars(h)
    decreases |h|
  {
    if |h| > 0 {
      assert forall i | 0 <= i < |h| - 1 :: h[1..][i] == h[i + 1];
      NameCharsAll(h[1..]);
    }
  }

  predicate IsNameLetter(c: char) {
    'a' <= c <= 'z' || c == '-' || c == ':'
  }

  /** A string of lower-case letters, `-` and `:` that starts with a letter is a name. */
  lemma PlainName(h: string)
    requires |h| > 0 && 'a' <= h[0] <= 'z'
    requires forall i | 0 <= i < |h| :: IsNameLetter(h[i])
    ensures IsName(h) && '/' !in h && '[' !in h && '=' !in h
  {
    NameCharsAll(h);
  }

  lemma ApplicationName()
    ensures IsName("application") && '/' !in "application" && '[' !in "application" && '=' !in "application"
  {
    PlainName("application");
  }

  lemma ActivityName()
    ensures IsName("activity") && '/' !in "activity" && '[' !in "activity" && '=' !in "activity"
  {
    PlainName("activity");
  }

  lemma FilterName()
    ensures IsName("intent-filter") && '/' !in "intent-filter" && '[' !in "intent-filter" && '=' !in "intent-filter"
  {
    PlainName("intent-filter");
  }

  lemma ActionName()
    ensures IsName("action") && '/' !in "action" && '[' !in "action" && '=' !in "action"
  {
    PlainName("action");
  }

  lemma AndroidNameName()
    ensures IsName(AndroidName) && '/' !in AndroidName && '[' !in AndroidName && '=' !in AndroidName
  {
    PlainName(AndroidName);
  }

  /** `[@name='value']` parses to the one predicate it spells. */
  lemma PredicateParsed(name: string, value: string, rest: string)
    requires IsName(name) && '=' !in name && '\'' !in value
    ensures ParsePredicate(PredicateText(name, value) + rest) == Some((AttrEquals(name, value), rest))
  {
    var s := PredicateText(name, value) + rest;
    var body := s[2..];
    assert s[..2] == "[@";
    var quoted := "'" + value + "']" + rest;
    assert body == name + "=" + quoted;
    BeforeFirst(name, '=', quoted);
    assert body[|name| + 1..] == quoted;
    QuotedValue(value, rest);
  }

  /** `'value']` followed by `rest`: the quote, the value up to the closing quote, then `]`. */
  lemma QuotedValue(value: string, rest: string)
    requires '\'' !in value
    ensures var quoted := "'" + value + "']" + rest;
      && |quoted| > 0 && quoted[0] == '\''
      && Before(quoted[1..], '\'') == value
      && |quoted[1..]| > |value|
      && quoted[1..][|value| + 1..] == "]" + rest
  {
    var quoted := "'" + value + "']" + rest;
    var inner := quoted[1..];
    assert inner == value + "'" + ("]" + rest);
    BeforeFirst(value, '\'', "]" + rest);
    assert inner[|value| + 1..] == "]" + rest;
  }

  lemma OnePredicate(s: string, step: Step)
    requires ParsePredicate(s) == Some((step, []))
    ensures ParsePredicates(s) == Some([step])
  {
    assert [step] + [] == [step];
  }

  /** A name with no `[` is a segment of one child step. */
  lemma NameSegment(h: string)
    requires IsName(h) && '[' !in h
    ensures ParseSegment(h) == Some([Child(h)])
  {
    assert h != "." && h != ".." && h != "*" by {
      assert h[0] != '.' && h[0] != '*';
    }
    PlainSegment(h);
  }

  lemma ParentSegment()
    ensures ParseSegment("..") == Some([Parent])
  {
    PlainSegment("..");
  }

  /** A name is a child step. */
  lemma NameHead(tag: string)
    requires IsName(tag)
    ensures ParseHead(tag) == Some(Child(tag))
  {
    assert tag != "." && tag != ".." && tag != "*" by {
      assert tag[0] != '.' && tag[0] != '*';
    }
  }

  /** The head of a tag followed by `[` is the tag, and the rest is what follows it. */
  lemma {:induction false} TagSplit(tag: string, preds: string)
    requires '[' !in tag && |preds| > 0 && preds[0] == '['
    ensures Before(tag + preds, '[') == tag
    ensures (tag + preds)[|tag|..] == preds
  {
    assert tag + preds == tag + ['['] + preds[1..];
    BeforeFirst(tag, '[', preds[1..]);
  }

  /** A tag, then text that parses as predicates, is the child step and those predicates. */
  lemma TagThenPredicates(tag: string, preds: string, ps: Path)
    requires IsName(tag) && '[' !in tag && |preds| > 0 && preds[0] == '['
    requires ParsePredicates(preds) == Some(ps)
    ensures ParseSegment(tag + preds) == Some([Child(tag)] + ps)
  {
    TagSplit(tag, preds);
    NameHead(tag);
  }

  /** A tag followed by one predicate parses to the child step, then the predicate. */
  lemma TaggedSegmentParsed(tag: string, name: string, value: string)
    requires IsName(tag) && '[' !in tag
    requires IsName(name) && '=' !in name && '\'' !in value
    ensures ParseSegment(tag + PredicateText(name, value)) == Some([Child(tag), AttrEquals(name, value)])
  {
    var pred := PredicateText(name, value);
    PredicateParsed(name, value, []);
    assert pred + [] == pred;
    OnePredicate(pred, AttrEquals(name, value));
    TagThenPredicates(tag, pred, [AttrEquals(name, value)]);
    assert [Child(tag)] + [AttrEquals(name, value)] == [Child(tag), AttrEquals(name, value)];
  }

  /** No `/` occurs in a concatenation of strings without one. */
  lemma NoSlashConcat(a: string, b: string)
    requires '/' !in a && '/' !in b
    ensures '/' !in a + b
  {
  }

  /** The shape of the hook's main-activity query: three tag steps, a tag with an attribute
      predicate, then two parent steps. */
  lemma {:induction false} QueryParsed(a1: string, a2: string, a3: string, a4: string, n: string, v: string)
    requires IsName(a1) && IsName(a2) && IsName(a3) && IsName(a4) && IsName(n)
    requires '/' !in a1 && '/' !in a2 && '/' !in a3 && '/' !in a4 && '/' !in n && '/' !in v
    requires '[' !in a1 && '[' !in a2 && '[' !in a3 && '[' !in a4
    requires '=' !in n && '\'' !in v
    ensures ParsePath(JoinPath([a1, a2, a3, a4 + PredicateText(n, v), "..", ".."]))
      == Some([Child(a1), Child(a2), Child(a3), Child(a4), AttrEquals(n, v), Parent, Parent])
  {
    var s4 := a4 + PredicateText(n, v);
    var segs := [a1, a2, a3, s4, "..", ".."];
    NoSlashConcat(a4, "[@");
    NoSlashConcat(a4 + "[@", n);
    NoSlashConcat(a4 + "[@" + n, "='");
    NoSlashConcat(a4 + "[@" + n + "='", v);
    NoSlashConcat(a4 + "[@" + n + "='" + v, "']");
    assert forall s | s in segs :: '/' !in s;
    SplitJoinPath(segs);
    NameSegment(a1);
    NameSegment(a2);
    NameSegment(a3);
    TaggedSegmentParsed(a4, n, v);
    ParentSegment();
    SixSegments(a1, a2, a3, s4, "..", "..",
      [Child(a1)], [Child(a2)], [Child(a3)], [Child(a4), AttrEquals(n, v)], [Parent], [Parent]);
    SevenSteps(Child(a1), Child(a2), Child(a3), Child(a4), AttrEquals(n, v), Parent, Parent);
    assert segs[|segs| - 1] != "";
  }

  /** A segment in front of others adds its steps in front of theirs. */
  lemma ConsSegment(s: string, rest: seq<string>, p: Path, q: Path)
    requires ParseSegment(s) == Some(p) && ParseSegments(rest) == Some(q)
    ensures ParseSegments([s] + rest) == Some(p + q)
  {
    assert ([s] + rest)[0] == s;
    assert ([s] + rest)[1..] == rest;
  }

  /** Six segments parse to the concatenation of what each one parses to. */
  lemma SixSegments(s0: string, s1: string, s2: string, s3: string, s4: string, s5: string,
                    p0: Path, p1: Path, p2: Path, p3: Path, p4: Path, p5: Path)
    requires ParseSegment(s0) == Some(p0) && ParseSegment(s1) == Some(p1) && ParseSegment(s2) == Some(p2)
    requires ParseSegment(s3) == Some(p3) && ParseSegment(s4) == Some(p4) && ParseSegment(s5) == Some(p5)
    ensures ParseSegments([s0, s1, s2, s3, s4, s5]) == Some(p0 + (p1 + (p2 + (p3 + (p4 + (p5 + []))))))
  {
    ConsSegment(s5, [], p5, []);
    ConsSegment(s4, [s5], p4, p5 + []);
    ConsSegment(s3, [s4, s5], p3, p4 + (p5 + []));
    ConsSegment(s2, [s3, s4, s5], p2, p3 + (p4 + (p5 + [])));
    ConsSegment(s1, [s2, s3, s4, s5], p1, p2 + (p3 + (p4 + (p5 + []))));
    ConsSegment(s0, [s1, s2, s3, s4, s5], p0, p1 + (p2 + (p3 + (p4 + (p5 + [])))));
    assert [s5] == [s5] + [];
    assert [s4, s5] == [s4] + [s5];
    assert [s3, s4, s5] == [s3] + [s4, s5];
    assert [s2, s3, s4, s5] == [s2] + [s3, s4, s5];
    assert [s1, s2, s3, s4, s5] == [s1] + [s2, s3, s4, s5];
    assert [s0, s1, s2, s3, s4, s5] == [s0] + [s1, s2, s3, s4, s5];
  }

  lemma SevenSteps(a: Step, b: Step, c: Step, d: Step, e: Step, f: Step, g: Step)
    ensures [a] + ([b] + ([c] + ([d, e] + ([f] + ([g] + []))))) == [a, b, c, d, e, f, g]
  {
  }

  /** Letters, `-`, `:` and `.` exclude every character that is special in the query. */
  predicate IsPlainChar(c: char) {
    'a' <= c <= 'z' || 'A' <= c <= 'Z' || c == '-' || c == ':' || c == '.'
  }

  lemma PlainChars(h: string)
    requires forall i | 0 <= i < |h| :: IsPlainChar(h[i])
    ensures '/' !in h && '[' !in h && '=' !in h && '\'' !in h
  {
  }

  lemma MainActionChars()
    ensures '/' !in MainAction && '\'' !in MainAction
  {
    PlainChars(MainAction);
  }

  /** The query text of the hook denotes exactly the steps `MainActivityPath`. */
  lemma MainActivityPathParsed()
    ensures ParsePath(MainActivityPathText) == Some(MainActivityPath)
  {
    ApplicationName();
    ActivityName();
    FilterName();
    ActionName();
    AndroidNameName();
    MainActionChars();
    QueryParsed("application", "activity", "intent-filter", "action", AndroidName, MainAction);
  }

  /** An activity declares the MAIN action in one of its intent filters. */
  predicate HasMainAction(act: Element) {
    exists i, j :: 0 <= i < |act.children| && 0 <= j < |act.children[i].children|
      && act.children[i].tag == "intent-filter"
      && act.children[i].children[j].tag == "action"
      && GetAttr(act.children[i].children[j], AndroidName) == Some(MainAction)
  }

  /** `p` is an `activity` of a top-level `application` that declares the MAIN action. */
  predicate IsMainActivity(root: Element, p: Pos) {
    && |p| == 2 && ValidPos(root, p)
    && root.children[p[0]].tag == "application"
    && At(root, p).tag == "activity"
    && HasMainAction(At(root, p))
  }

  /** The top-level `application` nodes, then the `activity`, `intent-filter` and `action`
      nodes below them: the context lists of the main-activity path, level by level. */
  function Applications(root: Element): (r: seq<Pos>)
    ensures AllValid(root, r)
  {
    Select(root, Child("application"), [[]])
  }

  function Activities(root: Element): (r: seq<Pos>)
    ensures AllValid(root, r)
  {
    Select(root, Child("activity"), Applications(root))
  }

  function Filters(root: Element): (r: seq<Pos>)
    ensures AllValid(root, r)
  {
    Select(root, Child("intent-filter"), Activities(root))
  }

  function Actions(root: Element): (r: seq<Pos>)
    ensures AllValid(root, r)
  {
    Select(root, Child("action"), Filters(root))
  }

  /** The MAIN actions under `application/activity/intent-filter`, in document order. */
  function MainActions(root: Element): (r: seq<Pos>)
    ensures AllValid(root, r)
  {
    Select(root, AttrEquals(AndroidName, MainAction), Actions(root))
  }

  lemma MainActivityEval(root: Element)
    ensures Eval(root, MainActivityPath, [[]]) == Select(root, Parent, Select(root, Parent, MainActions(root)))
  {
    var path := MainActivityPath;
    var l0: seq<Pos> := [[]];
    var l5 := MainActions(root);
    var l6 := Select(root, Parent, l5);
    assert Eval(root, path, l0) == Eval(root, path[1..], Applications(root));
    assert Eval(root, path[1..], Applications(root)) == Eval(root, path[2..], Activities(root));
    assert Eval(root, path[2..], Activities(root)) == Eval(root, path[3..], Filters(root));
    assert Eval(root, path[3..], Filters(root)) == Eval(root, path[4..], Actions(root));
    assert Eval(root, path[4..], Actions(root)) == Eval(root, path[5..], l5);
    assert Eval(root, path[5..], l5) == Eval(root, path[6..], l6);
    assert Eval(root, path[6..], l6) == Eval(root, [], Select(root, Parent, l6));
  }

  /** `p` is an `activity` directly below a top-level `application`. */
  predicate IsActivity(root: Element, p: Pos) {
    && |p| == 2 && ValidPos(root, p)
    && root.children[p[0]].tag == "application"
    && At(root, p).tag == "activity"
  }

  lemma {:induction false} ApplicationMember(root: Element, a: Pos)
    ensures a in Applications(root) <==>
      |a| == 1 && a[0] < |root.children| && root.children[a[0]].tag == "application"
  {
    ChildMember(root, "application", [[]], a);
    if |a| == 1 {
      assert a == [] + [a[0]];
      AtAppend(root, [], [a[0]]);
    }
  }

  lemma {:induction false} ActivityMember(root: Element, q: Pos)
    ensures q in Activities(root) <==> IsActivity(root, q)
  {
    ChildMember(root, "activity", Applications(root), q);
    if |q| > 0 {
      var a := q[..|q| - 1];
      ApplicationMember(root, a);
      if |q| == 2 {
        assert a == [] + [q[0]] && q == a + [q[1]];
        AtAppend(root, [], a);
        AtAppend(root, a, [q[1]]);
      }
    }
  }

  lemma {:induction false} FilterMember(root: Element, y: Pos)
    ensures y in Filters(root) <==>
      && |y| == 3 && IsActivity(root, y[..2])
      && y[2] < |At(root, y[..2]).children| && At(root, y[..2]).children[y[2]].tag == "intent-filter"
    ensures y in Filters(root) ==> At(root, y) == At(root, y[..2]).children[y[2]]
  {
    ChildMember(root, "intent-filter", Activities(root), y);
    if |y| > 0 {
      var q := y[..|y| - 1];
      ActivityMember(root, q);
      if |y| == 3 {
        assert q == y[..2] && y == q + [y[2]];
        AtAppend(root, q, [y[2]]);
      }
    }
  }

  lemma {:induction false} ActionMember(root: Element, x: Pos)
    ensures x in Actions(root) <==>
      && |x| == 4 && x[..3] in Filters(root)
      && x[3] < |At(root, x[..3]).children| && At(root, x[..3]).children[x[3]].tag == "action"
    ensures x in Actions(root) ==> At(root, x) == At(root, x[..3]).children[x[3]]
  {
    ChildMember(root, "action", Filters(root), x);
    if |x| > 0 {
      var y := x[..|x| - 1];
      FilterMember(root, y);
      if |x| == 4 {
        assert y == x[..3] && x == y + [x[3]];
        AtAppend(root, y, [x[3]]);
      }
    }
  }

  lemma {:induction false} MainActionShape(root: Element, x: Pos)
    requires x in MainActions(root)
    ensures |x| == 4 && IsMainActivity(root, x[..2])
  {
    AttrMember(root, AndroidName, MainAction, Actions(root), x);
    ActionMember(root, x);
    var y := x[..3];
    FilterMember(root, y);
    assert y[..2] == x[..2];
    var act := At(root, x[..2]);
    assert act.children[x[2]].children[x[3]] == At(root, x);
  }

  lemma {:induction false} FilterOf(root: Element, p: Pos, i: nat)
    requires IsActivity(root, p)
    requires i < |At(root, p).children| && At(root, p).children[i].tag == "intent-filter"
    ensures p + [i] in Filters(root) && At(root, p + [i]) == At(root, p).children[i]
  {
    var y := p + [i];
    assert y[..2] == p;
    FilterMember(root, y);
  }

  lemma {:induction false} ActionOf(root: Element, y: Pos, j: nat)
    requires y in Filters(root)
    requires j < |At(root, y).children| && At(root, y).children[j].tag == "action"
    ensures y + [j] in Actions(root) && At(root, y + [j]) == At(root, y).children[j]
  {
    var x := y + [j];
    FilterMember(root, y);
    assert x[..3] == y;
    ActionMember(root, x);
  }

  /** The MAIN action at filter `i`, action `j` of an activity is among the MAIN actions. */
  lemma {:induction false} MainActionAt(root: Element, p: Pos, i: nat, j: nat)
    requires IsActivity(root, p)
    requires i < |At(root, p).children| && At(root, p).children[i].tag == "intent-filter"
    requires j < |At(root, p).children[i].children| && At(root, p).children[i].children[j].tag == "action"
    requires GetAttr(At(root, p).children[i].children[j], AndroidName) == Some(MainAction)
    ensures p + [i] + [j] in MainActions(root)
  {
    FilterOf(root, p, i);
    var y := p + [i];
    ActionOf(root, y, j);
    AttrMember(root, AndroidName, MainAction, Actions(root), y + [j]);
  }

  lemma {:induction false} MainActivityHasAction(root: Element, p: Pos)
    requires IsMainActivity(root, p)
    ensures exists x :: x in MainActions(root) && |x| == 4 && x[..2] == p
  {
    var act := At(root, p);
    var i, j :| 0 <= i < |act.children| && 0 <= j < |act.children[i].children|
      && act.children[i].tag == "intent-filter"
      && act.children[i].children[j].tag == "action"
      && GetAttr(act.children[i].children[j], AndroidName) == Some(MainAction);
    MainActionAt(root, p, i, j);
    var x := p + [i] + [j];
    assert |x| == 4 && x[..2] == p;
  }

  /** A grandparent of a MAIN action is a main activity. */
  lemma {:induction false} CandidateIsMain(root: Element, q: Pos)
    requires q in Select(root, Parent, Select(root, Parent, MainActions(root)))
    ensures IsMainActivity(root, q)
  {
    var l5 := MainActions(root);
    var l6 := Select(root, Parent, l5);
    ParentMember(root, l6, q);
    var y :| y in l6 && |y| > 0 && y[..|y| - 1] == q;
    ParentMember(root, l5, y);
    var x :| x in l5 && |x| > 0 && x[..|x| - 1] == y;
    MainActionShape(root, x);
    assert q == x[..2];
  }

  /** A main activity is a grandparent of one of the MAIN actions. */
  lemma {:induction false} MainIsCandidate(root: Element, q: Pos)
    requires IsMainActivity(root, q)
    ensures q in Select(root, Parent, Select(root, Parent, MainActions(root)))
  {
    var l5 := MainActions(root);
    var l6 := Select(root, Parent, l5);
    MainActivityHasAction(root, q);
    var x :| x in l5 && |x| == 4 && x[..2] == q;
    var y := x[..3];
    assert x[..|x| - 1] == y && y[..|y| - 1] == q;
    ParentMember(root, l5, y);
    ParentMember(root, l6, q);
  }

  /** The parents of the parents of the MAIN actions are exactly the main activities. */
  lemma {:induction false} MainActivityCandidates(root: Element, q: Pos)
    ensures q in Select(root, Parent, Select(root, Parent, MainActions(root))) <==> IsMainActivity(root, q)
  {
    if q in Select(root, Parent, Select(root, Parent, MainActions(root))) {
      CandidateIsMain(root, q);
    }
    if IsMainActivity(root, q) {
      MainIsCandidate(root, q);
    }
  }

  // ---------------------------------------------------------------------------------------
  // Document order

  /** For two nodes at the same depth, `a` comes before `b` in document order: their
      positions compare lexicographically. */
  predicate DocBefore(a: Pos, b: Pos)
    decreases |a|
  {
    |a| > 0 && |b| > 0 && (a[0] < b[0] || (a[0] == b[0] && DocBefore(a[1..], b[1..])))
  }

  /** Every node of the list comes before every later one. */
  predicate StrictlyOrdered(ps: seq<Pos>) {
    forall i, j :: 0 <= i < j < |ps| ==> DocBefore(ps[i], ps[j])
  }

  /** No node of the list comes before an earlier one (repetitions allowed). */
  predicate Ordered(ps: seq<Pos>) {
    forall i, j :: 0 <= i < j < |ps| ==> !DocBefore(ps[j], ps[i])
  }

  predicate AllDepth(ps: seq<Pos>, n: nat) {
    forall p | p in ps :: |p| == n
  }

  lemma {:induction false} DocBeforeIrreflexive(a: Pos)
    ensures !DocBefore(a, a)
    decreases |a|
  {
    if |a| > 0 {
      DocBeforeIrreflexive(a[1..]);
    }
  }

  lemma {:induction false} DocBeforeAsymmetric(a: Pos, b: Pos)
    requires DocBefore(a, b)
    ensures !DocBefore(b, a)
    decreases |a|
  {
    if a[0] == b[0] {
      DocBeforeAsymmetric(a[1..], b[1..]);
    }
  }

  /** Ancestors at depth `k` in document order make their descendants so. */
  lemma {:induction false} PrefixBefore(a: Pos, b: Pos, k: nat)
    requires k <= |a| && k <= |b| && DocBefore(a[..k], b[..k])
    ensures DocBefore(a, b)
    decreases k
  {
    assert a[..k][0] == a[0] && b[..k][0] == b[0];
    if a[0] == b[0] {
      assert a[..k][1..] == a[1..][..k - 1] && b[..k][1..] == b[1..][..k - 1];
      PrefixBefore(a[1..], b[1..], k - 1);
    }
  }

  /** Siblings are in the order of their indexes. */
  lemma {:induction false} SiblingsBefore(p: Pos, i: nat, j: nat)
    requires i < j
    ensures DocBefore(p + [i], p + [j])
    decreases |p|
  {
    if |p| > 0 {
      assert (p + [i])[1..] == p[1..] + [i] && (p + [j])[1..] == p[1..] + [j];
      SiblingsBefore(p[1..], i, j);
    }
  }

  lemma StrictlyToOrdered(ps: seq<Pos>)
    requires StrictlyOrdered(ps)
    ensures Ordered(ps)
  {
    forall i, j | 0 <= i < j < |ps| ensures !DocBefore(ps[j], ps[i]) {
      DocBeforeAsymmetric(ps[i], ps[j]);
    }
  }

  lemma ConcatOrdered(a: seq<Pos>, b: seq<Pos>)
    requires StrictlyOrdered(a) && StrictlyOrdered(b)
    requires forall x, y | x in a && y in b :: DocBefore(x, y)
    ensures StrictlyOrdered(a + b)
  {
    var c := a + b;
    forall i, j | 0 <= i < j < |c| ensures DocBefore(c[i], c[j]) {
      if j < |a| {
        assert c[i] == a[i] && c[j] == a[j];
      } else if i >= |a| {
        assert c[i] == b[i - |a|] && c[j] == b[j - |a|];
      } else {
        assert c[i] == a[i] && c[j] == b[j - |a|];
      }
    }
  }

  lemma OrderedTail(ps: seq<Pos>)
    requires |ps| > 0 && StrictlyOrdered(ps)
    ensures StrictlyOrdered(ps[1..]) && forall q | q in ps[1..] :: DocBefore(ps[0], q)
  {
    assert forall i | 0 <= i < |ps| - 1 :: ps[1..][i] == ps[i + 1];
  }

  lemma ChildShape(p: Pos, y: Pos)
    requires |y| == |p| + 1 && y[..|p|] == p
    ensures y == p + [y[|p|]]
  {
  }

  /** The children a step finds below one node are in document order. */
  lemma {:induction false} ChildrenFromOrdered(t: Element, p: Pos, i: nat, tag: Option<string>)
    requires ValidPos(t, p) && i <= |At(t, p).children|
    ensures StrictlyOrdered(ChildrenFrom(t, p, i, tag))
    decreases |At(t, p).children| - i
  {
    if i < |At(t, p).children| {
      var rest := ChildrenFrom(t, p, i + 1, tag);
      ChildrenFromOrdered(t, p, i + 1, tag);
      var here := if tag.None? || At(t, p).children[i].tag == tag.value then [p + [i]] else [];
      forall x, y | x in here && y in rest ensures DocBefore(x, y) {
        ChildrenFromMember(t, p, i + 1, tag, y);
        ChildShape(p, y);
        SiblingsBefore(p, i, y[|p|]);
      }
      ConcatOrdered(here, rest);
    }
  }

  /** A tag step over nodes of one depth in document order yields nodes of the next depth in
      document order. */
  lemma {:induction false} SelectChildOrdered(t: Element, tag: string, ps: seq<Pos>, n: nat)
    requires AllValid(t, ps) && StrictlyOrdered(ps) && AllDepth(ps, n)
    ensures StrictlyOrdered(Select(t, Child(tag), ps)) && AllDepth(Select(t, Child(tag), ps), n + 1)
  {
    if |ps| > 0 {
      var h := SelectOne(t, Child(tag), ps[0]);
      var r := Select(t, Child(tag), ps[1..]);
      OrderedTail(ps);
      SelectChildOrdered(t, tag, ps[1..], n);
      ChildrenFromOrdered(t, ps[0], 0, Some(tag));
      forall x, y | x in h && y in r ensures DocBefore(x, y) {
        ChildrenFromMember(t, ps[0], 0, Some(tag), x);
        ChildMember(t, tag, ps[1..], y);
        PrefixBefore(x, y, n);
      }
      ConcatOrdered(h, r);
      forall q | q in Select(t, Child(tag), ps) ensures |q| == n + 1 {
        ChildMember(t, tag, ps, q);
      }
    }
  }

  /** An attribute predicate keeps a subsequence, so the order and the depth. */
  lemma {:induction false} SelectAttrOrdered(t: Element, a: string, v: string, ps: seq<Pos>, n: nat)
    requires AllValid(t, ps) && StrictlyOrdered(ps) && AllDepth(ps, n)
    ensures StrictlyOrdered(Select(t, AttrEquals(a, v), ps)) && AllDepth(Select(t, AttrEquals(a, v), ps), n)
  {
    if |ps| > 0 {
      var h := SelectOne(t, AttrEquals(a, v), ps[0]);
      var r := Select(t, AttrEquals(a, v), ps[1..]);
      OrderedTail(ps);
      SelectAttrOrdered(t, a, v, ps[1..], n);
      forall x, y | x in h && y in r ensures DocBefore(x, y) {
        AttrMember(t, a, v, ps[1..], y);
      }
      ConcatOrdered(h, r);
    }
  }

  /** `..` over nodes below the root gives their parents, one for one. */
  lemma {:induction false} SelectParents(t: Element, ps: seq<Pos>)
    requires AllValid(t, ps) && forall p | p in ps :: |p| > 0
    ensures var r := Select(t, Parent, ps);
      |r| == |ps| && forall i :: 0 <= i < |ps| ==> r[i] == ps[i][..|ps[i]| - 1]
  {
    if |ps| > 0 {
      assert forall p | p in ps[1..] :: p in ps;
      SelectParents(t, ps[1..]);
    }
  }

  /** `..` keeps document order, up to repetitions, one level up. */
  lemma SelectParentOrdered(t: Element, ps: seq<Pos>, n: nat)
    requires AllValid(t, ps) && Ordered(ps) && AllDepth(ps, n + 1)
    ensures Ordered(Select(t, Parent, ps)) && AllDepth(Select(t, Parent, ps), n)
  {
    var r := Select(t, Parent, ps);
    SelectParents(t, ps);
    forall i, j | 0 <= i < j < |r| ensures !DocBefore(r[j], r[i]) {
      assert ps[i] in ps && ps[j] in ps;
      if DocBefore(r[j], r[i]) {
        PrefixBefore(ps[j], ps[i], n);
      }
    }
    forall q | q in r ensures |q| == n {
      var i :| 0 <= i < |r| && r[i] == q;
      assert ps[i] in ps;
    }
  }

  lemma ActivitiesOrdered(root: Element)
    ensures StrictlyOrdered(Activities(root)) && AllDepth(Activities(root), 2)
  {
    var l0: seq<Pos> := [[]];
    SelectChildOrdered(root, "application", l0, 0);
    SelectChildOrdered(root, "activity", Applications(root), 1);
  }

  lemma MainActionsOrdered(root: Element)
    ensures StrictlyOrdered(MainActions(root)) && AllDepth(MainActions(root), 4)
  {
    ActivitiesOrdered(root);
    SelectChildOrdered(root, "intent-filter", Activities(root), 2);
    SelectChildOrdered(root, "action", Filters(root), 3);
    SelectAttrOrdered(root, AndroidName, MainAction, Actions(root), 4);
  }

  /** The candidates of the main-activity query come in document order. */
  lemma MainActivityOrdered(root: Element)
    ensures Ordered(Select(root, Parent, Select(root, Parent, MainActions(root))))
  {
    MainActionsOrdered(root);
    StrictlyToOrdered(MainActions(root));
    SelectParentOrdered(root, MainActions(root), 3);
    SelectParentOrdered(root, Select(root, Parent, MainActions(root)), 2);
  }

  /** `find` with the hook's main-activity query succeeds exactly when the manifest has a main
      activity, and what it returns is one. */
  lemma {:induction false} MainActivityFound(root: Element)
    ensures FindText(root, MainActivityPathText).Some? <==> exists p :: IsMainActivity(root, p)
    ensures FindText(root, MainActivityPathText).Some? ==> IsMainActivity(root, FindText(root, MainActivityPathText).value)
    ensures FindText(root, MainActivityPathText).Some? ==>
      forall q | IsMainActivity(root, q) :: !DocBefore(q, FindText(root, MainActivityPathText).value)
  {
    var l7 := Select(root, Parent, Select(root, Parent, MainActions(root)));
    MainActivityPathParsed();
    MainActivityEval(root);
    if |l7| > 0 {
      MainActivityCandidates(root, l7[0]);
      MainActivityOrdered(root);
      forall q | IsMainActivity(root, q) ensures !DocBefore(q, l7[0]) {
        MainActivityCandidates(root, q);
        var j :| 0 <= j < |l7| && l7[j] == q;
        if j == 0 {
          DocBeforeIrreflexive(q);
        }
      }
    }
    if exists p :: IsMainActivity(root, p) {
      var p :| IsMainActivity(root, p);
      MainActivityCandidates(root, p);
    }
  }
}

=== FILE: jstext.dfy ===
/** The few JavaScript string primitives the hook relies on. */
module JsText {
  import opened Wrappers

  /** JavaScript's white space and line terminators: the set `String.prototype.trim`
      strips and the regular-expression class `\s` matches. */
  predicate IsJsSpace(c: char) {
    var n := c as int;
    n == 0x20 || (0x09 <= n <= 0x0D) || n == 0xA0 || n == 0x1680
    || (0x2000 <= n <= 0x200A) || n == 0x2028 || n == 0x2029
    || n == 0x202F || n == 0x205F || n == 0x3000 || n == 0xFEFF
  }

  predicate AllSpace(s: string) {
    forall i :: 0 <= i < |s| ==> IsJsSpace(s[i])
  }

  /** Length of the white-space run at the front of `s`. */
  function LeadingSpace(s: string): (n: nat)
    ensures n <= |s|
    ensures AllSpace(s[..n])
    ensures n < |s| ==> !IsJsSpace(s[n])
  {
    if |s| == 0 || !IsJsSpace(s[0]) then 0
    else
      var k := LeadingSpace(s[1..]);
      LeadingStep(s, k);
      1 + k
  }

  lemma LeadingStep(s: string, k: nat)
    requires |s| > 0 && IsJsSpace(s[0]) && k <= |s| - 1
    requires AllSpace(s[1..][..k]) && (k < |s| - 1 ==> !IsJsSpace(s[1..][k]))
    ensures AllSpace(s[..k + 1]) && (k + 1 < |s| ==> !IsJsSpace(s[k + 1]))
  {
    assert forall j | 0 <= j < k :: s[..k + 1][j + 1] == s[1..][..k][j];
  }

  /** The white-space run is exactly the spaces before the first non-space. */
  lemma {:induction false} LeadingSpaceIs(s: string, w: nat)
    requires w < |s| && AllSpace(s[..w]) && !IsJsSpace(s[w])
    ensures LeadingSpace(s) == w
    decreases w
  {
    if w > 0 {
      var u := s[..w];
      assert u[0] == s[0];
      assert s[1..][..w - 1] == u[1..];
      assert s[1..][w - 1] == s[w];
      LeadingSpaceIs(s[1..], w - 1);
    }
  }

  /** Length of `s` once its trailing white-space run is removed. */
  function TrailingStart(s: string): (n: nat)
    ensures n <= |s|
    ensures AllSpace(s[n..])
    ensures n > 0 ==> !IsJsSpace(s[n - 1])
  {
    if |s| == 0 || !IsJsSpace(s[|s| - 1]) then |s|
    else
      var k := TrailingStart(s[..|s| - 1]);
      TrailingStep(s, k);
      k
  }

  lemma TrailingStep(s: string, k: nat)
    requires |s| > 0 && IsJsSpace(s[|s| - 1]) && k <= |s| - 1
    requires AllSpace(s[..|s| - 1][k..]) && (k > 0 ==> !IsJsSpace(s[..|s| - 1][k - 1]))
    ensures AllSpace(s[k..]) && (k > 0 ==> !IsJsSpace(s[k - 1]))
  {
    assert forall i | 0 <= i < |s| - 1 - k :: s[k..][i] == s[..|s| - 1][k..][i];
  }

  /** `String.prototype.trim`. */
  function Trim(s: string): (r: string)
    ensures exists i, j :: 0 <= i <= j <= |s| && r == s[i..j] && AllSpace(s[..i]) && AllSpace(s[j..])
    ensures |r| > 0 ==> !IsJsSpace(r[0]) && !IsJsSpace(r[|r| - 1])
    ensures |r| == 0 <==> AllSpace(s)
  {
    var i := LeadingSpace(s);
    var j := TrailingStart(s[i..]);
    TrimWithin(s, i, j);
    TrimEnds(s, i, j);
    TrimEmpty(s, i, j);
    s[i..][..j]
  }

  lemma TrimWithin(s: string, i: nat, j: nat)
    requires i == LeadingSpace(s) && j == TrailingStart(s[i..])
    ensures s[i..][..j] == s[i..i + j] && AllSpace(s[..i]) && AllSpace(s[i + j..])
  {
    assert s[i..][j..] == s[i + j..];
  }

  lemma TrimEnds(s: string, i: nat, j: nat)
    requires i == LeadingSpace(s) && j == TrailingStart(s[i..])
    ensures var r := s[i..][..j];
      |r| > 0 ==> !IsJsSpace(r[0]) && !IsJsSpace(r[|r| - 1])
  {
    var r := s[i..][..j];
    if |r| > 0 {
      assert r[0] == s[i];
      assert r[|r| - 1] == s[i..][j - 1];
    }
  }

  lemma TrimEmpty(s: string, i: nat, j: nat)
    requires i == LeadingSpace(s) && j == TrailingStart(s[i..])
    ensures j == 0 <==> AllSpace(s)
  {
    assert AllSpace(s) ==> i == |s|;
    assert j == 0 ==> AllSpace(s) by {
      assert j == 0 ==> s[i..][0..] == s[i..];
      assert forall k | 0 <= k < |s| - i :: s[i..][k] == s[i + k];
      assert forall k | 0 <= k < i :: s[..i][k] == s[k];
    }
  }

  /** A text is blank when trimming leaves nothing: JavaScript's `!text.trim()`. */
  predicate IsBlank(s: string) {
    Trim(s) == []
  }

  /** `s.indexOf(sub) > -1`: `sub` occurs somewhere in `s`. */
  predicate Contains(s: string, sub: string)
    decreases |s|
  {
    sub <= s || (|s| > 0 && Contains(s[1..], sub))
  }

  /** A text cannot contain a longer one. */
  lemma {:induction false} LongerNotContained(s: string, sub: string)
    requires |sub| > |s|
    ensures !Contains(s, sub)
    decreases |s|
  {
    if |s| > 0 {
      LongerNotContained(s[1..], sub);
    }
  }

  /** The text of the value `undefined`, as `+` or a property key turns it into a string. */
  const Undefined := "undefined"

  /** A property read coerced to a string as `+` does it: an absent key reads as `"undefined"`. */
  function JsString(attrs: map<string, string>, key: string): (r: string)
    ensures key in attrs ==> r == attrs[key]
    ensures key !in attrs ==> r == Undefined
  {
    if key in attrs then attrs[key] else Undefined
  }

  /** The part of `s` before the first `sep` (all of `s` when there is none). */
  function Before(s: string, sep: char): (r: string)
    ensures r <= s
    ensures sep !in r
    ensures |r| < |s| ==> s[|r|] == sep
  {
    if |s| == 0 || s[0] == sep then [] else [s[0]] + Before(s[1..], sep)
  }

  /** The part of `s` after the first `sep` (empty when there is none). */
  function After(s: string, sep: char): (r: string)
    ensures |Before(s, sep)| < |s| ==> r == s[|Before(s, sep)| + 1..]
    ensures |Before(s, sep)| == |s| ==> r == []
  {
    if |s| == 0 then [] else if s[0] == sep then s[1..] else After(s[1..], sep)
  }

  /** With no separator in `a`, all of `a` comes before it. */
  lemma BeforeWhole(a: string, sep: char)
    requires sep !in a
    ensures Before(a, sep) == a
  {
  }

  /** The text before the first separator is what precedes its first occurrence. */
  lemma {:induction false} BeforeFirst(a: string, sep: char, b: string)
    requires sep !in a
    ensures Before(a + [sep] + b, sep) == a
  {
    var s := a + [sep] + b;
    var r := Before(s, sep);
    assert s[|a|] == sep;
    assert r == s[..|r|];
    assert s[..|a|] == a;
  }
}

=== FILE: manifest.dfy ===
/** Merging override records into an Android manifest (`updateAndroidManifest`). Each record
    names a parent node: the launcher activity, found once before any record is applied, or a
    path tried from the root and then one level down. A preference record writes one attribute
    of the parent. A fragment record finds the parent's first child matching its selector, or
    appends a new child, and overwrites that child with the fragment. */
module Manifest {
  import opened Wrappers
  import opened JsText
  import opened Xml
  import opened ElementPath
  import opened ConfigXml

  // ---------------------------------------------------------------------------------------
  // Child selection and upsert

  const UsesPermission := "uses-permission"

  /** The selector of a fragment: its tag, refined by `android:name` for `uses-permission`.
      A permission without the attribute is selected by the text `undefined`. */
  function SelectorFor(dest: string, data: Element): (r: Selector)
    ensures r.tag == dest
    ensures r.name.Some? <==> dest == UsesPermission
    ensures dest == UsesPermission && AndroidName in data.attrs ==> r.name == Some(data.attrs[AndroidName])
  {
    if dest == UsesPermission then Selector(dest, Some(JsString(data.attrs, AndroidName)))
    else Selector(dest, None)
  }

  /** A fragment is keyed when its tag is the destination and, for a permission, it carries
      its `android:name`: it then matches its own selector. */
  predicate Keyed(dest: string, data: Element) {
    data.tag == dest && (dest == UsesPermission ==> AndroidName in data.attrs)
  }

  lemma KeyedMatchesOwnSelector(dest: string, data: Element)
    requires Keyed(dest, data)
    ensures Matches(data, SelectorFor(dest, data))
  {
  }

  /** Two selectors that are equal or that no element can match both. */
  predicate Compatible(a: Selector, b: Selector) {
    a == b || a.tag != b.tag || (a.name.Some? && b.name.Some? && a.name != b.name)
  }

  lemma CompatibleDisjoint(a: Selector, b: Selector, c: Element)
    requires Compatible(a, b) && a != b && Matches(c, a)
    ensures !Matches(c, b)
  {
  }

  /** Any two fragment selectors are compatible. */
  lemma SelectorsCompatible(dest1: string, d1: Element, dest2: string, d2: Element)
    ensures Compatible(SelectorFor(dest1, d1), SelectorFor(dest2, d2))
  {
  }

  /** Where the fragment goes: the first matching child, or a new last child. */
  function Slot(cs: seq<Element>, sel: Selector): (i: nat)
    ensures i <= |cs|
    ensures i < |cs| <==> FirstMatch(cs, sel).Some?
    ensures i < |cs| ==> FirstMatch(cs, sel) == Some(i)
  {
    match FirstMatch(cs, sel)
    case Some(i) => i
    case None => |cs|
  }

  /** `parentEl.find(selector)`, creating and appending the child when there is none, then
      copying the fragment over it. */
  function Upsert(cs: seq<Element>, sel: Selector, data: Element): (r: seq<Element>)
    ensures FirstMatch(cs, sel).Some? ==> |r| == |cs|
    ensures FirstMatch(cs, sel).None? ==> |r| == |cs| + 1
    ensures r[Slot(cs, sel)] == data
    ensures forall j | 0 <= j < |cs| && j != Slot(cs, sel) :: r[j] == cs[j]
  {
    var i := Slot(cs, sel);
    if i < |cs| then cs[i := data] else cs + [data]
  }

  /** After the upsert the slot holds the first match of the fragment's own selector. */
  lemma UpsertSelf(cs: seq<Element>, sel: Selector, data: Element)
    requires Matches(data, sel)
    ensures FirstMatch(Upsert(cs, sel, data), sel) == Some(Slot(cs, sel))
  {
    var r := Upsert(cs, sel, data);
    var i := Slot(cs, sel);
    assert forall j | 0 <= j < i :: r[j] == cs[j];
    FirstMatchAt(r, sel, i);
  }

  lemma FirstMatchAt(cs: seq<Element>, sel: Selector, i: nat)
    requires i < |cs| && Matches(cs[i], sel)
    requires forall j | 0 <= j < i :: !Matches(cs[j], sel)
    ensures FirstMatch(cs, sel) == Some(i)
  {
    assert Matches(cs[i], sel);
  }

  lemma FirstMatchSame(cs: seq<Element>, cs': seq<Element>, sel: Selector)
    requires |cs| <= |cs'|
    requires forall j | 0 <= j < |cs| :: Matches(cs'[j], sel) == Matches(cs[j], sel)
    requires forall j | |cs| <= j < |cs'| :: !Matches(cs'[j], sel)
    ensures FirstMatch(cs', sel) == FirstMatch(cs, sel)
  {
    var f := FirstMatch(cs, sel);
    if f.Some? {
      FirstMatchAt(cs', sel, f.value);
    }
  }

  /** An upsert under a compatible, different selector leaves the first match of `other`
      where it was, holding the same child. */
  lemma UpsertKeepsOther(cs: seq<Element>, sel: Selector, data: Element, other: Selector)
    requires Matches(data, sel) && Compatible(sel, other) && sel != other
    ensures FirstMatch(Upsert(cs, sel, data), other) == FirstMatch(cs, other)
    ensures FirstMatch(cs, other).Some? ==>
      Upsert(cs, sel, data)[FirstMatch(cs, other).value] == cs[FirstMatch(cs, other).value]
  {
    var r := Upsert(cs, sel, data);
    var i := Slot(cs, sel);
    CompatibleDisjoint(sel, other, data);
    if i < |cs| {
      CompatibleDisjoint(sel, other, cs[i]);
    }
    FirstMatchSame(cs, r, other);
  }

  // ---------------------------------------------------------------------------------------
  // Properties of single upserts

  /** Two permissions with different names both end up among the children. */
  lemma PermissionsCoexist(cs: seq<Element>, d1: Element, d2: Element)
    requires Keyed(UsesPermission, d1) && Keyed(UsesPermission, d2)
    requires d1.attrs[AndroidName] != d2.attrs[AndroidName]
    ensures var r := Upsert(Upsert(cs, SelectorFor(UsesPermission, d1), d1), SelectorFor(UsesPermission, d2), d2);
      d1 in r && d2 in r
  {
    var s1, s2 := SelectorFor(UsesPermission, d1), SelectorFor(UsesPermission, d2);
    var r1 := Upsert(cs, s1, d1);
    var i1 := Slot(cs, s1);
    UpsertSelf(cs, s1, d1);
    CompatibleDisjoint(s1, s2, d1);
    assert Slot(r1, s2) != i1;
  }

  /** A permission whose name is already present overwrites that element: no child is added
      and the fragment takes the place of the first element with that name. */
  lemma PermissionNotDuplicated(cs: seq<Element>, d: Element, k: nat)
    requires Keyed(UsesPermission, d)
    requires k < |cs| && cs[k].tag == UsesPermission && GetAttr(cs[k], AndroidName) == Some(d.attrs[AndroidName])
    ensures var r := Upsert(cs, SelectorFor(UsesPermission, d), d);
      && |r| == |cs|
      && exists i :: 0 <= i <= k && r[i] == d && Matches(cs[i], SelectorFor(UsesPermission, d))
  {
    var sel := SelectorFor(UsesPermission, d);
    assert Matches(cs[k], sel);
  }

  /** Of two fragments with the same selector, the later one is what remains: the first
      one's child is the one the second overwrites. */
  lemma LastFragmentWins(cs: seq<Element>, sel: Selector, d1: Element, d2: Element)
    requires Matches(d1, sel)
    ensures Upsert(Upsert(cs, sel, d1), sel, d2) == Upsert(cs, sel, d2)
  {
    var r1 := Upsert(cs, sel, d1);
    UpsertSelf(cs, sel, d1);
    var i := Slot(cs, sel);
    assert Slot(r1, sel) == i;
    if i < |cs| {
      assert Upsert(r1, sel, d2) == cs[i := d2];
    } else {
      assert Upsert(r1, sel, d2) == cs + [d2];
    }
  }

  // ---------------------------------------------------------------------------------------
  // Sequences of upserts into one child list

  /** The upserts that reach one parent, in record order. */
  type Op = (Selector, Element)

  function UpsertAll(cs: seq<Element>, ops: seq<Op>): (r: seq<Element>)
    ensures |cs| <= |r| <= |cs| + |ops|
    decreases |ops|
  {
    if |ops| == 0 then cs else UpsertAll(Upsert(cs, ops[0].0, ops[0].1), ops[1..])
  }

  /** The datum of the last upsert with selector `sel`: the reference for what that selector's
      child ends up holding. */
  function FinalFor(ops: seq<Op>, sel: Selector): (r: Option<Element>)
    ensures r.None? <==> forall i | 0 <= i < |ops| :: ops[i].0 != sel
    ensures r.Some? ==> exists i | 0 <= i < |ops| :: ops[i] == (sel, r.value) && forall j | i < j < |ops| :: ops[j].0 != sel
    decreases |ops|
  {
    if |ops| == 0 then None
    else
      var rest := FinalFor(ops[1..], sel);
      if rest.Some? then
        assert forall j | 1 <= j < |ops| :: ops[j] == ops[1..][j - 1];
        rest
      else if ops[0].0 == sel then
        assert forall j | 0 < j < |ops| :: ops[j] == ops[1..][j - 1];
        Some(ops[0].1)
      else
        assert forall j | 0 < j < |ops| :: ops[j] == ops[1..][j - 1];
        None
  }

  /** Every datum matches its own selector and no two selectors can match the same child. */
  predicate WellKeyed(ops: seq<Op>) {
    && (forall i | 0 <= i < |ops| :: Matches(ops[i].1, ops[i].0))
    && (forall i, j | 0 <= i < |ops| && 0 <= j < |ops| :: Compatible(ops[i].0, ops[j].0))
  }

  lemma WellKeyedTail(ops: seq<Op>)
    requires |ops| > 0 && WellKeyed(ops)
    ensures WellKeyed(ops[1..])
  {
    assert forall i | 0 <= i < |ops| - 1 :: ops[1..][i] == ops[i + 1];
  }

  /** Upserts under other, compatible selectors leave a selector's first match and its child
      as they were. */
  lemma {:induction false} Untouched(cs: seq<Element>, ops: seq<Op>, sel: Selector)
    requires forall i | 0 <= i < |ops| :: Matches(ops[i].1, ops[i].0)
    requires forall i | 0 <= i < |ops| :: Compatible(ops[i].0, sel) && ops[i].0 != sel
    ensures FirstMatch(UpsertAll(cs, ops), sel) == FirstMatch(cs, sel)
    ensures FirstMatch(cs, sel).Some? ==>
      UpsertAll(cs, ops)[FirstMatch(cs, sel).value] == cs[FirstMatch(cs, sel).value]
    decreases |ops|
  {
    if |ops| > 0 {
      UpsertKeepsOther(cs, ops[0].0, ops[0].1, sel);
      assert forall i | 0 <= i < |ops| - 1 :: ops[1..][i] == ops[i + 1];
      Untouched(Upsert(cs, ops[0].0, ops[0].1), ops[1..], sel);
    }
  }

  /** Whatever the starting children, the first child matching a selector that some upsert
      used holds the datum of the last such upsert. */
  lemma {:induction false} Settles(cs: seq<Element>, ops: seq<Op>, sel: Selector)
    requires WellKeyed(ops) && FinalFor(ops, sel).Some?
    ensures FirstMatch(UpsertAll(cs, ops), sel).Some?
    ensures UpsertAll(cs, ops)[FirstMatch(UpsertAll(cs, ops), sel).value] == FinalFor(ops, sel).value
    decreases |ops|
  {
    var cs1 := Upsert(cs, ops[0].0, ops[0].1);
    WellKeyedTail(ops);
    if FinalFor(ops[1..], sel).Some? {
      Settles(cs1, ops[1..], sel);
    } else {
      assert ops[0].0 == sel;
      UpsertSelf(cs, sel, ops[0].1);
      assert forall i | 0 <= i < |ops| - 1 :: ops[1..][i] == ops[i + 1];
      Untouched(cs1, ops[1..], sel);
    }
  }

  /** Every selector used by the upserts already has a matching child. */
  predicate Covered(cs: seq<Element>, ops: seq<Op>) {
    forall i | 0 <= i < |ops| :: FirstMatch(cs, ops[i].0).Some?
  }

  /** An upsert whose selector already matches keeps the first match of every compatible
      selector where it was. */
  lemma UpsertKeepsMatch(cs: seq<Element>, sel: Selector, data: Element, other: Selector)
    requires Matches(data, sel) && Compatible(sel, other) && FirstMatch(cs, other).Some?
    ensures FirstMatch(Upsert(cs, sel, data), other) == FirstMatch(cs, other)
  {
    if sel == other {
      UpsertSelf(cs, sel, data);
    } else {
      UpsertKeepsOther(cs, sel, data, other);
    }
  }

  lemma CoveredStep(cs: seq<Element>, ops: seq<Op>)
    requires |ops| > 0 && WellKeyed(ops) && Covered(cs, ops)
    ensures |Upsert(cs, ops[0].0, ops[0].1)| == |cs|
    ensures Covered(Upsert(cs, ops[0].0, ops[0].1), ops[1..])
    ensures forall i | 0 <= i < |ops| ::
      FirstMatch(Upsert(cs, ops[0].0, ops[0].1), ops[i].0) == FirstMatch(cs, ops[i].0)
  {
    assert FirstMatch(cs, ops[0].0).Some?;
    forall i | 0 <= i < |ops|
      ensures FirstMatch(Upsert(cs, ops[0].0, ops[0].1), ops[i].0) == FirstMatch(cs, ops[i].0)
    {
      UpsertKeepsMatch(cs, ops[0].0, ops[0].1, ops[i].0);
    }
    assert forall i | 0 <= i < |ops| - 1 :: ops[1..][i] == ops[i + 1];
  }

  /** On children that already match every selector, the upserts add no child and move
      no first match of a compatible selector. */
  lemma {:induction false} StableMatch(cs: seq<Element>, ops: seq<Op>, other: Selector)
    requires WellKeyed(ops) && Covered(cs, ops)
    requires forall i | 0 <= i < |ops| :: Compatible(ops[i].0, other)
    requires FirstMatch(cs, other).Some?
    ensures |UpsertAll(cs, ops)| == |cs|
    ensures FirstMatch(UpsertAll(cs, ops), other) == FirstMatch(cs, other)
    decreases |ops|
  {
    if |ops| > 0 {
      CoveredStep(cs, ops);
      UpsertKeepsMatch(cs, ops[0].0, ops[0].1, other);
      WellKeyedTail(ops);
      assert forall i | 0 <= i < |ops| - 1 :: ops[1..][i] == ops[i + 1];
      StableMatch(Upsert(cs, ops[0].0, ops[0].1), ops[1..], other);
    }
  }

  /** On children that already match every selector, the upserts write only the first-match
      slots: any other child stays. */
  lemma {:induction false} StableRest(cs: seq<Element>, ops: seq<Op>, j: nat)
    requires WellKeyed(ops) && Covered(cs, ops) && j < |cs|
    requires forall i | 0 <= i < |ops| :: FirstMatch(cs, ops[i].0) != Some(j)
    ensures |UpsertAll(cs, ops)| == |cs|
    ensures UpsertAll(cs, ops)[j] == cs[j]
    decreases |ops|
  {
    if |ops| > 0 {
      CoveredStep(cs, ops);
      WellKeyedTail(ops);
      assert forall i | 0 <= i < |ops| - 1 :: ops[1..][i] == ops[i + 1];
      StableRest(Upsert(cs, ops[0].0, ops[0].1), ops[1..], j);
    }
  }

  /** Applying the same well-keyed upserts a second time changes nothing. */
  lemma UpsertAllIdempotent(cs: seq<Element>, ops: seq<Op>)
    requires WellKeyed(ops)
    ensures UpsertAll(UpsertAll(cs, ops), ops) == UpsertAll(cs, ops)
  {
    var r := UpsertAll(cs, ops);
    forall i | 0 <= i < |ops| ensures FirstMatch(r, ops[i].0).Some? {
      Settles(cs, ops, ops[i].0);
    }
    var r' := UpsertAll(r, ops);
    forall j | 0 <= j < |r| ensures |r'| == |r| && r'[j] == r[j] {
      if i :| 0 <= i < |ops| && FirstMatch(r, ops[i].0) == Some(j) {
        StableMatch(r, ops, ops[i].0);
        Settles(cs, ops, ops[i].0);
        Settles(r, ops, ops[i].0);
      } else {
        StableRest(r, ops, j);
      }
    }
    if |ops| > 0 {
      StableMatch(r, ops, ops[0].0);
    }
  }

  // ---------------------------------------------------------------------------------------
  // Applying records to the manifest

  /** The manifest being rewritten, and where the launcher activity found before the first
      record sits. The activity is an object reference in the hook: once a fragment replaces
      the children of one of its ancestors it is detached, and records aimed at it no longer
      reach the document. */
  datatype State = State(root: Element, main: Option<Pos>)

  predicate Valid(s: State) {
    s.main.Some? ==> ValidPos(s.root, s.main.value)
  }

  /** The node a record's parent names: the launcher activity, or the first match of the
      parent as a path from the root, or failing that one level down. */
  function Resolve(s: State, parent: string): (r: Option<Pos>)
    requires Valid(s)
    ensures r.Some? ==> ValidPos(s.root, r.value)
    ensures parent == MainActivityParent ==> r == s.main
    ensures parent != MainActivityParent && FindText(s.root, parent).Some? ==> r == FindText(s.root, parent)
    ensures parent != MainActivityParent && FindText(s.root, parent).None? ==> r == FindText(s.root, "*/" + parent)
  {
    if parent == MainActivityParent then s.main
    else
      var direct := FindText(s.root, parent);
      if direct.Some? then direct else FindText(s.root, "*/" + parent)
  }

  /** Two nodes with the same children have the same positions below them, and the same
      nodes at every non-empty one. */
  lemma SameChildrenPos(a: Element, b: Element, q: Pos)
    requires a.children == b.children
    ensures ValidPos(a, q) <==> ValidPos(b, q)
    ensures ValidPos(a, q) && |q| > 0 ==> At(a, q) == At(b, q)
  {
  }

  /** Replacing the node at `p` by one with the same children keeps every position valid
      and every node off `p` and its ancestors unchanged. */
  lemma RelabelAt(t: Element, p: Pos, n: Element, q: Pos)
    requires ValidPos(t, p) && n.children == At(t, p).children
    ensures ValidPos(ReplaceAt(t, p, n), q) <==> ValidPos(t, q)
    ensures ValidPos(t, q) && q != p ==>
      var r := ReplaceAt(t, p, n);
      At(r, q).tag == At(t, q).tag && At(r, q).attrs == At(t, q).attrs && At(r, q).text == At(t, q).text
  {
    ReplaceAtElsewhere(t, p, n, q);
    if p <= q {
      var s := q[|p|..];
      assert q == p + s;
      AtAppend(t, p, s);
      SameChildrenPos(n, At(t, p), s);
    }
  }

  lemma RelabelValid(s: State, p: Pos, n: Element)
    requires Valid(s) && ValidPos(s.root, p) && n.children == At(s.root, p).children
    ensures Valid(State(ReplaceAt(s.root, p, n), s.main))
  {
    if s.main.Some? {
      RelabelAt(s.root, p, n, s.main.value);
    }
  }

  /** `parentEl.attrib[destination] = data.attrib.value`. A preference element without a
      `value` attribute leaves the manifest as it was. */
  function ApplyPreference(s: State, p: Pos, dest: string, data: Element): (r: State)
    requires Valid(s) && ValidPos(s.root, p)
    ensures Valid(r) && r.main == s.main
  {
    if "value" in data.attrs then
      var n := At(s.root, p);
      var n' := n.(attrs := n.attrs[dest := data.attrs["value"]]);
      RelabelValid(s, p, n');
      State(ReplaceAt(s.root, p, n'), s.main)
    else s
  }

  /** A preference sets one attribute of the resolved node and nothing else: the same
      positions stay valid and every other node keeps its tag, attributes and text. */
  lemma PreferenceSetsOneAttribute(s: State, p: Pos, dest: string, data: Element, q: Pos)
    requires Valid(s) && ValidPos(s.root, p) && "value" in data.attrs
    ensures var r := ApplyPreference(s, p, dest, data).root;
      && (ValidPos(r, q) <==> ValidPos(s.root, q))
      && ValidPos(r, p)
      && At(r, p).attrs == At(s.root, p).attrs[dest := data.attrs["value"]]
      && At(r, p).tag == At(s.root, p).tag && At(r, p).text == At(s.root, p).text
      && (ValidPos(s.root, q) && q != p ==>
          At(r, q).tag == At(s.root, q).tag && At(r, q).attrs == At(s.root, q).attrs && At(r, q).text == At(s.root, q).text)
  {
    var n := At(s.root, p);
    RelabelAt(s.root, p, n.(attrs := n.attrs[dest := data.attrs["value"]]), q);
  }

  /** The launcher activity survives a fragment unless the overwritten child is one of its
      strict ancestors. */
  lemma {:induction false} FragmentKeepsMain(t: Element, p: Pos, sel: Selector, data: Element, m: Pos)
    requires ValidPos(t, p) && ValidPos(t, m)
    requires !(p + [Slot(At(t, p).children, sel)] < m)
    ensures ValidPos(ReplaceAt(t, p, At(t, p).(children := Upsert(At(t, p).children, sel, data))), m)
  {
    var n := At(t, p);
    var i := Slot(n.children, sel);
    var n' := n.(children := Upsert(n.children, sel, data));
    ReplaceAtElsewhere(t, p, n', m);
    if p <= m {
      var s := m[|p|..];
      assert m == p + s;
      AtAppend(t, p, s);
      if |s| > 0 && s[0] != i {
        assert n'.children[s[0]] == n.children[s[0]];
        assert ValidPos(n', s);
      } else if |s| > 0 {
        assert p + [i] <= m;
        assert |s| == 1;
        assert ValidPos(n', s);
      }
    }
  }

  lemma FragmentValid(s: State, p: Pos, sel: Selector, data: Element)
    requires Valid(s) && ValidPos(s.root, p)
    requires !(s.main.Some? && p + [Slot(At(s.root, p).children, sel)] < s.main.value)
    ensures Valid(State(ReplaceAt(s.root, p, At(s.root, p).(children := Upsert(At(s.root, p).children, sel, data))), s.main))
  {
    if s.main.Some? {
      FragmentKeepsMain(s.root, p, sel, data, s.main.value);
    }
  }

  /** Finds or creates the child the selector names under the node at `p`, then overwrites
      that child with the fragment. */
  function ApplyFragment(s: State, p: Pos, sel: Selector, data: Element): (r: State)
    requires Valid(s) && ValidPos(s.root, p)
    ensures Valid(r)
    ensures r.main.Some? ==> s.main.Some? && r.main == s.main
  {
    var n := At(s.root, p);
    var i := Slot(n.children, sel);
    var root := ReplaceAt(s.root, p, n.(children := Upsert(n.children, sel, data)));
    if s.main.Some? && p + [i] < s.main.value then State(root, None)
    else
      FragmentValid(s, p, sel, data);
      State(root, s.main)
  }

  /** One record, as one turn of the `configItems.forEach` loop. */
  function ApplyRecord(s: State, rec: Record): (r: State)
    requires Valid(s)
    ensures Valid(r)
    ensures r.main.Some? ==> r.main == s.main
    ensures r.root.tag == s.root.tag && |r.root.children| >= |s.root.children|
    ensures Resolve(s, rec.parent).None? ==> r == s
  {
    match Resolve(s, rec.parent)
    case None => s
    case Some(p) =>
      if rec.kind == PreferenceKind then ApplyPreference(s, p, rec.destination, rec.data)
      else ApplyFragment(s, p, SelectorFor(rec.destination, rec.data), rec.data)
  }

  function ApplyAll(s: State, recs: seq<Record>): (r: State)
    requires Valid(s)
    ensures Valid(r)
    ensures r.root.tag == s.root.tag && |r.root.children| >= |s.root.children|
    decreases |recs|
  {
    if |recs| == 0 then s else ApplyAll(ApplyRecord(s, recs[0]), recs[1..])
  }

  /** `updateAndroidManifest` on a parsed manifest: the launcher activity is located once,
      then the records are applied in order. */
  function UpdateAndroidManifest(root: Element, recs: seq<Record>): (r: Element)
    ensures r.tag == root.tag && |r.children| >= |root.children|
  {
    ApplyAll(State(root, FindText(root, MainActivityPathText)), recs).root
  }

  /** The error the element-tree library throws when `find` is given a path that starts at
      the document root. */
  const AbsolutePathRejected := "Cannot use absolute path on element"

  /** A record whose parent the library's `find` refuses: one written as an absolute path,
      such as `/manifest/application`. The launcher activity's marker never is one, and the
      model's path language finds nothing for it. */
  predicate AbsoluteParent(rec: Record) {
    |rec.parent| > 0 && rec.parent[0] == '/'
  }

  /** The merge alone skips a refused record: its parent resolves to nothing, so applying it
      leaves the state as it was. The failure is therefore carried by `WriteAndroidManifest`. */
  lemma AbsoluteParentSkipped(s: State, rec: Record)
    requires Valid(s) && AbsoluteParent(rec)
    ensures Resolve(s, rec.parent) == None
    ensures ApplyRecord(s, rec) == s
  {
    assert rec.parent[0] != MainActivityParent[0];
    AbsolutePathUnfound(s.root, rec.parent);
  }

  /** Whether some record's parent is refused. */
  function SomeAbsoluteParent(recs: seq<Record>): (r: bool)
    ensures r <==> exists i | 0 <= i < |recs| :: AbsoluteParent(recs[i])
    decreases |recs|
  {
    if |recs| == 0 then false
    else
      AbsoluteParent(recs[0]) || SomeAbsoluteParent(recs[1..])
  }

  /** `updateAndroidManifest` with its failure: a refused parent, on whichever record, throws
      out of the loop before the manifest is written, so the update fails and every record's
      change is lost; otherwise the result is the merged manifest. */
  function WriteAndroidManifest(root: Element, recs: seq<Record>): (r: Result<Element>)
    ensures r.Err? <==> exists i | 0 <= i < |recs| :: AbsoluteParent(recs[i])
    ensures r.Err? ==> r.message == AbsolutePathRejected
    ensures r.Ok? ==> r.value == UpdateAndroidManifest(root, recs)
  {
    if SomeAbsoluteParent(recs) then Err(AbsolutePathRejected)
    else Ok(UpdateAndroidManifest(root, recs))
  }

  // ---------------------------------------------------------------------------------------
  // Properties of record application

  /** A fragment rewrites only the children of the resolved node: the node keeps its tag,
      attributes and text, its children become the upsert's, and every node that is neither
      the resolved node nor below it keeps its tag, attributes, text and child count (and is
      untouched altogether when it is not an ancestor either). */
  lemma FragmentRewritesChildren(s: State, p: Pos, sel: Selector, data: Element, q: Pos)
    requires Valid(s) && ValidPos(s.root, p)
    ensures var r := ApplyFragment(s, p, sel, data).root;
      && ValidPos(r, p)
      && At(r, p) == At(s.root, p).(children := Upsert(At(s.root, p).children, sel, data))
      && (!(p <= q) ==> (ValidPos(r, q) <==> ValidPos(s.root, q)))
      && (!(p <= q) && ValidPos(s.root, q) ==>
          && At(r, q).tag == At(s.root, q).tag && At(r, q).attrs == At(s.root, q).attrs
          && At(r, q).text == At(s.root, q).text && |At(r, q).children| == |At(s.root, q).children|
          && (!(q <= p) ==> At(r, q) == At(s.root, q)))
  {
    var n := At(s.root, p);
    ReplaceAtElsewhere(s.root, p, n.(children := Upsert(n.children, sel, data)), q);
  }

  /** Records aimed at the launcher activity are no-ops when the manifest has none. */
  function WithoutMainRecords(recs: seq<Record>): (r: seq<Record>)
    ensures forall rec | rec in r :: rec in recs && rec.parent != MainActivityParent
    ensures forall rec | rec in recs && rec.parent != MainActivityParent :: rec in r
    decreases |recs|
  {
    if |recs| == 0 then []
    else (if recs[0].parent == MainActivityParent then [] else [recs[0]]) + WithoutMainRecords(recs[1..])
  }

  lemma {:induction false} DetachedMainIgnored(s: State, recs: seq<Record>)
    requires Valid(s) && s.main.None?
    ensures ApplyAll(s, recs) == ApplyAll(s, WithoutMainRecords(recs))
    decreases |recs|
  {
    if |recs| > 0 {
      var s1 := ApplyRecord(s, recs[0]);
      assert s1.main.None?;
      DetachedMainIgnored(s1, recs[1..]);
      var rest := WithoutMainRecords(recs[1..]);
      if recs[0].parent != MainActivityParent {
        var w := [recs[0]] + rest;
        assert WithoutMainRecords(recs) == w;
        assert w[0] == recs[0] && w[1..] == rest;
        assert ApplyAll(s, w) == ApplyAll(s1, rest);
      } else {
        assert Resolve(s, recs[0].parent).None?;
        assert s1 == s;
        assert WithoutMainRecords(recs) == rest;
      }
      assert ApplyAll(s, recs) == ApplyAll(s1, recs[1..]);
    }
  }

  /** In a manifest with no launcher activity, every `__cordovaMainActivity__` record is
      skipped: the result is that of the other records alone. */
  lemma NoMainActivityIgnored(root: Element, recs: seq<Record>)
    requires forall p :: !IsMainActivity(root, p)
    ensures UpdateAndroidManifest(root, recs) == UpdateAndroidManifest(root, WithoutMainRecords(recs))
  {
    MainActivityFound(root);
    DetachedMainIgnored(State(root, None), recs);
  }

  /** The upserts a list of fragment records performs, in order. */
  function OpsOf(recs: seq<Record>): (r: seq<Op>)
    ensures |r| == |recs|
    ensures forall i | 0 <= i < |recs| :: r[i] == (SelectorFor(recs[i].destination, recs[i].data), recs[i].data)
  {
    seq(|recs|, i requires 0 <= i < |recs| => (SelectorFor(recs[i].destination, recs[i].data), recs[i].data))
  }

  /** Fragment records placed directly under the manifest root. */
  predicate RootFragmentRecords(recs: seq<Record>) {
    forall i | 0 <= i < |recs| :: recs[i].kind == ConfigFileKind && recs[i].parent == RootParent
  }

  lemma RootFragmentStep(s: State, rec: Record)
    requires Valid(s) && rec.kind == ConfigFileKind && rec.parent == RootParent
    ensures ApplyRecord(s, rec).root == s.root.(children := Upsert(s.root.children, SelectorFor(rec.destination, rec.data), rec.data))
  {
    RootPath(s.root);
    assert Resolve(s, rec.parent) == Some([]);
  }

  /** Fragments under the root (`parent="./"`) act on the root's child list exactly as the
      sequence of upserts does. */
  lemma {:induction false} RootFragments(s: State, recs: seq<Record>)
    requires Valid(s) && RootFragmentRecords(recs)
    ensures ApplyAll(s, recs).root == s.root.(children := UpsertAll(s.root.children, OpsOf(recs)))
    decreases |recs|
  {
    if |recs| > 0 {
      var s1 := ApplyRecord(s, recs[0]);
      RootFragmentStep(s, recs[0]);
      assert OpsOf(recs)[0] == (SelectorFor(recs[0].destination, recs[0].data), recs[0].data);
      assert OpsOf(recs)[1..] == OpsOf(recs[1..]);
      RootFragments(s1, recs[1..]);
    }
  }

  /** The fragments of a keyed list: each is its destination's element, and a permission
      carries its name. */
  lemma KeyedOps(recs: seq<Record>)
    requires forall i | 0 <= i < |recs| :: Keyed(recs[i].destination, recs[i].data)
    ensures WellKeyed(OpsOf(recs))
  {
    var ops := OpsOf(recs);
    forall i | 0 <= i < |ops| ensures Matches(ops[i].1, ops[i].0) {
      KeyedMatchesOwnSelector(recs[i].destination, recs[i].data);
    }
    forall i, j | 0 <= i < |ops| && 0 <= j < |ops| ensures Compatible(ops[i].0, ops[j].0) {
      SelectorsCompatible(recs[i].destination, recs[i].data, recs[j].destination, recs[j].data);
    }
  }

  /** Running the hook twice with keyed fragments under the manifest root gives the manifest
      of running it once. */
  lemma RootFragmentsIdempotent(root: Element, recs: seq<Record>)
    requires RootFragmentRecords(recs)
    requires forall i | 0 <= i < |recs| :: Keyed(recs[i].destination, recs[i].data)
    ensures UpdateAndroidManifest(UpdateAndroidManifest(root, recs), recs) == UpdateAndroidManifest(root, recs)
  {
    var once := UpdateAndroidManifest(root, recs);
    RootFragments(State(root, FindText(root, MainActivityPathText)), recs);
    RootFragments(State(once, FindText(once, MainActivityPathText)), recs);
    KeyedOps(recs);
    UpsertAllIdempotent(root.children, OpsOf(recs));
  }

  /** Fragment records placed under the launcher activity. */
  predicate MainFragmentRecords(recs: seq<Record>) {
    forall i | 0 <= i < |recs| :: recs[i].kind == ConfigFileKind && recs[i].parent == MainActivityParent
  }

  lemma MainFragmentStep(s: State, rec: Record)
    requires Valid(s) && s.main.Some? && rec.kind == ConfigFileKind && rec.parent == MainActivityParent
    ensures var m := s.main.value;
      var r := ApplyRecord(s, rec);
      && r.main == s.main
      && r.root == ReplaceAt(s.root, m, At(s.root, m).(children := Upsert(At(s.root, m).children, SelectorFor(rec.destination, rec.data), rec.data)))
  {
    var m := s.main.value;
    assert !(m + [Slot(At(s.root, m).children, SelectorFor(rec.destination, rec.data))] < m);
  }

  /** Fragments under the launcher activity never detach it: they act on its child list
      exactly as the sequence of upserts does, and nothing else in the manifest changes. */
  lemma {:induction false} MainFragments(s: State, recs: seq<Record>)
    requires Valid(s) && s.main.Some? && MainFragmentRecords(recs)
    ensures var m := s.main.value;
      ApplyAll(s, recs).root == ReplaceAt(s.root, m, At(s.root, m).(children := UpsertAll(At(s.root, m).children, OpsOf(recs))))
    decreases |recs|
  {
    var m := s.main.value;
    if |recs| == 0 {
      ReplaceSame(s.root, m);
    } else {
      var s1 := ApplyRecord(s, recs[0]);
      var n := At(s.root, m);
      var n1 := n.(children := Upsert(n.children, SelectorFor(recs[0].destination, recs[0].data), recs[0].data));
      MainFragmentStep(s, recs[0]);
      assert At(s1.root, m) == n1;
      MainFragments(s1, recs[1..]);
      assert OpsOf(recs)[0] == (SelectorFor(recs[0].destination, recs[0].data), recs[0].data);
      assert OpsOf(recs)[1..] == OpsOf(recs[1..]);
      ReplaceTwice(s.root, m, n1, n.(children := UpsertAll(n1.children, OpsOf(recs[1..]))));
    }
  }
}

=== FILE: ordered_map.dfy ===
/** A JavaScript plain object used as a dictionary. Its keys enumerate in the order in which
    they were first assigned, and assigning an existing key changes the value in place
    without moving the key. The model is a sequence of (key, value) entries. */
module OrderedMap {
  import opened Wrappers

  function Keys<K, V>(m: seq<(K, V)>): (r: seq<K>)
    ensures |r| == |m|
    ensures forall i :: 0 <= i < |m| ==> r[i] == m[i].0
  {
    if |m| == 0 then [] else [m[0].0] + Keys(m[1..])
  }

  predicate Distinct<K(==)>(s: seq<K>) {
    forall i, j :: 0 <= i < j < |s| ==> s[i] != s[j]
  }

  /** `obj[k]`: the value of the entry for `k`, if any. */
  function Get<K(==), V>(m: seq<(K, V)>, k: K): (r: Option<V>)
    ensures r.Some? <==> k in Keys(m)
    ensures r.Some? ==> (k, r.value) in m
  {
    if |m| == 0 then None
    else if m[0].0 == k then Some(m[0].1)
    else Get(m[1..], k)
  }

  /** `obj[k] = v`: overwrite the entry for `k` where it stands, or add one at the end. */
  function Put<K(==,!new), V>(m: seq<(K, V)>, k: K, v: V): (r: seq<(K, V)>)
    ensures Get(r, k) == Some(v)
    ensures forall k' {:trigger Get(r, k')} | k' != k :: Get(r, k') == Get(m, k')
    ensures k in Keys(m) ==> Keys(r) == Keys(m)
    ensures k !in Keys(m) ==> Keys(r) == Keys(m) + [k]
  {
    if |m| == 0 then [(k, v)]
    else if m[0].0 == k then
      var r := [(k, v)] + m[1..];
      assert r[1..] == m[1..];
      r
    else
      var t := Put(m[1..], k, v);
      ConsGet(m, t, k);
      ConsKeys(m, t, k);
      [m[0]] + t
  }

  /** Lookups in `[m[0]] + t` when `t` answers like `m[1..]` everywhere but at `k`. */
  lemma ConsGet<K(!new), V>(m: seq<(K, V)>, t: seq<(K, V)>, k: K)
    requires |m| > 0 && m[0].0 != k
    ensures Get([m[0]] + t, k) == Get(t, k)
    ensures forall k' {:trigger Get([m[0]] + t, k')} | k' != k && Get(t, k') == Get(m[1..], k') ::
      Get([m[0]] + t, k') == Get(m, k')
  {
    assert ([m[0]] + t)[1..] == t;
  }

  lemma ConsKeys<K(!new), V>(m: seq<(K, V)>, t: seq<(K, V)>, k: K)
    requires |m| > 0 && m[0].0 != k
    ensures k in Keys(m) <==> k in Keys(m[1..])
    ensures Keys(t) == Keys(m[1..]) ==> Keys([m[0]] + t) == Keys(m)
    ensures Keys(t) == Keys(m[1..]) + [k] ==> Keys([m[0]] + t) == Keys(m) + [k]
  {
    assert ([m[0]] + t)[1..] == t;
    assert Keys(m) == [m[0].0] + Keys(m[1..]);
    assert Keys([m[0]] + t) == [m[0].0] + Keys(t);
    assert [m[0].0] + (Keys(m[1..]) + [k]) == ([m[0].0] + Keys(m[1..])) + [k];
  }

  /** Assigning a property never makes a key appear twice. */
  lemma PutDistinct<K(!new), V>(m: seq<(K, V)>, k: K, v: V)
    requires Distinct(Keys(m))
    ensures Distinct(Keys(Put(m, k, v)))
  {
    if k !in Keys(m) {
      var ks := Keys(m) + [k];
      assert Keys(Put(m, k, v)) == ks;
      forall i, j | 0 <= i < j < |ks| ensures ks[i] != ks[j] {
        assert ks[i] == Keys(m)[i];
        if j < |ks| - 1 {
          assert ks[j] == Keys(m)[j];
        }
      }
    }
  }

  /** Two dictionaries with the same keys in the same order, whose values agree except at `k`. */
  ghost predicate SameExceptAt<K, V>(m1: seq<(K, V)>, m2: seq<(K, V)>, k: K) {
    && |m1| == |m2|
    && (forall i :: 0 <= i < |m1| ==> m1[i].0 == m2[i].0)
    && (forall i :: 0 <= i < |m1| && m1[i].0 != k ==> m1[i].1 == m2[i].1)
  }

  /** Writing two different values at one key leaves the dictionaries equal except at that key. */
  lemma {:induction false} PutDiffers<K(!new), V>(m: seq<(K, V)>, k: K, v1: V, v2: V)
    ensures SameExceptAt(Put(m, k, v1), Put(m, k, v2), k)
  {
    if |m| > 0 && m[0].0 != k {
      PutDiffers(m[1..], k, v1, v2);
    }
  }

  /** The same write on both sides keeps two dictionaries equal except at `k`. */
  lemma {:induction false} PutKeepsSameExcept<K(!new), V>(m1: seq<(K, V)>, m2: seq<(K, V)>, k: K, k': K, v: V)
    requires SameExceptAt(m1, m2, k)
    ensures SameExceptAt(Put(m1, k', v), Put(m2, k', v), k)
  {
    if |m1| > 0 {
      if m1[0].0 == k' {
        assert Put(m1, k', v) == [(k', v)] + m1[1..] && Put(m2, k', v) == [(k', v)] + m2[1..];
        SameExceptTail(m1, m2, k);
        SameExceptCons((k', v), (k', v), m1[1..], m2[1..], k);
      } else {
        SameExceptTail(m1, m2, k);
        PutKeepsSameExcept(m1[1..], m2[1..], k, k', v);
        assert Put(m1, k', v) == [m1[0]] + Put(m1[1..], k', v);
        assert Put(m2, k', v) == [m2[0]] + Put(m2[1..], k', v);
        SameExceptCons(m1[0], m2[0], Put(m1[1..], k', v), Put(m2[1..], k', v), k);
      }
    }
  }

  lemma SameExceptTail<K, V>(m1: seq<(K, V)>, m2: seq<(K, V)>, k: K)
    requires SameExceptAt(m1, m2, k) && |m1| > 0
    ensures SameExceptAt(m1[1..], m2[1..], k)
    ensures m1[0].0 == m2[0].0 && (m1[0].0 != k ==> m1[0].1 == m2[0].1)
  {
    assert forall i | 0 <= i < |m1| - 1 :: m1[1..][i] == m1[i + 1] && m2[1..][i] == m2[i + 1];
  }

  lemma SameExceptCons<K, V>(a: (K, V), b: (K, V), t1: seq<(K, V)>, t2: seq<(K, V)>, k: K)
    requires a.0 == b.0 && (a.0 != k ==> a.1 == b.1) && SameExceptAt(t1, t2, k)
    ensures SameExceptAt([a] + t1, [b] + t2, k)
  {
    var r1, r2 := [a] + t1, [b] + t2;
    assert forall i | 1 <= i < |r1| :: r1[i] == t1[i - 1] && r2[i] == t2[i - 1];
  }

  /** A write at `k` erases the only difference between two dictionaries that differ only at `k`. */
  lemma {:induction false} PutAbsorbs<K(!new), V>(m1: seq<(K, V)>, m2: seq<(K, V)>, k: K, v: V)
    requires SameExceptAt(m1, m2, k) && Distinct(Keys(m1))
    ensures Put(m1, k, v) == Put(m2, k, v)
  {
    if |m1| > 0 {
      if m1[0].0 == k {
        forall i | 0 <= i < |m1| - 1 ensures m1[1..][i] == m2[1..][i] {
          assert Keys(m1)[i + 1] != Keys(m1)[0];
        }
        assert m1[1..] == m2[1..];
      } else {
        assert m1[0] == m2[0];
        assert SameExceptAt(m1[1..], m2[1..], k);
        assert Keys(m1[1..]) == Keys(m1)[1..];
        PutAbsorbs(m1[1..], m2[1..], k, v);
      }
    }
  }

  /** Assigning each (key, value) in turn, starting from an empty object. */
  function FromPairs<K(==,!new), V>(kvs: seq<(K, V)>): seq<(K, V)> {
    if |kvs| == 0 then []
    else Put(FromPairs(kvs[..|kvs| - 1]), kvs[|kvs| - 1].0, kvs[|kvs| - 1].1)
  }

  /** Each key once, at the place where it first appears. */
  function FirstOccurrences<K(==,!new)>(ks: seq<K>): (r: seq<K>)
    ensures Distinct(r)
    ensures forall k :: k in r <==> k in ks
  {
    if |ks| == 0 then []
    else
      var f, last := FirstOccurrences(ks[..|ks| - 1]), ks[|ks| - 1];
      assert forall k :: k in ks <==> k in ks[..|ks| - 1] || k == last;
      if last in f then f else DistinctSnoc(f, last); f + [last]
  }

  lemma DistinctSnoc<K>(s: seq<K>, x: K)
    requires Distinct(s) && x !in s
    ensures Distinct(s + [x])
  {
    var t := s + [x];
    forall i, j | 0 <= i < j < |t| ensures t[i] != t[j] {
      assert t[i] == s[i];
    }
  }

  lemma FirstOccurrencesSnoc<K(!new)>(ks: seq<K>, k: K)
    ensures var f := FirstOccurrences(ks);
      FirstOccurrences(ks + [k]) == if k in f then f else f + [k]
  {
    assert (ks + [k])[..|ks|] == ks;
  }

  /** The keys of an object built by assignments are the assigned keys, each once, in the
      order of their first assignment. */
  lemma {:induction false} FromPairsKeys<K(!new), V>(kvs: seq<(K, V)>)
    ensures Keys(FromPairs(kvs)) == FirstOccurrences(Keys(kvs))
  {
    if |kvs| > 0 {
      var n := |kvs|;
      assert Keys(kvs)[..n - 1] == Keys(kvs[..n - 1]);
      FromPairsKeys(kvs[..n - 1]);
    }
  }

  lemma FromPairsSingle<K(!new), V>(k: K, v: V)
    ensures FromPairs([(k, v)]) == [(k, v)]
  {
    assert [(k, v)][..0] == [];
  }

  /** The value of the last pair with key `k`. */
  function LastValue<K(==), V>(kvs: seq<(K, V)>, k: K): (r: Option<V>)
    ensures r.Some? ==> (k, r.value) in kvs
    ensures r.None? <==> forall i | 0 <= i < |kvs| :: kvs[i].0 != k
  {
    if |kvs| == 0 then None
    else if kvs[|kvs| - 1].0 == k then Some(kvs[|kvs| - 1].1)
    else
      var r := LastValue(kvs[..|kvs| - 1], k);
      assert forall i | 0 <= i < |kvs| - 1 :: kvs[..|kvs| - 1][i] == kvs[i];
      r
  }

  /** After a run of assignments each key holds the last value assigned to it. */
  lemma {:induction false} FromPairsLast<K(!new), V>(kvs: seq<(K, V)>, k: K)
    ensures Get(FromPairs(kvs), k) == LastValue(kvs, k)
  {
    if |kvs| > 0 {
      FromPairsLast(kvs[..|kvs| - 1], k);
    }
  }

  /** No key appears twice. */
  lemma {:induction false} FromPairsDistinct<K(!new), V>(kvs: seq<(K, V)>)
    ensures Distinct(Keys(FromPairs(kvs)))
  {
    if |kvs| > 0 {
      FromPairsDistinct(kvs[..|kvs| - 1]);
      PutDistinct(FromPairs(kvs[..|kvs| - 1]), kvs[|kvs| - 1].0, kvs[|kvs| - 1].1);
    }
  }

  /** Changing the value of one assignment changes the result at most at its key. */
  lemma {:induction false} FromPairsSameExcept<K(!new), V>(kvs: seq<(K, V)>, i: nat, v: V)
    requires i < |kvs|
    ensures SameExceptAt(FromPairs(kvs[i := (kvs[i].0, v)]), FromPairs(kvs), kvs[i].0)
  {
    var n := |kvs|;
    if i == n - 1 {
      LastSameExcept(kvs, v);
    } else {
      var front := kvs[..n - 1];
      FromPairsSameExcept(front, i, v);
      SameExceptExtend(kvs, i, v);
    }
  }

  lemma SameExceptExtend<K(!new), V>(kvs: seq<(K, V)>, i: nat, v: V)
    requires i < |kvs| - 1
    requires var front := kvs[..|kvs| - 1];
      SameExceptAt(FromPairs(front[i := (front[i].0, v)]), FromPairs(front), kvs[i].0)
    ensures SameExceptAt(FromPairs(kvs[i := (kvs[i].0, v)]), FromPairs(kvs), kvs[i].0)
  {
    var front, last := kvs[..|kvs| - 1], kvs[|kvs| - 1];
    UpdateUnfold(kvs, i, v);
    PutKeepsSameExcept(FromPairs(front[i := (front[i].0, v)]), FromPairs(front), kvs[i].0, last.0, last.1);
  }

  lemma LastSameExcept<K(!new), V>(kvs: seq<(K, V)>, v: V)
    requires |kvs| > 0
    ensures var n := |kvs|;
      SameExceptAt(FromPairs(kvs[n - 1 := (kvs[n - 1].0, v)]), FromPairs(kvs), kvs[n - 1].0)
  {
    var n := |kvs|;
    assert kvs[n - 1 := (kvs[n - 1].0, v)][..n - 1] == kvs[..n - 1];
    PutDiffers(FromPairs(kvs[..n - 1]), kvs[n - 1].0, v, kvs[n - 1].1);
  }

  /** An assignment that a later assignment to the same key overwrites can carry any value:
      the result does not depend on it. */
  lemma {:induction false} OverwrittenIgnored<K(!new), V>(kvs: seq<(K, V)>, i: nat, j: nat, v: V)
    requires i < j < |kvs| && kvs[j].0 == kvs[i].0
    ensures FromPairs(kvs[i := (kvs[i].0, v)]) == FromPairs(kvs)
  {
    var front := kvs[..|kvs| - 1];
    UpdateUnfold(kvs, i, v);
    if j < |kvs| - 1 {
      OverwrittenIgnored(front, i, j, v);
    } else {
      FrontIgnored(front, i, v, kvs[j].1);
    }
  }

  lemma UpdateUnfold<K(!new), V>(kvs: seq<(K, V)>, i: nat, v: V)
    requires i < |kvs| - 1
    ensures var front, last := kvs[..|kvs| - 1], kvs[|kvs| - 1];
      && FromPairs(kvs) == Put(FromPairs(front), last.0, last.1)
      && FromPairs(kvs[i := (kvs[i].0, v)]) == Put(FromPairs(front[i := (front[i].0, v)]), last.0, last.1)
  {
    var n := |kvs|;
    assert kvs[i := (kvs[i].0, v)][..n - 1] == kvs[..n - 1][i := (kvs[..n - 1][i].0, v)];
  }

  /** A final assignment to a key erases the value any earlier assignment gave it. */
  lemma FrontIgnored<K(!new), V>(front: seq<(K, V)>, i: nat, v: V, w: V)
    requires i < |front|
    ensures Put(FromPairs(front[i := (front[i].0, v)]), front[i].0, w) == Put(FromPairs(front), front[i].0, w)
  {
    FromPairsSameExcept(front, i, v);
    FromPairsDistinct(front[i := (front[i].0, v)]);
    PutAbsorbs(FromPairs(front[i := (front[i].0, v)]), FromPairs(front), front[i].0, w);
  }
}

=== FILE: platform.dfy ===
/** `updatePlatformConfig`: the per-target dispatch. The records grouped by target file go to
    the iOS plist when the platform is `ios` and the target mentions `Info.plist`, and to the
    Android manifest when the platform is `android` and the target is `AndroidManifest.xml`;
    every other target is ignored. Each target's file is written as soon as it is updated, so
    a failure keeps the writes of the targets before it and skips the targets after it. */
module Platform {
  import opened Wrappers
  import opened JsText
  import opened Xml
  import opened OrderedMap
  import opened ConfigXml
  import opened Manifest
  import opened Plist

  const IosPlatform := "ios"
  const AndroidPlatform := "android"
  const PlistMarker := "Info.plist"
  const ManifestMissing := "Can't find AndroidManifest.xml in platforms/Android"

  /** The files a platform update may rewrite: the parsed Android manifest, when the project
      has one, and the text of the iOS `<name>-Info.plist`. */
  datatype Project = Project(manifest: Option<Element>, plist: string)

  /** How a platform's update ended: the files as it left them, and the error that stopped
      it, if one did. */
  datatype Run = Run(proj: Project, failure: Option<string>)

  /** Which file, if any, a target updates on a platform. */
  datatype Dispatch = ToPlist | ToManifest | Ignored

  function DispatchFor(platform: string, target: string): (r: Dispatch)
    ensures r == ToPlist <==> platform == IosPlatform && Contains(target, PlistMarker)
    ensures r == ToManifest <==> platform == AndroidPlatform && target == ManifestTarget
  {
    if platform == IosPlatform && Contains(target, PlistMarker) then ToPlist
    else if platform == AndroidPlatform && target == ManifestTarget then ToManifest
    else Ignored
  }

  /** The records of preferences named like inherited members, filed under `undefined`,
      reach no file. */
  lemma UndefinedTargetIgnored(platform: string)
    ensures DispatchFor(platform, Undefined) == Ignored
  {
    LongerNotContained(Undefined, PlistMarker);
  }

  /** One target's records applied to the project. */
  function UpdateTarget<V>(platform: string, target: string, recs: seq<Record>, proj: Project, codec: PlistCodec<V>): (r: Result<Project>)
    ensures DispatchFor(platform, target) == Ignored ==> r == Ok(proj)
    ensures r.Ok? && DispatchFor(platform, target) != ToPlist ==> r.value.plist == proj.plist
    ensures r.Ok? && DispatchFor(platform, target) != ToManifest ==> r.value.manifest == proj.manifest
    ensures DispatchFor(platform, target) == ToManifest ==>
      (r.Err? <==> proj.manifest.None? || exists i | 0 <= i < |recs| :: AbsoluteParent(recs[i]))
  {
    match DispatchFor(platform, target)
    case Ignored => Ok(proj)
    case ToPlist =>
      (match UpdateIosPlist(proj.plist, recs, codec)
       case Err(e) => Err(e)
       case Ok(text) => Ok(proj.(plist := text)))
    case ToManifest =>
      (match proj.manifest
       case None => Err(ManifestMissing)
       case Some(m) =>
         (match WriteAndroidManifest(m, recs)
          case Err(e) => Err(e)
          case Ok(root) => Ok(proj.(manifest := Some(root)))))
  }

  /** The targets in the order of the grouped data; the first failure ends the run and keeps
      what the earlier targets wrote. */
  function UpdateTargets<V>(platform: string, data: ConfigData, proj: Project, codec: PlistCodec<V>): Run
    decreases |data|
  {
    if |data| == 0 then Run(proj, None)
    else
      match UpdateTarget(platform, data[0].0, data[0].1, proj, codec)
      case Err(e) => Run(proj, Some(e))
      case Ok(p) => UpdateTargets(platform, data[1..], p, codec)
  }

  /** The hook's work for one platform, given its parsed `config.xml`: parse with the
      source's string-keyed block index, then update target by target. A throwing parse
      writes nothing. */
  function UpdatePlatformConfig<V>(doc: Element, platform: string, proj: Project, codec: PlistCodec<V>): Run {
    if ParseThrows(doc, platform) then Run(proj, Some(ParseFailure))
    else UpdateTargets(platform, ParseConfigXmlAsWritten(doc, platform), proj, codec)
  }

  /** The same run over the pair-keyed block index. */
  function UpdatePlatformConfigCorrected<V>(doc: Element, platform: string, proj: Project, codec: PlistCodec<V>): Run {
    if ParseThrowsCorrected(doc, platform) then Run(proj, Some(ParseFailure))
    else UpdateTargets(platform, ParseConfigXml(doc, platform), proj, codec)
  }

  /** The two runs coincide unless some block's target or parent holds a bar. */
  lemma RunsAgree<V>(doc: Element, platform: string, proj: Project, codec: PlistCodec<V>)
    requires forall b | b in ConfigFileBlocks(doc, platform) :: NoBar(BlockKey(b))
    ensures UpdatePlatformConfig(doc, platform, proj, codec) == UpdatePlatformConfigCorrected(doc, platform, proj, codec)
  {
    ThrowsAgree(doc, platform);
    ParseAsWrittenAgrees(doc, platform);
  }

  // ---------------------------------------------------------------------------------------
  // Writes survive later failures

  /** Running two lists of targets one after the other is running their concatenation: the
      second list starts from the files the first left, and does not run when the first
      failed. */
  lemma {:induction false} UpdateTargetsAppend<V>(platform: string, a: ConfigData, b: ConfigData, proj: Project, codec: PlistCodec<V>)
    ensures UpdateTargets(platform, a + b, proj, codec)
      == (var r := UpdateTargets(platform, a, proj, codec);
          if r.failure.Some? then r else UpdateTargets(platform, b, r.proj, codec))
    decreases |a|
  {
    if |a| == 0 {
      assert a + b == b;
    } else {
      assert (a + b)[0] == a[0] && (a + b)[1..] == a[1..] + b;
      match UpdateTarget(platform, a[0].0, a[0].1, proj, codec)
      case Err(e) =>
      case Ok(p) => UpdateTargetsAppend(platform, a[1..], b, p, codec);
    }
  }

  /** A target that fails ends the run with the files as the targets before it left them. */
  lemma FailureKeepsEarlierWrites<V>(platform: string, data: ConfigData, i: nat, proj: Project, codec: PlistCodec<V>)
    requires i < |data|
    requires UpdateTargets(platform, data[..i], proj, codec).failure.None?
    requires UpdateTarget(platform, data[i].0, data[i].1, UpdateTargets(platform, data[..i], proj, codec).proj, codec).Err?
    ensures var before := UpdateTargets(platform, data[..i], proj, codec).proj;
      UpdateTargets(platform, data, proj, codec)
        == Run(before, Some(UpdateTarget(platform, data[i].0, data[i].1, before, codec).message))
  {
    assert data == data[..i] + data[i..];
    UpdateTargetsAppend(platform, data[..i], data[i..], proj, codec);
    assert data[i..][0] == data[i];
  }

  // ---------------------------------------------------------------------------------------
  // What each platform touches

  /** Targets that dispatch nowhere leave the project as it was. */
  lemma {:induction false} NothingDispatched<V>(platform: string, data: ConfigData, proj: Project, codec: PlistCodec<V>)
    requires forall i | 0 <= i < |data| :: DispatchFor(platform, data[i].0) == Ignored
    ensures UpdateTargets(platform, data, proj, codec) == Run(proj, None)
    decreases |data|
  {
    if |data| > 0 {
      assert DispatchFor(platform, data[0].0) == Ignored;
      assert forall i | 0 <= i < |data| - 1 :: data[1..][i] == data[i + 1];
      NothingDispatched(platform, data[1..], proj, codec);
    }
  }

  /** On any platform other than `ios` and `android` nothing is written, and the run fails
      exactly when parsing throws. */
  lemma OtherPlatformsUntouched<V>(doc: Element, platform: string, proj: Project, codec: PlistCodec<V>)
    requires platform != IosPlatform && platform != AndroidPlatform
    ensures var r := UpdatePlatformConfig(doc, platform, proj, codec);
      r.proj == proj && (r.failure.None? <==> !ParseThrows(doc, platform))
  {
    if !ParseThrows(doc, platform) {
      NothingDispatched(platform, ParseConfigXmlAsWritten(doc, platform), proj, codec);
    }
  }

  /** With distinct targets, the Android update is exactly the manifest merge of the
      `AndroidManifest.xml` records; it fails, writing nothing, when the manifest is missing
      or some record's parent is an absolute path, and writes nothing when no such target
      exists. */
  lemma {:induction false} AndroidTargets<V>(data: ConfigData, proj: Project, codec: PlistCodec<V>)
    requires Distinct(Keys(data))
    ensures var r := UpdateTargets(AndroidPlatform, data, proj, codec);
      match Get(data, ManifestTarget)
      case None => r == Run(proj, None)
      case Some(recs) =>
        match proj.manifest
        case None => r == Run(proj, Some(ManifestMissing))
        case Some(m) =>
          if exists i | 0 <= i < |recs| :: AbsoluteParent(recs[i]) then r == Run(proj, Some(AbsolutePathRejected))
          else r == Run(proj.(manifest := Some(UpdateAndroidManifest(m, recs))), None)
    decreases |data|
  {
    if |data| > 0 {
      var rest := data[1..];
      assert Keys(rest) == Keys(data)[1..];
      assert forall i | 0 <= i < |rest| :: rest[i] == data[i + 1];
      if data[0].0 == ManifestTarget {
        assert forall i | 0 <= i < |rest| :: rest[i].0 != ManifestTarget by {
          forall i | 0 <= i < |rest| ensures rest[i].0 != ManifestTarget {
            assert Keys(data)[0] != Keys(data)[i + 1];
          }
        }
        if proj.manifest.Some? && !SomeAbsoluteParent(data[0].1) {
          var p := proj.(manifest := Some(UpdateAndroidManifest(proj.manifest.value, data[0].1)));
          NothingDispatched(AndroidPlatform, rest, p, codec);
        }
      } else {
        AndroidTargets(rest, proj, codec);
      }
    }
  }

  /** The Android run: nothing when parsing throws; otherwise the manifest merge of the
      records the source files under `AndroidManifest.xml`, or the missing-manifest error, or
      the absolute-path error, or nothing when no record targets the manifest. */
  lemma AndroidUpdate<V>(doc: Element, proj: Project, codec: PlistCodec<V>)
    ensures var r := UpdatePlatformConfig(doc, AndroidPlatform, proj, codec);
      if ParseThrows(doc, AndroidPlatform) then r == Run(proj, Some(ParseFailure))
      else
        match Get(ParseConfigXmlAsWritten(doc, AndroidPlatform), ManifestTarget)
        case None => r == Run(proj, None)
        case Some(recs) =>
          match proj.manifest
          case None => r == Run(proj, Some(ManifestMissing))
          case Some(m) =>
            if exists i | 0 <= i < |recs| :: AbsoluteParent(recs[i]) then r == Run(proj, Some(AbsolutePathRejected))
            else r == Run(proj.(manifest := Some(UpdateAndroidManifest(m, recs))), None)
  {
    if !ParseThrows(doc, AndroidPlatform) {
      RecordOrderAsWritten(doc, AndroidPlatform, ManifestTarget);
      AndroidTargets(ParseConfigXmlAsWritten(doc, AndroidPlatform), proj, codec);
    }
  }

  /** On `ios` the manifest is never touched. */
  lemma {:induction false} IosKeepsManifest<V>(data: ConfigData, proj: Project, codec: PlistCodec<V>)
    ensures UpdateTargets(IosPlatform, data, proj, codec).proj.manifest == proj.manifest
    decreases |data|
  {
    if |data| > 0 {
      match UpdateTarget(IosPlatform, data[0].0, data[0].1, proj, codec)
      case Err(_) =>
      case Ok(p) => IosKeepsManifest(data[1..], p, codec);
    }
  }

  /** Every successful iOS update leaves a plist with no blank `<string>` element that is
      not empty, provided some target reached it. */
  lemma {:induction false} IosPlistClean<V>(data: ConfigData, proj: Project, codec: PlistCodec<V>)
    requires exists i | 0 <= i < |data| :: Contains(data[i].0, PlistMarker)
    ensures var r := UpdateTargets(IosPlatform, data, proj, codec);
      r.failure.None? ==> Clean(r.proj.plist)
    decreases |data|
  {
    match UpdateTarget(IosPlatform, data[0].0, data[0].1, proj, codec)
    case Err(_) =>
    case Ok(p) =>
      if exists i | 1 <= i < |data| :: Contains(data[i].0, PlistMarker) {
        var i :| 1 <= i < |data| && Contains(data[i].0, PlistMarker);
        assert data[1..][i - 1] == data[i];
        IosPlistClean(data[1..], p, codec);
      } else {
        assert Contains(data[0].0, PlistMarker);
        assert forall i | 0 <= i < |data| - 1 :: data[1..][i] == data[i + 1];
        NothingDispatched(IosPlatform, data[1..], p, codec);
      }
  }

  /** The iOS run keeps the manifest whatever happens, and when it succeeds after some
      target mentioning `Info.plist` it leaves a clean plist. */
  lemma IosUpdate<V>(doc: Element, proj: Project, codec: PlistCodec<V>)
    ensures UpdatePlatformConfig(doc, IosPlatform, proj, codec).proj.manifest == proj.manifest
    ensures var data := ParseConfigXmlAsWritten(doc, IosPlatform);
      var r := UpdatePlatformConfig(doc, IosPlatform, proj, codec);
      r.failure.None? && (exists i | 0 <= i < |data| :: Contains(data[i].0, PlistMarker)) ==> Clean(r.proj.plist)
  {
    var data := ParseConfigXmlAsWritten(doc, IosPlatform);
    if !ParseThrows(doc, IosPlatform) {
      IosKeepsManifest(data, proj, codec);
      if exists i | 0 <= i < |data| :: Contains(data[i].0, PlistMarker) {
        IosPlistClean(data, proj, codec);
      }
    }
  }
}

=== FILE: plist.dfy ===
/** The iOS side of the hook (`updateIosPlist`): each record's fragment is serialised, wrapped
    in a one-entry plist and decoded, and the value replaces the top-level entry named by the
    record's parent. The rebuilt plist text then has every `<string>` element that holds only
    white space emptied. Parsing and building plists is done by a library outside this model:
    the decoder and the builder are parameters. */
module Plist {
  import opened Wrappers
  import opened JsText
  import opened Xml
  import opened OrderedMap
  import opened ConfigXml

  // ---------------------------------------------------------------------------------------
  // Serialising a fragment (`eltreeToXmlString`)

  function Concat(ss: seq<string>): (r: string)
    ensures |ss| == 0 ==> r == []
    decreases |ss|
  {
    if |ss| == 0 then [] else ss[0] + Concat(ss[1..])
  }

  /** `<tag>`, then the trimmed text when it is not blank and otherwise the children in turn,
      then `</tag>`. */
  function Render(n: Element): (r: string)
    ensures |r| >= |n.tag| * 2 + 5
    ensures r[..|n.tag| + 2] == "<" + n.tag + ">"
    ensures r[|r| - |n.tag| - 3..] == "</" + n.tag + ">"
    decreases n
  {
    var inner :=
      if !IsBlank(n.text) then Trim(n.text)
      else Concat(seq(|n.children|, i requires 0 <= i < |n.children| => Render(n.children[i])));
    var open, close := "<" + n.tag + ">", "</" + n.tag + ">";
    assert (open + inner + close)[..|open|] == open;
    assert (open + inner + close)[|open| + |inner|..] == close;
    open + inner + close
  }

  /** Two trees that differ at most in attributes. */
  predicate SameBarAttributes(a: Element, b: Element)
    decreases a
  {
    && a.tag == b.tag && a.text == b.text && |a.children| == |b.children|
    && forall i | 0 <= i < |a.children| :: SameBarAttributes(a.children[i], b.children[i])
  }

  /** Attributes never reach the serialised text, at any depth. */
  lemma {:induction false} RenderIgnoresAttributes(a: Element, b: Element)
    requires SameBarAttributes(a, b)
    ensures Render(a) == Render(b)
    decreases a
  {
    forall i | 0 <= i < |a.children| ensures Render(a.children[i]) == Render(b.children[i]) {
      RenderIgnoresAttributes(a.children[i], b.children[i]);
    }
    assert seq(|a.children|, i requires 0 <= i < |a.children| => Render(a.children[i]))
        == seq(|b.children|, i requires 0 <= i < |b.children| => Render(b.children[i]));
  }

  /** Non-blank text hides the children: the element renders as if it had none. */
  lemma TextHidesChildren(n: Element)
    requires !IsBlank(n.text)
    ensures Render(n) == Render(n.(children := []))
  {
  }

  /** The one-entry plist document each record is decoded from. */
  function WrapperXml(key: string, data: Element): string {
    "<plist><dict><key>" + key + "</key>" + Render(data) + "</dict></plist>"
  }

  // ---------------------------------------------------------------------------------------
  // Replacing top-level entries

  /** The value a record decodes to, or the decoder's error. */
  function PlistValue<V>(rec: Record, decode: string -> Result<V>): Result<V> {
    decode(WrapperXml(rec.parent, rec.data))
  }

  /** `infoPlist[item.parent] = value` for each record in turn; a decoding failure aborts. */
  function ApplyPlistRecords<V>(d: seq<(string, V)>, recs: seq<Record>, decode: string -> Result<V>): (r: Result<seq<(string, V)>>)
    ensures r.Err? <==> exists i | 0 <= i < |recs| :: PlistValue(recs[i], decode).Err?
    decreases |recs|
  {
    if |recs| == 0 then Ok(d)
    else
      match PlistValue(recs[0], decode)
      case Err(e) => Err(e)
      case Ok(v) =>
        assert forall i | 1 <= i < |recs| :: recs[i] == recs[1..][i - 1];
        ApplyPlistRecords(Put(d, recs[0].parent, v), recs[1..], decode)
  }

  /** The last record whose parent is `key`. */
  function LastRecordFor(recs: seq<Record>, key: string): (r: Option<Record>)
    ensures r.None? <==> forall i | 0 <= i < |recs| :: recs[i].parent != key
    ensures r.Some? ==> r.value.parent == key && exists i | 0 <= i < |recs| ::
      (recs[i] == r.value && forall j | i < j < |recs| :: recs[j].parent != key)
    decreases |recs|
  {
    if |recs| == 0 then None
    else
      var rest := LastRecordFor(recs[1..], key);
      assert forall j | 1 <= j < |recs| :: recs[j] == recs[1..][j - 1];
      if rest.Some? then rest
      else if recs[0].parent == key then Some(recs[0])
      else None
  }

  /** After a successful update the entry at `key` is the value of the last record for it,
      or the original entry when no record names it: keys are the old ones plus the records'
      parents, and nothing else changes. */
  lemma {:induction false} PlistLastRecordWins<V>(d: seq<(string, V)>, recs: seq<Record>, decode: string -> Result<V>, key: string)
    requires ApplyPlistRecords(d, recs, decode).Ok?
    ensures LastRecordFor(recs, key).Some? ==>
      var rec := LastRecordFor(recs, key).value;
      PlistValue(rec, decode).Ok? && Get(ApplyPlistRecords(d, recs, decode).value, key) == Some(PlistValue(rec, decode).value)
    ensures LastRecordFor(recs, key).None? ==> Get(ApplyPlistRecords(d, recs, decode).value, key) == Get(d, key)
    decreases |recs|
  {
    if |recs| > 0 {
      assert PlistValue(recs[0], decode).Ok?;
      var v := PlistValue(recs[0], decode).value;
      var d1 := Put(d, recs[0].parent, v);
      assert ApplyPlistRecords(d, recs, decode) == ApplyPlistRecords(d1, recs[1..], decode);
      PlistLastRecordWins(d1, recs[1..], decode, key);
    }
  }

  /** Keys stay distinct: an existing entry is replaced in place, never duplicated. */
  lemma {:induction false} PlistKeysDistinct<V>(d: seq<(string, V)>, recs: seq<Record>, decode: string -> Result<V>)
    requires Distinct(Keys(d)) && ApplyPlistRecords(d, recs, decode).Ok?
    ensures Distinct(Keys(ApplyPlistRecords(d, recs, decode).value))
    decreases |recs|
  {
    if |recs| > 0 {
      var v := PlistValue(recs[0], decode).value;
      PutDistinct(d, recs[0].parent, v);
      PlistKeysDistinct(Put(d, recs[0].parent, v), recs[1..], decode);
    }
  }

  // ---------------------------------------------------------------------------------------
  // Emptying blank string elements (`/<string>[\s\r\n]*<\/string>/g`)

  const OpenString := "<string>"
  const CloseString := "</string>"

  /** When `s` starts with a `<string>` element holding only white space, the length of that
      white space. */
  function BlankStringAt(s: string): (r: Option<nat>)
    ensures r.Some? ==>
      && |OpenString| + r.value + |CloseString| <= |s|
      && s[..|OpenString|] == OpenString
      && AllSpace(s[|OpenString|..|OpenString| + r.value])
      && s[|OpenString| + r.value..|OpenString| + r.value + |CloseString|] == CloseString
  {
    if |s| >= |OpenString| && s[..|OpenString|] == OpenString then
      var rest := s[|OpenString|..];
      var w := LeadingSpace(rest);
      if |rest| - w >= |CloseString| && rest[w..w + |CloseString|] == CloseString then
        SuffixSlices(s, |OpenString|, w, |CloseString|);
        Some(w)
      else None
    else None
  }

  lemma SuffixSlices(s: string, a: nat, w: nat, c: nat)
    requires a + w + c <= |s|
    ensures s[a..][..w] == s[a..a + w]
    ensures s[a..][w..w + c] == s[a + w..a + w + c]
  {
  }

  /** A blank element is found wherever one starts: the match is exact. */
  lemma BlankStringExact(s: string, w: nat)
    requires |OpenString| + w + |CloseString| <= |s|
    requires s[..|OpenString|] == OpenString
    requires AllSpace(s[|OpenString|..|OpenString| + w])
    requires s[|OpenString| + w..|OpenString| + w + |CloseString|] == CloseString
    ensures BlankStringAt(s) == Some(w)
  {
    var rest := s[|OpenString|..];
    SuffixSlices(s, |OpenString|, w, |CloseString|);
    assert rest[w] == CloseString[0];
    LeadingSpaceIs(rest, w);
  }

  /** The global replace: scanning left to right, each blank `<string>` element becomes
      `<string></string>` and scanning resumes after it. */
  function CollapseBlankStrings(s: string): (r: string)
    decreases |s|
  {
    if |s| == 0 then []
    else
      match BlankStringAt(s)
      case Some(w) => OpenString + CloseString + CollapseBlankStrings(s[|OpenString| + w + |CloseString|..])
      case None => [s[0]] + CollapseBlankStrings(s[1..])
  }

  /** Every `<string>` element holding only white space is empty. */
  predicate Clean(s: string) {
    forall k | 0 <= k < |s| :: BlankStringAt(s[k..]).Some? ==> BlankStringAt(s[k..]).value == 0
  }

  lemma CleanSuffix(s: string, n: nat)
    requires Clean(s) && n <= |s|
    ensures Clean(s[n..])
  {
    forall k | 0 <= k < |s| - n ensures s[n..][k..] == s[n + k..] {
    }
  }

  /** A text with no non-empty blank element is left as it is. */
  lemma {:induction false} CleanUnchanged(s: string)
    requires Clean(s)
    ensures CollapseBlankStrings(s) == s
    decreases |s|
  {
    if |s| > 0 {
      var n := CleanFirst(s);
      CleanUnchanged(s[n..]);
      assert s == s[..n] + s[n..];
    }
  }

  /** The first step of the rewrite on clean text copies what it consumes. */
  lemma CleanFirst(s: string) returns (n: nat)
    requires Clean(s) && |s| > 0
    ensures 0 < n <= |s| && Clean(s[n..])
    ensures CollapseBlankStrings(s) == s[..n] + CollapseBlankStrings(s[n..])
  {
    assert s[0..] == s;
    match BlankStringAt(s)
    case Some(w) =>
      n := |OpenString| + |CloseString|;
      assert s[..n] == OpenString + CloseString;
    case None =>
      n := 1;
    CleanSuffix(s, n);
  }

  /** No `<` in `x` begins a `<s`. */
  predicate NoOpenStart(x: string) {
    forall j | 0 <= j < |x| && x[j] == '<' :: j + 1 < |x| && x[j + 1] != 's'
  }

  /** A replacement begins `<s`. */
  lemma CollapseOpens(t: string)
    ensures BlankStringAt(t).Some? ==>
      var r := CollapseBlankStrings(t);
      |r| >= 2 && r[0] == '<' && r[1] == 's'
  {
  }

  lemma NoOpenPrefix(x: string, r: string)
    requires x <= r && NoOpenStart(x) && |x| > 0
    ensures x[0] == r[0] && (r[0] == '<' ==> |r| > 1 && r[1] != 's')
  {
    assert x[0] == r[0];
    if x[0] == '<' {
      assert x[1] == r[1];
    }
  }

  /** Text before the first replacement is copied: an output prefix that cannot overlap a
      replacement is a prefix of the input. */
  lemma {:induction false} PrefixSurvives(t: string, x: string)
    requires x <= CollapseBlankStrings(t) && NoOpenStart(x)
    ensures x <= t
    decreases |t|
  {
    if |x| > 0 && |t| > 0 {
      CollapseOpens(t);
      NoOpenPrefix(x, CollapseBlankStrings(t));
      match BlankStringAt(t)
      case Some(w) =>
        assert false;
      case None =>
        var r := CollapseBlankStrings(t);
        assert r == [t[0]] + CollapseBlankStrings(t[1..]);
        assert x[1..] <= CollapseBlankStrings(t[1..]);
        assert NoOpenStart(x[1..]) by {
          forall j | 0 <= j < |x| - 1 && x[1..][j] == '<' ensures j + 1 < |x| - 1 && x[1..][j + 1] != 's' {
            assert x[j + 1] == '<';
          }
        }
        PrefixSurvives(t[1..], x[1..]);
        assert x == [t[0]] + x[1..];
    }
  }

  /** A blank element depends only on the text it spans. */
  lemma SamePrefixBlank(a: string, b: string, w: nat)
    requires BlankStringAt(a) == Some(w)
    requires |OpenString| + w + |CloseString| <= |b|
    requires a[..|OpenString| + w + |CloseString|] == b[..|OpenString| + w + |CloseString|]
    ensures BlankStringAt(b) == Some(w)
  {
    var l, o := |OpenString| + w + |CloseString|, |OpenString|;
    SliceOfPrefix(a, l, 0, o);
    SliceOfPrefix(b, l, 0, o);
    SliceOfPrefix(a, l, o, o + w);
    SliceOfPrefix(b, l, o, o + w);
    SliceOfPrefix(a, l, o + w, l);
    SliceOfPrefix(b, l, o + w, l);
    assert a[..o] == a[0..o] && b[..o] == b[0..o];
    BlankStringExact(b, w);
  }

  lemma SliceOfPrefix(s: string, l: nat, i: nat, j: nat)
    requires i <= j <= l <= |s|
    ensures s[..l][i..j] == s[i..j]
  {
  }

  /** The text a blank element spans, less its first `<`, has no `<` starting `<s`. */
  lemma BlankTailNoOpen(r: string, w: nat)
    requires BlankStringAt(r) == Some(w)
    ensures NoOpenStart(r[1..|OpenString| + w + |CloseString|])
  {
    var l := |OpenString| + w + |CloseString|;
    var x := r[1..l];
    forall j | 0 <= j < |x| ensures x[j] == '<' ==> j + 1 < |x| && x[j + 1] != 's' {
      assert x[j] == r[j + 1];
      if j + 1 < |OpenString| {
        assert r[j + 1] == r[..|OpenString|][j + 1];
      } else if j + 1 < |OpenString| + w {
        assert r[j + 1] == r[|OpenString|..|OpenString| + w][j + 1 - |OpenString|];
      } else {
        assert r[j + 1] == r[|OpenString| + w..l][j + 1 - |OpenString| - w];
        if j + 1 == |OpenString| + w {
          assert x[j + 1] == r[|OpenString| + w..l][1];
        }
      }
    }
  }

  /** A blank element at the front of the output, before the first replacement, was already
      at the front of the input. */
  lemma BlankAtHead(s: string)
    ensures |s| > 0 && BlankStringAt([s[0]] + CollapseBlankStrings(s[1..])).Some? ==>
      BlankStringAt(s) == BlankStringAt([s[0]] + CollapseBlankStrings(s[1..]))
  {
    if |s| > 0 && BlankStringAt([s[0]] + CollapseBlankStrings(s[1..])).Some? {
      var r := [s[0]] + CollapseBlankStrings(s[1..]);
      var w := BlankStringAt(r).value;
      var l := |OpenString| + w + |CloseString|;
      BlankTailNoOpen(r, w);
      var x := r[1..l];
      assert x <= CollapseBlankStrings(s[1..]);
      PrefixSurvives(s[1..], x);
      assert r[..l] == [r[0]] + x;
      assert s[..l] == [s[0]] + s[1..l];
      SamePrefixBlank(r, s, w);
    }
  }

  /** The replacement text is itself clean, and clean before any clean text. */
  lemma ReplacementClean(rest: string)
    requires Clean(rest)
    ensures Clean(OpenString + CloseString + rest)
  {
    var e := OpenString + CloseString;
    var r := e + rest;
    forall k | 0 <= k < |r| ensures BlankStringAt(r[k..]).Some? ==> BlankStringAt(r[k..]).value == 0 {
      if k >= |e| {
        assert r[k..] == rest[k - |e|..];
      } else if k == 0 {
        assert r[..|OpenString|] == OpenString;
        assert r[|OpenString|..|e|] == CloseString;
        BlankStringExact(r, 0);
      } else {
        var t := r[k..];
        assert t[0] == e[k];
        if k == |OpenString| {
          assert t[1] == '/';
          assert t[..|OpenString|] != OpenString by {
            assert t[..|OpenString|][1] != OpenString[1];
          }
        } else if |t| >= |OpenString| {
          assert t[..|OpenString|] != OpenString by {
            assert t[..|OpenString|][0] != OpenString[0];
          }
        }
      }
    }
  }

  lemma ConsClean(c: char, rest: string)
    requires Clean(rest) && BlankStringAt([c] + rest).None?
    ensures Clean([c] + rest)
  {
    var r := [c] + rest;
    forall k | 1 <= k < |r| ensures r[k..] == rest[k - 1..] {
    }
  }

  /** After the rewrite every `<string>` element holding only white space is empty. */
  lemma {:induction false} CollapseClean(s: string)
    ensures Clean(CollapseBlankStrings(s))
    decreases |s|
  {
    if |s| > 0 {
      match BlankStringAt(s)
      case Some(w) =>
        CollapseClean(s[|OpenString| + w + |CloseString|..]);
        CleanAfterBlank(s, w);
      case None =>
        CollapseClean(s[1..]);
        CleanAfterOther(s);
    }
  }

  lemma CleanAfterBlank(s: string, w: nat)
    requires BlankStringAt(s) == Some(w)
    requires Clean(CollapseBlankStrings(s[|OpenString| + w + |CloseString|..]))
    ensures Clean(CollapseBlankStrings(s))
  {
    var rest := CollapseBlankStrings(s[|OpenString| + w + |CloseString|..]);
    assert CollapseBlankStrings(s) == OpenString + CloseString + rest;
    ReplacementClean(rest);
  }

  lemma CleanAfterOther(s: string)
    requires |s| > 0 && BlankStringAt(s).None?
    requires Clean(CollapseBlankStrings(s[1..]))
    ensures Clean(CollapseBlankStrings(s))
  {
    assert CollapseBlankStrings(s) == [s[0]] + CollapseBlankStrings(s[1..]);
    BlankAtHead(s);
    ConsClean(s[0], CollapseBlankStrings(s[1..]));
  }

  /** Rewriting a second time changes nothing. */
  lemma CollapseIdempotent(s: string)
    ensures CollapseBlankStrings(CollapseBlankStrings(s)) == CollapseBlankStrings(s)
  {
    CollapseClean(s);
    CleanUnchanged(CollapseBlankStrings(s));
  }

  // ---------------------------------------------------------------------------------------
  // The whole file

  /** The plist library: reading a plist file into its top-level dictionary, decoding the
      value of a one-entry plist, and writing a dictionary back as text. */
  datatype PlistCodec<!V> = PlistCodec(
    parseFile: string -> Result<seq<(string, V)>>,
    decode: string -> Result<V>,
    build: seq<(string, V)> -> string)

  /** The dictionary `updateIosPlist` builds: the file's top-level dictionary with each key a
      record names holding the value of its last record, every other entry as it was. A
      failure to read the file or to decode a record is the result. */
  function UpdatedDict<V>(text: string, recs: seq<Record>, codec: PlistCodec<V>): (r: Result<seq<(string, V)>>)
    ensures codec.parseFile(text).Err? ==> r.Err?
    ensures codec.parseFile(text).Ok? ==>
      (r.Err? <==> exists i | 0 <= i < |recs| :: PlistValue(recs[i], codec.decode).Err?)
    ensures r.Ok? ==> forall key {:trigger Get(r.value, key)} | LastRecordFor(recs, key).Some? ::
      var rec := LastRecordFor(recs, key).value;
      PlistValue(rec, codec.decode).Ok? && Get(r.value, key) == Some(PlistValue(rec, codec.decode).value)
    ensures r.Ok? ==> forall key {:trigger Get(r.value, key)} | LastRecordFor(recs, key).None? ::
      Get(r.value, key) == Get(codec.parseFile(text).value, key)
  {
    match codec.parseFile(text)
    case Err(e) => Err(e)
    case Ok(d) =>
      var r := ApplyPlistRecords(d, recs, codec.decode);
      if r.Ok? then
        assert forall key :: LastRecordFor(recs, key).Some? ==>
          var rec := LastRecordFor(recs, key).value;
          PlistValue(rec, codec.decode).Ok? && Get(r.value, key) == Some(PlistValue(rec, codec.decode).value) by {
          forall key { PlistLastRecordWins(d, recs, codec.decode, key); }
        }
        assert forall key :: LastRecordFor(recs, key).None? ==> Get(r.value, key) == Get(d, key) by {
          forall key { PlistLastRecordWins(d, recs, codec.decode, key); }
        }
        r
      else r
  }

  /** `updateIosPlist` from file text to file text: the updated dictionary, written back by
      the library with its blank strings emptied. Any library failure is the result. */
  function UpdateIosPlist<V>(text: string, recs: seq<Record>, codec: PlistCodec<V>): (r: Result<string>)
    ensures r.Ok? <==> UpdatedDict(text, recs, codec).Ok?
    ensures r.Ok? ==> r.value == CollapseBlankStrings(codec.build(UpdatedDict(text, recs, codec).value))
    ensures r.Ok? ==> Clean(r.value)
  {
    match UpdatedDict(text, recs, codec)
    case Err(e) => Err(e)
    case Ok(m) =>
      CollapseClean(codec.build(m));
      Ok(CollapseBlankStrings(codec.build(m)))
  }
}

=== FILE: wrappers.dfy ===
/** Option and Result types shared by every module of the model. */
module Wrappers {

  /** A value that may be missing: JavaScript's `undefined` / `null`. */
  datatype Option<+T> = None | Some(value: T) {
    function GetOr(default: T): T {
      match this
      case Some(v) => v
      case None => default
    }
  }

  /** The outcome of a step that can throw: the thrown message on failure. */
  datatype Result<+T> = Ok(value: T) | Err(message: string)
}

=== FILE: xml.dfy ===
/** The element tree the hook reads and rewrites: an element has a tag, an attribute map,
    its text and its ordered children. A node inside a tree is named by its position: the
    child indices that lead to it from the root. */
module Xml {
  import opened Wrappers

  datatype Element = Element(tag: string, attrs: map<string, string>, text: string, children: seq<Element>)

  type Pos = seq<nat>

  function GetAttr(n: Element, name: string): Option<string> {
    if name in n.attrs then Some(n.attrs[name]) else None
  }

  /** The children of a node carrying a given tag, in document order. */
  function ChildrenTagged(cs: seq<Element>, tag: string): (r: seq<Element>)
    ensures forall c | c in r :: c in cs && c.tag == tag
    ensures forall c | c in cs && c.tag == tag :: c in r
  {
    if |cs| == 0 then []
    else (if cs[0].tag == tag then [cs[0]] else []) + ChildrenTagged(cs[1..], tag)
  }

  predicate ValidPos(t: Element, p: Pos)
    decreases |p|
  {
    |p| == 0 || (p[0] < |t.children| && ValidPos(t.children[p[0]], p[1..]))
  }

  function At(t: Element, p: Pos): Element
    requires ValidPos(t, p)
    decreases |p|
  {
    if |p| == 0 then t else At(t.children[p[0]], p[1..])
  }

  /** The node at `p + s` is the node at `s` below the node at `p`. */
  lemma {:induction false} AtAppend(t: Element, p: Pos, s: Pos)
    ensures ValidPos(t, p + s) <==> ValidPos(t, p) && ValidPos(At(t, p), s)
    ensures ValidPos(t, p + s) ==> At(t, p + s) == At(At(t, p), s)
    decreases |p|
  {
    if |p| > 0 {
      assert (p + s)[0] == p[0];
      assert (p + s)[1..] == p[1..] + s;
      if p[0] < |t.children| {
        AtAppend(t.children[p[0]], p[1..], s);
      }
    } else {
      assert p + s == s;
    }
  }

  /** The `i`-th child of the node at `p` sits at `p + [i]`. */
  lemma ChildPos(t: Element, p: Pos, i: nat)
    requires ValidPos(t, p) && i < |At(t, p).children|
    ensures ValidPos(t, p + [i]) && At(t, p + [i]) == At(t, p).children[i]
  {
    AtAppend(t, p, [i]);
  }

  /** Every prefix of a valid position is valid. */
  lemma PrefixPos(t: Element, p: Pos, q: Pos)
    requires ValidPos(t, p) && q <= p
    ensures ValidPos(t, q)
  {
    assert p == q + p[|q|..];
    AtAppend(t, q, p[|q|..]);
  }

  /** The tree with the node at `p` replaced by `n`. */
  function ReplaceAt(t: Element, p: Pos, n: Element): (r: Element)
    requires ValidPos(t, p)
    ensures ValidPos(r, p) && At(r, p) == n
    ensures |p| > 0 ==> r.tag == t.tag && r.attrs == t.attrs && r.text == t.text && |r.children| == |t.children|
    decreases |p|
  {
    if |p| == 0 then n
    else t.(children := t.children[p[0] := ReplaceAt(t.children[p[0]], p[1..], n)])
  }

  /** Replacing the node at `p` leaves every node that is not below `p` in place: an ancestor
      keeps its tag, attributes, text and number of children, and a node beside the path is
      untouched. Below `p` the tree is the replacement's. */
  lemma {:induction false} ReplaceAtElsewhere(t: Element, p: Pos, n: Element, q: Pos)
    requires ValidPos(t, p)
    ensures !(p <= q) ==>
      (ValidPos(ReplaceAt(t, p, n), q) <==> ValidPos(t, q))
    ensures !(p <= q) && ValidPos(t, q) ==>
      var r := ReplaceAt(t, p, n);
      && At(r, q).tag == At(t, q).tag && At(r, q).attrs == At(t, q).attrs
      && At(r, q).text == At(t, q).text && |At(r, q).children| == |At(t, q).children|
      && (!(q <= p) ==> At(r, q) == At(t, q))
    ensures forall s :: ValidPos(ReplaceAt(t, p, n), p + s) <==> ValidPos(n, s)
    ensures forall s :: ValidPos(n, s) ==> At(ReplaceAt(t, p, n), p + s) == At(n, s)
    decreases |p|
  {
    var r := ReplaceAt(t, p, n);
    forall s ensures ValidPos(r, p + s) <==> ValidPos(n, s)
      ensures ValidPos(n, s) ==> At(r, p + s) == At(n, s)
    {
      AtAppend(r, p, s);
    }
    if |p| > 0 && |q| > 0 {
      var c := t.children[p[0]];
      if q[0] == p[0] {
        ReplaceAtElsewhere(c, p[1..], n, q[1..]);
        assert p <= q <==> p[1..] <= q[1..];
        assert q <= p <==> q[1..] <= p[1..];
      } else {
        assert !(q <= p);
      }
    }
  }

  /** A second replacement at the same position discards the first. */
  lemma {:induction false} ReplaceTwice(t: Element, p: Pos, a: Element, b: Element)
    requires ValidPos(t, p)
    ensures ReplaceAt(ReplaceAt(t, p, a), p, b) == ReplaceAt(t, p, b)
    decreases |p|
  {
    if |p| > 0 {
      ReplaceTwice(t.children[p[0]], p[1..], a, b);
    }
  }

  /** Replacing a node by itself changes nothing. */
  lemma {:induction false} ReplaceSame(t: Element, p: Pos)
    requires ValidPos(t, p)
    ensures ReplaceAt(t, p, At(t, p)) == t
    decreases |p|
  {
    if |p| > 0 {
      ReplaceSame(t.children[p[0]], p[1..]);
      assert t.children[p[0] := t.children[p[0]]] == t.children;
    }
  }
}
